=== FILE: README.md ===
# Stock similarity: a Dafny model

This project models the similarity engine of a stock-analysis back end (a
RuoYi FastAPI application) and the response scrubber of its front end.

Given a base security, the engine does the following:

- It collects the securities of the base security's industry section.
- It scores each of them against the base security with one of eight
  methods:
  - four distance or statistics methods over aligned daily series: DTW,
    Pearson, Euclidean and cointegration;
  - two candle methods: shape and position;
  - two graph methods over per-day price graphs: graph editing and maximum
    common subgraph.
- It ranks the scores, keeps the requested number and attaches a
  cumulative-return comparison.

The K-line data-access layer supplies the chart data. That data passes a
code guard, a look-back table, moving averages and a float sanitiser. The
same layer also runs a quick correlation screener, which keeps at most ten
securities. The front end scrubs NaN and infinities out of API responses.

The model covers each of these as pure functions over immutable data, and it
proves their contracts: ranges, if-and-only-if characterisations, symmetry,
idempotence, stability of the ranking, and agreement between one-pass loops
and their declarative definitions.

## Layout

| file | module | models |
|---|---|---|
| common.dfy | `Common` | `Option`, the IEEE-style `Num`, sums and means |
| ordering.dfy | `Ordering` | filtering, and a stable descending insertion sort on indices |
| ranking.dfy | `Ranking` | `sort(key, reverse=True)` followed by a Python slice `[:n]` |
| series.dfy | `Series` | daily rows, the common calendar, `.loc` alignment, ratio series |
| numeric_methods.dfy | `NumericMethods` | the DTW, Euclidean, Pearson and cointegration wrappers |
| candle_methods.dfy | `CandleMethods` | the shape and position strategies |
| dispatch.dfy | `Dispatch` | `_calculate_stock_similarity` |
| price_graph.dfy | `PriceGraph` | `_create_price_graph` |
| graph_editing.dfy | `GraphEditing` | `_calculate_graph_similarity` |
| clique.dfy | `Clique` | `_find_max_clique` |
| simplified.dfy | `Simplified` | `_calculate_simplified_similarity` and `_calculate_feature_similarity` |
| max_common_subgraph.dfy | `MaxCommonSubgraph` | `_calculate_mcs_similarity` and its node and edge checks |
| universe.dfy | `Universe` | `get_section_all_stock_code` |
| performance.dfy | `Performance` | `_get_performance_comparison` |
| service.dfy | `Service` | `calculate_similarity` |
| kline.dfy | `KLine` | the chart read, `safe_float_list`, the listing's paging and code default |
| screening.dfy | `Screening` | `_find_similar_stocks_sync` |
| sanitize.dfy | `Sanitize` | `sanitizeData` and `handleResponse` |

## Design notes

- **Library numerics.**
  - fastdtw, `np.corrcoef`, statsmodels' `coint` and `sqrt` are fields of a
    `Numerics` record of functions.
  - `ValidNumerics` states the ranges the wrappers rely on:
    - the DTW distance is non-negative;
    - the correlation is in [-1, 1], with NaN as `None`;
    - the p-value is in [0, 1];
    - `sqrt` is non-negative and is zero only at zero.
  - Symmetry lemmas also assume `SymmetricNumerics`: DTW and correlation do
    not depend on argument order. The cointegration test does depend on
    order, so it is left out of the dispatcher's symmetry lemma.
- **Rows and dates.**
  - Dates are day numbers.
  - The common calendar is the first series' dates that also occur in the
    second, in the first series' order. An aligned row is the first row
    with its date.
  - Symmetry lemmas need chronological series (strictly increasing dates).
    The loader produces these with `ORDER BY timestamps`.
- **Graphs.**
  - A price graph is a path: nodes in row order and one weight per
    consecutive pair.
  - Nodes are identified by position. This matches networkx's date keys
    when every date occurs once.
  - A product-graph edge needs an edge in both path graphs. Because of that,
    no three product nodes are pairwise adjacent, and the greedy clique has
    at most two members (`MaxCommonSubgraph.CliqueAtMostTwo`). The maximum
    common subgraph score is therefore 0, 1/(n1+n2-1) or 2/(n1+n2-2).
    `MaxCommonSubgraph.McsSelfScore` shows that a graph of n days scores
    against itself only 1/(n-1).
- **Randomness.** The node-limit fallback samples nodes at random. The
  sample positions are parameters; `Service.Env.samples` supplies them per
  security.
- **Database reads.** Name lookups, peer queries, data reads and the
  returns query are function parameters.
  - A missing name makes the source raise. That path is modelled as
    `Failure` or `Raised`.
- **Python `re.match` with `$`.** The `$` also matches before one final
  newline, so the code guard accepts `"600000\n"`
  (`KLine.TrailingNewlineAccepted`).
- **Python slices.** `[:n]` with a negative `n` drops elements from the end
  (`Ranking.SliceEnd`).
- **Pearson loop.** An unknown indicator name reuses the previous `corr`.
  An unknown first name raises `NameError`, which the method's `try` turns
  into 0.
- **Code versus docstring.** The position method's docstring promises
  "smaller sum over larger sum". When both sums are negative, that quotient
  exceeds 1 (`CandleMethods.PositionCanExceedOne`). The model follows the
  code, so position scores are not bounded by 1. For that reason the
  dispatcher's [0, 1] bound excludes position, and it excludes shape unless
  the candles are well formed.

## Model

Paths are relative to the repository root.
Here `similar_service.py` is `ruoyi-fastapi-backend/module_stock/service/similar_service.py`,
`kLine_dao.py` is `ruoyi-fastapi-backend/module_stock/dao/kLine_dao.py` and
`stockReturn.js` is `ruoyi-fastapi-frontend/src/api/stock/stockReturn.js`. The table cites them in full.

| member | source | states |
|---|---|---|
| Series.CommonDates | ruoyi-fastapi-backend/module_stock/service/similar_service.py:187 | the common calendar holds exactly the dates both securities trade, and no more entries than the first series has rows |
| Series.AlignPair | ruoyi-fastapi-backend/module_stock/service/similar_service.py:187-193 | the two aligned frames have one row per common date, carry the same date at each position and take their rows from the respective series |
| Series.CommonDatesSymmetric | ruoyi-fastapi-backend/module_stock/service/similar_service.py:187 | for chronological series the common calendar does not depend on which security comes first |
| Series.AlignSelf | ruoyi-fastapi-backend/module_stock/service/similar_service.py:187-193 | a chronological series aligned with itself comes back unchanged |
| Series.TurnoverInUnitRange | ruoyi-fastapi-backend/module_stock/service/similar_service.py:255-256 | with positive volumes the maximum volume is non-zero, and volume over the maximum volume lies in (0, 1] on every day |
| Series.RefPricedAligned | ruoyi-fastapi-backend/module_stock/service/similar_service.py:187-193 | rows with non-zero previous closes keep that property through alignment, so the aligned frames of such series can be read as price changes |
| Series.AlignedRefPricedSymmetric | ruoyi-fastapi-backend/module_stock/service/similar_service.py:187-193 | for chronological series, the aligned frames have non-zero previous closes in one argument order exactly when they do in the other |
| Series.AlignedPricedAfterFirstSymmetric | ruoyi-fastapi-backend/module_stock/service/similar_service.py:187-193 | the same for non-zero previous closes after the first aligned day |
| Series.PricedAfterFirstCases | ruoyi-fastapi-backend/module_stock/service/similar_service.py:1047-1052 | frames priced on every day are priced after the first; a frame priced after the first is priced on every day exactly when its first previous close is non-zero |
| Series.AlignPairIdempotent | ruoyi-fastapi-backend/module_stock/service/similar_service.py:1038-1044 | aligning already aligned frames again, as the position method does, gives them back unchanged |
| Series.IntersectAll | ruoyi-fastapi-backend/module_stock/service/similar_service.py:1038 | intersecting with an index that holds every date keeps all the dates, in order |
| Series.AlignAgain | ruoyi-fastapi-backend/module_stock/service/similar_service.py:1043-1044 | `.loc` on the same dates twice is `.loc` once |
| Dispatch.ListingDayComputable | ruoyi-fastapi-backend/module_stock/service/similar_service.py:182-209 | a pair whose first common day has a previous close of 0 can be scored by position but not by shape |
| Dispatch.StockSimilarity | ruoyi-fastapi-backend/module_stock/service/similar_service.py:182-209 | fewer than two common days score 0; every method but shape and position scores in [0, 1]; shape scores in [0, 1] on well-formed candles. The caller must supply frames on which the chosen method's ratios are defined |
| Dispatch.ComputableSymmetric | ruoyi-fastapi-backend/module_stock/service/similar_service.py:182-209 | for chronological series, whether a method's ratios are defined on the aligned frames does not depend on which security comes first |
| Dispatch.UnknownMethodFallsBackToDtw | ruoyi-fastapi-backend/module_stock/service/similar_service.py:207-209 | an unrecognised method identifier scores exactly as "dtw" |
| Dispatch.StockSimilaritySymmetric | ruoyi-fastapi-backend/module_stock/service/similar_service.py:182-209 | for chronological series and order-independent numerics, every method but cointegration gives the same score with the two securities swapped |
| NumericMethods.Selected | ruoyi-fastapi-backend/module_stock/service/similar_service.py:230-259 | an indicator is used exactly when its name is requested; nothing is used exactly when no known name is requested |
| NumericMethods.DistanceToScore | ruoyi-fastapi-backend/module_stock/service/similar_service.py:267-269 | 1/(1+d) maps a non-negative distance into (0, 1], reaches 1 only at distance 0 and stays at least 0.5 for d <= 1 |
| NumericMethods.DistanceToScoreInverse | ruoyi-fastapi-backend/module_stock/service/similar_service.py:267-269 | the score times 1 + d is 1, so the distance can be read back from the score |
| NumericMethods.DistanceToScoreAntitone | ruoyi-fastapi-backend/module_stock/service/similar_service.py:267-269 | a larger distance never scores higher, and a strictly larger one scores strictly lower |
| NumericMethods.MeanScoreInverse | ruoyi-fastapi-backend/module_stock/service/similar_service.py:267-269 | a non-empty list of non-negative distances scores the inverse of 1 + their mean, and scores 1 exactly when every distance is 0 |
| NumericMethods.DtwSimilarity | ruoyi-fastapi-backend/module_stock/service/similar_service.py:227-270 | the DTW score is 0 exactly when no known indicator is requested, and in (0, 1] otherwise |
| NumericMethods.DtwPerfectIffAllZero | ruoyi-fastapi-backend/module_stock/service/similar_service.py:227-270 | with a known indicator requested, the DTW score is 1 exactly when every selected indicator's DTW distance is 0 |
| NumericMethods.DtwSymmetric | ruoyi-fastapi-backend/module_stock/service/similar_service.py:227-270 | with an order-independent DTW the score does not depend on argument order |
| NumericMethods.EuclideanSimilarity | ruoyi-fastapi-backend/module_stock/service/similar_service.py:411-431 | only "close" is used: the score is 0 exactly when "close" is not requested, and in (0, 1] otherwise |
| NumericMethods.EuclideanIdentical | ruoyi-fastapi-backend/module_stock/service/similar_service.py:411-431 | identical close-change series score exactly 1 |
| NumericMethods.EuclideanSymmetric | ruoyi-fastapi-backend/module_stock/service/similar_service.py:411-431 | the Euclidean score does not depend on argument order |
| NumericMethods.PearsonSimilarity | ruoyi-fastapi-backend/module_stock/service/similar_service.py:350-394 | the score is in [0, 1] and is 0 when either frame has 25 rows or fewer |
| NumericMethods.PearsonValue | ruoyi-fastapi-backend/module_stock/service/similar_service.py:371-391 | with every requested name known and more than 25 rows on each side, the score is 0 when no correlation is defined and otherwise the mean of the defined correlations clipped below at 0; it is positive exactly when that mean is positive |
| NumericMethods.PearsonUnknownFirstIndicator | ruoyi-fastapi-backend/module_stock/service/similar_service.py:372-394 | an unknown first indicator name raises before any correlation is taken, and the handler returns 0 |
| NumericMethods.Correlation | ruoyi-fastapi-backend/module_stock/service/similar_service.py:371-383 | a correlation lies in [-1, 1], and is NaN (absent) whenever the indicator's ratio series is undefined on either frame |
| NumericMethods.PearsonScan | ruoyi-fastapi-backend/module_stock/service/similar_service.py:371-383 | the kept correlations all lie in [-1, 1], and there are at most as many as names requested |
| NumericMethods.PearsonScanSymmetric | ruoyi-fastapi-backend/module_stock/service/similar_service.py:371-383 | with an order-independent correlation, the loop keeps the same correlations in either argument order |
| NumericMethods.PearsonScanKnown | ruoyi-fastapi-backend/module_stock/service/similar_service.py:371-383 | with only known names, the loop keeps exactly the non-NaN correlations, in request order |
| NumericMethods.PearsonSymmetric | ruoyi-fastapi-backend/module_stock/service/similar_service.py:350-394 | with an order-independent correlation the Pearson score does not depend on argument order |
| NumericMethods.CointegrationSimilarity | ruoyi-fastapi-backend/module_stock/service/similar_service.py:288-332 | the score is 0 for 25 rows or fewer or without a known indicator, and lies in [0.5, 1] otherwise |
| NumericMethods.CointegrationPerfectIffAllZero | ruoyi-fastapi-backend/module_stock/service/similar_service.py:288-332 | on frames longer than 25 rows with a known indicator, the score is 1 exactly when every test gives p = 0 |
| NumericMethods.CointegrationFallsWithP | ruoyi-fastapi-backend/module_stock/service/similar_service.py:288-332 | a smaller mean p-value never scores lower, and a strictly smaller one scores strictly higher |
| CandleMethods.PartSimilarity | ruoyi-fastapi-backend/module_stock/service/similar_service.py:992-997 | equal sums give 1; exactly one zero sum gives 0; non-negative sums give [0, 1]; two positive sums give more than 0 |
| CandleMethods.PartSimilaritySymmetric | ruoyi-fastapi-backend/module_stock/service/similar_service.py:992-997 | the part rule is symmetric in its two sums |
| CandleMethods.PartsNonNegative | ruoyi-fastapi-backend/module_stock/service/similar_service.py:966-981 | on a well-formed candle the upper wick, body and lower wick are all non-negative |
| CandleMethods.ShapeSimilarity | ruoyi-fastapi-backend/module_stock/service/similar_service.py:945-1005 | fewer than two common days score 0; well-formed candles score in [0, 1] |
| CandleMethods.ShapeSymmetric | ruoyi-fastapi-backend/module_stock/service/similar_service.py:945-1005 | the shape score of chronological series does not depend on argument order |
| CandleMethods.ShapeSelf | ruoyi-fastapi-backend/module_stock/service/similar_service.py:945-1005 | a chronological series of two or more days scores 1 against itself |
| CandleMethods.ShapeZeroPartCapsScore | ruoyi-fastapi-backend/module_stock/service/similar_service.py:992-1004 | when exactly one side has a zero sum for the upper wicks, the bodies or the lower wicks, the score is at most 0.67 |
| CandleMethods.PositionSimilarity | ruoyi-fastapi-backend/module_stock/service/similar_service.py:1031-1067 | fewer than two common days score 0 |
| CandleMethods.PositionSimilarityCases | ruoyi-fastapi-backend/module_stock/service/similar_service.py:1058-1066 | on two or more common days: two zero position sums score 1; exactly one zero sum scores 0; two positive sums score their smaller over their larger, in (0, 1] |
| CandleMethods.PositionSelf | ruoyi-fastapi-backend/module_stock/service/similar_service.py:1031-1067 | a chronological series of two or more days with non-zero previous closes after its first day scores 1 against itself |
| CandleMethods.PositionsIgnoreFirstPreviousClose | ruoyi-fastapi-backend/module_stock/service/similar_service.py:1047-1052 | the first day's previous close is never read: changing it leaves every position and their sum unchanged |
| CandleMethods.ListingDayScored | ruoyi-fastapi-backend/module_stock/service/similar_service.py:1031-1067 | two series whose first day has a previous close of 0 are still scored, here 2 |
| CandleMethods.PositionSymmetric | ruoyi-fastapi-backend/module_stock/service/similar_service.py:1031-1067 | the position score of chronological series does not depend on argument order |
| CandleMethods.PositionCanExceedOne | ruoyi-fastapi-backend/module_stock/service/similar_service.py:1058-1066 | two series whose position sums are -2 and -1 score 2 |
| PriceGraph.CreatePriceGraph | ruoyi-fastapi-backend/module_stock/service/similar_service.py:433-524 | the graph is a path with one node per row, in row order and with the row's date; each node carries exactly the requested features; each edge weight is the weight of its two days and is non-negative |
| PriceGraph.EdgeWeightZeroIff | ruoyi-fastapi-backend/module_stock/service/similar_service.py:491-521 | an edge weighs 0 exactly when the two days agree on every feature they share |
| PriceGraph.EdgeWeightSymmetric | ruoyi-fastapi-backend/module_stock/service/similar_service.py:491-521 | the edge weight does not depend on which day comes first |
| PriceGraph.GraphFeatures | ruoyi-fastapi-backend/module_stock/service/similar_service.py:454-480 | requested price features are the changes over the previous close; relative turnover lies in [0, 1] for non-negative volumes |
| PriceGraph.RelativeTurnoverInUnitRange | ruoyi-fastapi-backend/module_stock/service/similar_service.py:454-459 | volume over the maximum volume (0 for a zero maximum) lies in [0, 1] |
| GraphEditing.CommonNodes | ruoyi-fastapi-backend/module_stock/service/similar_service.py:697 | the shared nodes are exactly the dates present in both graphs |
| GraphEditing.Closeness | ruoyi-fastapi-backend/module_stock/service/similar_service.py:720-792 | the clamped closeness of a non-negative mean difference lies in [0, 1] and is 1 exactly at difference 0 |
| GraphEditing.IndicatorScore | ruoyi-fastapi-backend/module_stock/service/similar_service.py:707-792 | an indicator contributes a score exactly when it is requested and some shared day carries it on both sides; the score is in [0, 1] |
| GraphEditing.EdgeScore | ruoyi-fastapi-backend/module_stock/service/similar_service.py:795-831 | the edge score exists exactly when the graphs share an edge, and it lies in (0, 1] |
| GraphEditing.GraphEditingSimilarity | ruoyi-fastapi-backend/module_stock/service/similar_service.py:682-844 | the score is in [0, 1]; it is 0 without a shared node or without any collected score, and the mean of the collected scores otherwise |
| GraphEditing.GraphEditingSelf | ruoyi-fastapi-backend/module_stock/service/similar_service.py:682-844 | a graph with at least one edge scores 1 against itself, whatever indicators are requested |
| GraphEditing.EdgeSelfAnySize | ruoyi-fastapi-backend/module_stock/service/similar_service.py:682-844 | against itself a path's edge score, when computed, is 1 |
| GraphEditing.GraphEditingSelfScored | ruoyi-fastapi-backend/module_stock/service/similar_service.py:682-844 | any non-empty path, a single node included, scores 1 against itself when some score is computed and 0 when none is |
| GraphEditing.GraphEditingSymmetric | ruoyi-fastapi-backend/module_stock/service/similar_service.py:682-844 | with strictly increasing dates the score does not depend on argument order |
| GraphEditing.GraphEditingSeriesSymmetric | ruoyi-fastapi-backend/module_stock/service/similar_service.py:682-844 | graphs built from chronological series score the same in either order |
| Clique.Greedy | ruoyi-fastapi-backend/module_stock/service/similar_service.py:620-623 | the greedy pass yields a clique of vertices from the order, starting with the first vertex; every vertex left out has a non-neighbour in the clique |
| Clique.ByDegree | ruoyi-fastapi-backend/module_stock/service/similar_service.py:616-618 | the degree order is a rearrangement of the vertices that starts with a vertex of maximum degree |
| Clique.FindMaxClique | ruoyi-fastapi-backend/module_stock/service/similar_service.py:610-625 | the result is a clique, empty only for an empty graph; it starts with a vertex of maximum degree and cannot be extended by any vertex left out |
| Clique.CliqueOfTwo | ruoyi-fastapi-backend/module_stock/service/similar_service.py:610-625 | in a symmetric, loop-free graph with an edge, the clique has at least two members |
| MaxCommonSubgraph.NodeCompatible | ruoyi-fastapi-backend/module_stock/service/similar_service.py:588-598 | two nodes are compatible only for a known indicator name |
| MaxCommonSubgraph.ProductNodes | ruoyi-fastapi-backend/module_stock/service/similar_service.py:548-562 | the product nodes are exactly the position pairs compatible for every requested name |
| MaxCommonSubgraph.EdgeSimilarity | ruoyi-fastapi-backend/module_stock/service/similar_service.py:604-608 | 1 minus the weight gap is at most 1, and equals 1 exactly when the two weights agree |
| MaxCommonSubgraph.McsClique | ruoyi-fastapi-backend/module_stock/service/similar_service.py:561-573 | the reported clique is a clique of product nodes, non-empty when product nodes exist |
| MaxCommonSubgraph.CliqueAtMostTwo | ruoyi-fastapi-backend/module_stock/service/similar_service.py:565-573 | no product-graph clique has more than two members, and a two-member clique needs two nodes in each graph |
| MaxCommonSubgraph.McsCliqueSize | ruoyi-fastapi-backend/module_stock/service/similar_service.py:561-576 | the clique size is 0 without product nodes, 1 without product edges and 2 otherwise |
| MaxCommonSubgraph.Tanimoto | ruoyi-fastapi-backend/module_stock/service/similar_service.py:576-581 | mcs/(n1+n2-mcs) lies in [0, 1], is 0 exactly for an empty clique and is 1 exactly when the clique is half the nodes |
| MaxCommonSubgraph.McsSimilarity | ruoyi-fastapi-backend/module_stock/service/similar_service.py:526-586 | the score is in [0, 1]; an empty graph scores 0; within the node limit, no product nodes scores 0; over the node limit the score is the sampled fallback's |
| MaxCommonSubgraph.McsScore | ruoyi-fastapi-backend/module_stock/service/similar_service.py:541-582 | within the node limit the score is 0, the one-node ratio or the two-node ratio, according to the product graph |
| MaxCommonSubgraph.McsUnknownIndicator | ruoyi-fastapi-backend/module_stock/service/similar_service.py:548-558 | an unknown requested name leaves no product node, so within the node limit the score is 0 |
| MaxCommonSubgraph.McsSymmetric | ruoyi-fastapi-backend/module_stock/service/similar_service.py:526-586 | swapping the graphs together with their samples leaves the score unchanged |
| MaxCommonSubgraph.McsSelfScore | ruoyi-fastapi-backend/module_stock/service/similar_service.py:526-586 | a price graph of 2 to 100 days scores only the two-node ratio against itself |
| MaxCommonSubgraph.TanimotoOfPair | ruoyi-fastapi-backend/module_stock/service/similar_service.py:581 | the two-node ratio of two k-node graphs is 1/(k-1) |
| Simplified.SampleSize | ruoyi-fastapi-backend/module_stock/service/similar_service.py:633 | the sample size is the least of 50 and the two node counts |
| Simplified.SampleSizeFits | ruoyi-fastapi-backend/module_stock/service/similar_service.py:633-635 | the first k positions, for k the sample size, are a valid sample of k distinct in-range nodes of both graphs |
| Simplified.SampledValuesOfSample | ruoyi-fastapi-backend/module_stock/service/similar_service.py:659-660 | a valid sample of a graph whose nodes all carry the feature yields exactly one value per sampled node |
| Simplified.ConstantIffAtMean | ruoyi-fastapi-backend/module_stock/service/similar_service.py:667-668 | a non-empty list has all values equal exactly when every value equals its mean |
| Simplified.ConstantStdZero | ruoyi-fastapi-backend/module_stock/service/similar_service.py:667-670 | a list whose values are all equal has population standard deviation 0 |
| Simplified.FeatureSimilarity | ruoyi-fastapi-backend/module_stock/service/similar_service.py:656-680 | the score is in [0, 1]; it is 0 for an empty side; it is positive exactly when both spreads are non-zero, and 1 exactly when additionally the means and spreads agree |
| Simplified.ConstantFeatureScoresZero | ruoyi-fastapi-backend/module_stock/service/similar_service.py:669-670 | values without spread score 0 |
| Simplified.FeatureSimilaritySymmetric | ruoyi-fastapi-backend/module_stock/service/similar_service.py:656-680 | the feature score does not depend on argument order |
| Simplified.FeatureScores | ruoyi-fastapi-backend/module_stock/service/similar_service.py:638-647 | there is one score in [0, 1] per known requested name, and none exactly when no name is known |
| Simplified.SimplifiedSimilarity | ruoyi-fastapi-backend/module_stock/service/similar_service.py:627-654 | the fallback score is in [0, 1], and 0 when no requested name is known |
| Simplified.SimplifiedSymmetric | ruoyi-fastapi-backend/module_stock/service/similar_service.py:627-654 | swapping the graphs together with their samples leaves the fallback score unchanged |
| Universe.SectionQuery | ruoyi-fastapi-backend/module_stock/service/similar_service.py:147-157 | the peer query filters the CSI column exactly when the first-level and CSI codes coincide or level 1 is asked, and the first-level column otherwise; it keeps the board and the special-treatment status |
| Universe.SectionCodes | ruoyi-fastapi-backend/module_stock/service/similar_service.py:140-162 | the universe starts with the security; it is that security alone when it is unclassified or lacks a CSI code, and is followed by the peers otherwise |
| Universe.SectionCodesMembers | ruoyi-fastapi-backend/module_stock/service/similar_service.py:159 | the members are exactly the security and the peers the query returns |
| Universe.StarPrefixIsSeparate | ruoyi-fastapi-backend/module_stock/service/similar_service.py:150 | "*ST" counts as special treatment but does not start with "ST", so both prefixes are needed |
| Ranking.SortDesc | ruoyi-fastapi-backend/module_stock/service/similar_service.py:108 | the sort is a permutation of its input with non-increasing keys |
| Ranking.SortDescIsStableOrder | ruoyi-fastapi-backend/module_stock/service/similar_service.py:108 | any covering listing of the positions that orders by key, highest first, and keeps ties in input order gathers exactly the sorted sequence |
| Ranking.TopK | ruoyi-fastapi-backend/module_stock/service/similar_service.py:108-109 | the top n has the Python-slice length, non-increasing keys and elements drawn from the input |
| Ranking.TopKDominates | ruoyi-fastapi-backend/module_stock/service/similar_service.py:108-109 | nothing left out of the top n has a higher key than anything kept |
| Ranking.TopKDistinct | ruoyi-fastapi-backend/module_stock/service/similar_service.py:108-109 | a key that tells the input elements apart also tells the kept elements apart |
| Ranking.TopKKeepsAll | ruoyi-fastapi-backend/module_stock/service/similar_service.py:109 | a count covering the list keeps every element |
| Service.UniqueCodes | ruoyi-fastapi-backend/module_stock/service/similar_service.py:50 | the unique codes are distinct and are exactly the codes in the table |
| Service.RowsOf | ruoyi-fastapi-backend/module_stock/service/similar_service.py:88 | a security's rows are exactly the table rows carrying its code |
| Service.ScorableIgnoresBaseRows | ruoyi-fastapi-backend/module_stock/service/similar_service.py:83-85 | rows of the base security in the section table never decide whether a request can be scored |
| Service.Score | ruoyi-fastapi-backend/module_stock/service/similar_service.py:52-106 | every method but shape and position scores a security in [0, 1], given frames on which the method's ratios are defined |
| Service.ScoreAll | ruoyi-fastapi-backend/module_stock/service/similar_service.py:56-106 | the loop succeeds exactly when every section code but the base code has a name; each entry is such a code with its score, and every such code has an entry |
| Service.ScoreAllDistinct | ruoyi-fastapi-backend/module_stock/service/similar_service.py:56-106 | distinct codes give one entry per code but the base code, with no repeats |
| Service.Top | ruoyi-fastapi-backend/module_stock/service/similar_service.py:107-109 | the ranking has the slice length of the scored list, is sorted by score, has no repeated code, and lists only scored section codes other than the base code |
| Service.Ranked | ruoyi-fastapi-backend/module_stock/service/similar_service.py:107-127 | the response fails exactly when a name is missing or the base series is empty or unnamed; otherwise it carries the ranking and a comparison headed by the base security |
| Service.CalculateSimilarity | ruoyi-fastapi-backend/module_stock/service/similar_service.py:24-131 | an empty section table gives an empty response; otherwise the ranking of the table's unique codes by their scores |
| Service.FailureCases | ruoyi-fastapi-backend/module_stock/service/similar_service.py:72-131 | a non-empty table fails exactly when some other section security has no name, or the base series is empty or unnamed |
| Service.ResponseFacts | ruoyi-fastapi-backend/module_stock/service/similar_service.py:49-127 | a response lists section securities other than the base security, each once, sorted by score, and each with the score the requested method gives its rows; the base security heads the comparison |
| Service.RankedDominates | ruoyi-fastapi-backend/module_stock/service/similar_service.py:107-109 | a ranked security never scores below one the cut dropped |
| Service.BuildResponse | ruoyi-fastapi-backend/module_stock/service/similar_service.py:116-125 | the response validates exactly when `performanceData` is a record |
| Service.CalculateSimilarityAsWritten | ruoyi-fastapi-backend/module_stock/service/similar_service.py:45-47 | as written, the service agrees with the corrected one on every non-empty table |
| Service.EmptyTableRaisesAsWritten | ruoyi-fastapi-backend/module_stock/service/similar_service.py:45-47 | as written, an empty section table raises, where the corrected service answers |
| Performance.CumulativeReturn | ruoyi-fastapi-backend/module_stock/service/similar_service.py:873 | (p/b - 1)*100 for a non-zero base; otherwise a non-finite value, which is NaN exactly when the price is also 0 |
| Performance.ReturnsStartAtZero | ruoyi-fastapi-backend/module_stock/service/similar_service.py:873 | the first cumulative return of a series with a non-zero first close is 0 |
| Performance.LastKnownIsLatest | ruoyi-fastapi-backend/module_stock/service/similar_service.py:915 | a filled gap holds the latest non-NaN value before it, or 0 when there is none |
| Performance.FilledIdempotent | ruoyi-fastapi-backend/module_stock/service/similar_service.py:915 | filling twice is filling once |
| Performance.FillForward | ruoyi-fastapi-backend/module_stock/service/similar_service.py:915 | the one-pass fill carrying the last value equals the declarative fill |
| Performance.CandidateEntry | ruoyi-fastapi-backend/module_stock/service/similar_service.py:899-917 | a ranked security gets an entry exactly when it shares a day with the base security and has a name; the entry spans the base calendar and holds no NaN |
| Performance.CandidateEntries | ruoyi-fastapi-backend/module_stock/service/similar_service.py:888-920 | every ranked code that qualifies has an entry; entries are for ranked codes only, span the base calendar and hold no NaN |
| Performance.PerformanceComparison | ruoyi-fastapi-backend/module_stock/service/similar_service.py:846-927 | the comparison exists exactly when the base series is non-empty and named; its dates are the base dates and it is headed by the base security's returns, followed by the candidate entries |
| Performance.CandidateOnCommonDay | ruoyi-fastapi-backend/module_stock/service/similar_service.py:899-910 | on a common day the entry is the return since the first common day, unless that return is NaN |
| Performance.CandidateBeforeFirstTrade | ruoyi-fastapi-backend/module_stock/service/similar_service.py:907-915 | base days before the candidate's first common day read 0 |
| KLine.IsValidCode | ruoyi-fastapi-backend/module_stock/dao/kLine_dao.py:300-303 | a code is accepted exactly when it is a non-empty run of letters, digits and dots, optionally followed by one newline |
| KLine.ValidCodeHasNoQuote | ruoyi-fastapi-backend/module_stock/dao/kLine_dao.py:300-303 | an accepted code contains no single quote, so it cannot end the SQL literal it is pasted into |
| KLine.TrailingNewlineAccepted | ruoyi-fastapi-backend/module_stock/dao/kLine_dao.py:301 | "600000\n" is accepted, while two newlines and the empty string are not |
| KLine.LookbackDays | ruoyi-fastapi-backend/module_stock/dao/kLine_dao.py:323-328 | the look-back is 180 days exactly for "week", 365 exactly for "month" and 90 otherwise |
| KLine.RollingMean | ruoyi-fastapi-backend/module_stock/dao/kLine_dao.py:383-385 | the one-pass running-sum average equals the declarative window average, position by position |
| KLine.Slide | ruoyi-fastapi-backend/module_stock/dao/kLine_dao.py:383-385 | one step of the running state keeps it equal to the sum and non-finite count of the current window, dropping the oldest value once the window is over-full |
| KLine.MovingAverageOfConstant | ruoyi-fastapi-backend/module_stock/dao/kLine_dao.py:383-385 | a full window of equal closes averages to that close |
| KLine.MovingAverageBounds | ruoyi-fastapi-backend/module_stock/dao/kLine_dao.py:383-385 | a full window's average lies within bounds holding every finite close and 0 |
| KLine.SafeFloatList | ruoyi-fastapi-backend/module_stock/dao/kLine_dao.py:388-399 | the list keeps its length; a value survives exactly when it is finite, and then unchanged |
| KLine.SafeFloatListOfFinite | ruoyi-fastapi-backend/module_stock/dao/kLine_dao.py:388-399 | a finite list is kept in full |
| KLine.SafeFloatListIdempotent | ruoyi-fastapi-backend/module_stock/dao/kLine_dao.py:388-399 | sanitising a sanitised list, read back with None as NaN, changes nothing |
| KLine.CandleValue | ruoyi-fastapi-backend/module_stock/dao/kLine_dao.py:375-380 | a candle component is dropped exactly when it is NaN and is kept unchanged otherwise |
| KLine.KLineData | ruoyi-fastapi-backend/module_stock/dao/kLine_dao.py:290-414 | an invalid code or a missing latest date gives the empty chart; otherwise the chart is empty exactly when the look-back window has no rows, and a non-empty chart has those rows' dates; a full chart has equal-length lists, defined averages and four-value candles |
| KLine.ChartContents | ruoyi-fastapi-backend/module_stock/dao/kLine_dao.py:372-408 | on day i of a full chart: the candle is the day's open, close, low and high, each dropped when NaN; the 5-, 10- and 30-day averages are the window averages of the closes; the volume is kept exactly when finite |
| KLine.ChartCloses | ruoyi-fastapi-backend/module_stock/dao/kLine_dao.py:364-369 | the "close" data type gives the rows' dates and closes only |
| KLine.ChartOf | ruoyi-fastapi-backend/module_stock/dao/kLine_dao.py:359-408 | no rows give the empty chart and only they do; a non-empty chart carries the rows' dates |
| KLine.ConvertResult | ruoyi-fastapi-backend/utils/data_util.py:8-37 | the frame is empty exactly when there are no rows or no column is named "timestamps"; otherwise it holds the rows |
| KLine.KLineDataAsWritten | ruoyi-fastapi-backend/module_stock/dao/kLine_dao.py:341-352 | as written, the chart read always answers with the empty chart |
| KLine.ChartEmptyAsWritten | ruoyi-fastapi-backend/module_stock/dao/kLine_dao.py:341-352 | for a valid code, a latest date and a window with one row, the chart as written is empty while the corrected chart is not |
| KLine.Page | ruoyi-fastapi-backend/module_stock/dao/kLine_dao.py:203-238 | the query fails exactly when the page number is below 1 and the size positive (a negative offset); otherwise the page holds at most `size` items, namely the items starting at offset (page-1)*size |
| KLine.PagesArePrefix | ruoyi-fastapi-backend/module_stock/dao/kLine_dao.py:203 | the first n pages, one after another, are the first n*size items: paging neither skips nor repeats |
| KLine.ListingCode | ruoyi-fastapi-backend/module_stock/dao/kLine_dao.py:227-231 | a present code is kept and a missing one becomes "111111" |
| Screening.Present | ruoyi-fastapi-backend/module_stock/dao/kLine_dao.py:507 | the present closes are exactly the dated closes that are not NaN |
| Screening.SimilarityOf | ruoyi-fastapi-backend/module_stock/dao/kLine_dao.py:525-527 | (c+1)/2 maps a correlation into [0, 1] and exceeds 0.7 exactly when the correlation exceeds 0.4 |
| Screening.TargetAt | ruoyi-fastapi-backend/module_stock/dao/kLine_dao.py:499-519 | `.loc[d]` on the target series: the close of the first row dated `d`, NaN kept as `None` |
| Screening.Paired | ruoyi-fastapi-backend/module_stock/dao/kLine_dao.py:514-522 | the dates whose pairs the correlation keeps are exactly the common dates with a present target close; with no NaN target close they are all the common dates |
| Screening.TargetClosesAt | ruoyi-fastapi-backend/module_stock/dao/kLine_dao.py:519 | one target close per listed date, the one present on that date |
| Screening.Qualify | ruoyi-fastapi-backend/module_stock/dao/kLine_dao.py:506-527 | a column qualifies exactly when it has at least 30 present closes, at least 30 dates in common with the target (NaN target closes included), a defined correlation over the common dates with a present target close, and a similarity above 0.7; it then qualifies with that correlation |
| Screening.PeriodReturn | ruoyi-fastapi-backend/module_stock/dao/kLine_dao.py:577-587 | a missing or zero past price gives no return; otherwise a missing latest price raises, and the percentage change is returned when it is present |
| Screening.PeriodReturnInverse | ruoyi-fastapi-backend/module_stock/dao/kLine_dao.py:583-587 | a computed return r recovers the latest price as past*(1 + r/100), and for a positive past price it is positive exactly when the price rose |
| Screening.MakePick | ruoyi-fastapi-backend/module_stock/dao/kLine_dao.py:577-596 | with no returns row both returns are missing; a pick carries its column's code, similarity and correlation |
| Screening.Picks | ruoyi-fastapi-backend/module_stock/dao/kLine_dao.py:494-596 | every pick is for a column passing the test with that correlation, and every passing column is picked |
| Screening.PicksAboveThreshold | ruoyi-fastapi-backend/module_stock/dao/kLine_dao.py:525-527 | every pick clears the 0.7 similarity threshold |
| Screening.Rank | ruoyi-fastapi-backend/module_stock/dao/kLine_dao.py:598-602 | the result holds min(10, number of picks) picks drawn from the input, sorted by similarity and all above 0.7 |
| Screening.Screen | ruoyi-fastapi-backend/module_stock/dao/kLine_dao.py:494-602 | screening raises exactly when building a pick raises, and otherwise ranks the picks |
| Screening.FindSimilarStocks | ruoyi-fastapi-backend/module_stock/dao/kLine_dao.py:439-605 | a target without data gives no picks; otherwise at most ten picks, sorted by similarity and all above 0.7 |
| Screening.ReportedPicksQualify | ruoyi-fastapi-backend/module_stock/dao/kLine_dao.py:506-596 | every reported pick is for a column that passes the test with the pick's correlation, and its similarity is (correlation+1)/2 |
| Screening.FewPicksAllReported | ruoyi-fastapi-backend/module_stock/dao/kLine_dao.py:599-602 | with at most ten qualifying columns, every one of them is reported |
| Screening.DroppedPickRanksLower | ruoyi-fastapi-backend/module_stock/dao/kLine_dao.py:599-602 | a pick outside the ten is no more similar than any pick inside |
| Sanitize.Sanitize | ruoyi-fastapi-frontend/src/api/stock/stockReturn.js:6-29 | NaN and infinities become null; other primitives are kept; arrays keep their length and are scrubbed element by element; a scrubbed object has no own "__proto__" key |
| Sanitize.SanitizeObject | ruoyi-fastapi-frontend/src/api/stock/stockReturn.js:21-28 | an object becomes its scrubbed own properties without "__proto__", with the prototype set by the last object-valued "__proto__" assignment |
| Sanitize.SanitizeKeepsOwnKeys | ruoyi-fastapi-frontend/src/api/stock/stockReturn.js:21-26 | an object keeps exactly its own keys other than "__proto__", in the same order |
| Sanitize.SanitizeIsClean | ruoyi-fastapi-frontend/src/api/stock/stockReturn.js:6-29 | the output holds no non-finite number at any depth, inherited properties included |
| Sanitize.PlainIsFixed | ruoyi-fastapi-frontend/src/api/stock/stockReturn.js:6-29 | a plain value (clean, with no inherited properties and no own "__proto__" key at any depth) passes through unchanged |
| Sanitize.SanitizeFixedIffPlain | ruoyi-fastapi-frontend/src/api/stock/stockReturn.js:6-29 | the scrubber leaves a value unchanged exactly when it is plain |
| Sanitize.SanitizeIdempotent | ruoyi-fastapi-frontend/src/api/stock/stockReturn.js:6-29 | on values without own "__proto__" keys, scrubbing twice is scrubbing once |
| Sanitize.ProtoFreeSanitizesPlain | ruoyi-fastapi-frontend/src/api/stock/stockReturn.js:6-29 | a value without own "__proto__" keys scrubs to a plain value |
| Sanitize.ProtoBreaksIdempotence | ruoyi-fastapi-frontend/src/api/stock/stockReturn.js:21-28 | an object whose "__proto__" key holds an object scrubs to an object inheriting that object's properties, and a second scrub drops them |
| Sanitize.ProtoPrimitiveDropped | ruoyi-fastapi-frontend/src/api/stock/stockReturn.js:21-28 | a "__proto__" key holding a number is dropped |
| Sanitize.Set | ruoyi-fastapi-frontend/src/api/stock/stockReturn.js:34 | after the assignment the property reads the new value and every other property reads as before |
| Sanitize.HandleResponse | ruoyi-fastapi-frontend/src/api/stock/stockReturn.js:32-37 | a falsy response or falsy `data` is returned unchanged; otherwise `data` is replaced by its scrubbed value; no other property changes |
| Sanitize.HandledDataIsClean | ruoyi-fastapi-frontend/src/api/stock/stockReturn.js:32-37 | a replaced `data` is clean |

## Left out

- Database access, logging, the async executors and the HTTP layer are left
  out. The reads they perform are function parameters.
- Series.RowAt: a `.loc` lookup on a date that occurs on several rows
  takes the first matching row, whereas pandas returns every matching row
  (a frame, not a row). The same holds for Performance.Placed and
  Screening.CloseAt. The model does not follow a duplicated date into the
  shape changes pandas would produce downstream.
- fastdtw, `np.corrcoef`, statsmodels' `coint` and `sqrt` are not modelled.
  Only the ranges in `NumericMethods.ValidNumerics` are assumed of them.
- Floating point is modelled by exact reals. Rounding is not modelled.
  NaN and the infinities are modelled only where the source inspects them:
  `Num` in the chart, the screener's NaN closes, cumulative returns and the
  front-end scrubber.
- Dispatch.StockSimilarity: requires that the ratios the chosen method reads
  are defined on the aligned frames (`Dispatch.Computable`). Shape needs
  non-zero previous closes on every aligned day. Position needs them on
  every aligned day but the first, whose previous close it never reads
  (`CandleMethods.PositionsIgnoreFirstPreviousClose`,
  `Dispatch.ListingDayComputable`). Euclidean needs them only when
  "close" is requested. DTW needs, for each requested indicator, non-zero
  previous closes or, for turnover, a non-zero maximum volume; so does
  cointegration, but only on frames longer than 25 rows. Pearson needs
  nothing: a ratio series that is undefined there makes the correlation NaN,
  which the loop drops. Elsewhere the source would divide by zero and carry
  NaN or infinities into the score, which a real cannot hold.
- Service.CalculateSimilarity: asks the same of the rows of every section
  security other than the base security, for the non-graph methods
  (`Service.Scorable`), for the same reason. The base code's own rows are
  never scored and are not constrained (`Service.ScorableIgnoresBaseRows`).
- Service.ResponseFacts: does not restate the length of the ranking. The
  length is stated by `Service.Top`, which the response is built from.
- Random sampling in the node-limit fallback is not modelled. The sample
  positions are parameters, and positions out of range are ignored.
- The pandas pivot in the screener is modelled as one column per code.
  Duplicate (date, code) rows, which make `pivot` raise, are not modelled.
- Screening.Qualify: the correlation itself is a parameter. It receives
  only the pairs on which both closes are present, as pandas' pairwise
  NaN handling does (`Screening.Paired`). Whether too few pairs give NaN is
  left to the parameter, which returns `None` for NaN.
- Screening.PeriodReturn: the returns query is modelled as one optional
  row. The source indexes its result object directly, which is not modelled.
- KLine.MovingAverageAt: a window holding an infinity averages to 0 here.
  pandas would give an infinity there, which `safe_float_list` turns into
  None, or NaN when both infinities occur. Non-finite closes are all
  treated as NaN.
- KLine.Page: the page size is taken as non-negative. A negative page size
  would put a negative `LIMIT` into the query, which is not modelled. A page
  number below 1 with a positive size is modelled as the rejected query.
- KLine.KLineData: dates are day numbers, not formatted strings.
  `strftime` is not modelled.
- Simplified.ConstantStdZero: proves only that equal values give a
  standard deviation of 0. The converse, that any spread gives a positive
  deviation, is not proved. Its proof needs facts about products of reals.
- Sanitize.SanitizeIdempotent: holds only for values with no own
  "__proto__" key. An object-valued "__proto__" key sets the rebuilt
  object's prototype, and the next pass drops the inherited properties
  (`Sanitize.ProtoBreaksIdempotence`).
- Sanitize.Get: reads own and inherited properties by key. Reading the
  "__proto__" accessor itself is not modelled.
- Sanitize.Sanitize: host objects are not modelled. A `Date`, say, is
  rebuilt from its own enumerable properties like any other object.
  Functions, symbols and bigints are not modelled either.
- The position method is not bounded by 1. See `PositionCanExceedOne`; the
  model follows the code.
- `search_history`, the stock listing's query text, the DAO's SQL strings
  and the response schemas beyond the fields used are not part of this model.

## Findings

| source | as written | input that shows it | evidently intended | confidence | as-written member | corrected member |
|---|---|---|---|---|---|---|
| ruoyi-fastapi-backend/module_stock/service/similar_service.py:45-47 | an empty section table answers with `performanceData=[]`, but the response schema types that field as a `PerformanceData` record, so building the response raises, and the outer handler re-raises | any request whose section table comes back empty | an empty response: no similar securities and an empty performance record | medium, not executed | Service.EmptyTableRaisesAsWritten | Service.CalculateSimilarity |
| ruoyi-fastapi-backend/module_stock/dao/kLine_dao.py:341-352 | the chart query renames `timestamps` to `date`, and the result converter (ruoyi-fastapi-backend/utils/data_util.py:15-19) answers with an empty frame whenever no column is named `timestamps`, so every chart read finds no data and returns the empty chart | any valid code with rows in the look-back window | the chart of the window's rows | medium, not executed | KLine.ChartEmptyAsWritten | KLine.KLineData |

=== FILE: candle_methods.dfy ===
/** The two candle-based strategies, `shape` and `position`. Both sum a
    per-day quantity over the common calendar and compare the two sums with
    the same min/max rule. */
module CandleMethods {
  import opened Common
  import opened Series

  /** `part_similarity` (and the identical rule at the end of the position
      strategy): both sums 0 gives 1, exactly one 0 gives 0, otherwise
      min/max. */
  function PartSimilarity(x: real, y: real): (r: real)
    ensures x == y ==> r == 1.0
    ensures (x == 0.0) != (y == 0.0) ==> r == 0.0
    ensures x >= 0.0 && y >= 0.0 ==> 0.0 <= r <= 1.0
    ensures x > 0.0 && y > 0.0 ==> 0.0 < r && r * Max(x, y) == Min(x, y)
  {
    if x == 0.0 && y == 0.0 then 1.0
    else if (x == 0.0 && y != 0.0) || (x != 0.0 && y == 0.0) then 0.0
    else
      if x >= 0.0 && y >= 0.0 then
        RatioBounds(Min(x, y), Max(x, y));
        Min(x, y) / Max(x, y)
      else
        assert x == y ==> Min(x, y) / Max(x, y) == 1.0;
        Min(x, y) / Max(x, y)
  }

  lemma RatioBounds(a: real, b: real)
    requires 0.0 < a <= b
    ensures 0.0 < a / b <= 1.0
    ensures a / b * b == a
  {
    assert a / b * b == a;
  }

  /** The rule is symmetric in its two sums. */
  lemma PartSimilaritySymmetric(x: real, y: real)
    ensures PartSimilarity(x, y) == PartSimilarity(y, x)
  {
  }

  // ---------------------------------------------------------------------
  // shape

  /** A day's candle split into upper wick, body and lower wick, each in
      units of a tenth of the previous close. */
  datatype CandleParts = CandleParts(upper: real, body: real, lower: real)

  /** `calc_shape_parts` for one day. */
  function Parts(r: Row): (p: CandleParts)
    requires r.ycp != 0.0
    ensures p.upper == (r.high - Max(r.open, r.close)) / (r.ycp * 0.1)
    ensures p.body == Abs(r.open - r.close) / (r.ycp * 0.1)
    ensures p.lower == (Min(r.open, r.close) - r.low) / (r.ycp * 0.1)
  {
    var unit := r.ycp * 0.1;
    var upper := if r.open > r.close then (r.high - r.open) / unit else (r.high - r.close) / unit;
    var lower := if r.open > r.close then (r.close - r.low) / unit else (r.open - r.low) / unit;
    CandleParts(upper, Abs(r.open - r.close) / unit, lower)
  }

  /** On a well-formed candle every part is non-negative. */
  lemma PartsNonNegative(r: Row)
    requires r.ycp > 0.0
    requires r.low <= Min(r.open, r.close) && r.high >= Max(r.open, r.close)
    ensures Parts(r).upper >= 0.0 && Parts(r).body >= 0.0 && Parts(r).lower >= 0.0
  {
    var unit := r.ycp * 0.1;
    assert unit > 0.0;
    NonNegativeQuotient(r.high - Max(r.open, r.close), unit);
    NonNegativeQuotient(Abs(r.open - r.close), unit);
    NonNegativeQuotient(Min(r.open, r.close) - r.low, unit);
  }

  lemma NonNegativeQuotient(a: real, b: real)
    requires a >= 0.0 && b > 0.0
    ensures a / b >= 0.0
  {
    assert a / b * b == a;
  }

  function Uppers(s: Rows): (xs: seq<real>)
    requires RefPriced(s)
    ensures |xs| == |s|
    ensures forall i :: 0 <= i < |s| ==> xs[i] == Parts(s[i]).upper
  {
    seq(|s|, i requires 0 <= i < |s| => Parts(s[i]).upper)
  }

  function Bodies(s: Rows): (xs: seq<real>)
    requires RefPriced(s)
    ensures |xs| == |s|
    ensures forall i :: 0 <= i < |s| ==> xs[i] == Parts(s[i]).body
  {
    seq(|s|, i requires 0 <= i < |s| => Parts(s[i]).body)
  }

  function Lowers(s: Rows): (xs: seq<real>)
    requires RefPriced(s)
    ensures |xs| == |s|
    ensures forall i :: 0 <= i < |s| ==> xs[i] == Parts(s[i]).lower
  {
    seq(|s|, i requires 0 <= i < |s| => Parts(s[i]).lower)
  }

  /** The three summed parts of a frame are non-negative on well-formed candles. */
  lemma PartSumsNonNegative(s: Rows)
    requires Candles(s)
    ensures Sum(Uppers(s)) >= 0.0 && Sum(Bodies(s)) >= 0.0 && Sum(Lowers(s)) >= 0.0
  {
    forall i | 0 <= i < |s|
      ensures Uppers(s)[i] >= 0.0 && Bodies(s)[i] >= 0.0 && Lowers(s)[i] >= 0.0
    {
      PartsNonNegative(s[i]);
    }
    SumNonNegative(Uppers(s));
    SumNonNegative(Bodies(s));
    SumNonNegative(Lowers(s));
  }

  const UpperWeight: real := 0.33
  const BodyWeight: real := 0.34
  const LowerWeight: real := 0.33

  /** The weighted score of two already aligned frames. */
  function ShapeScore(a1: Rows, a2: Rows): real
    requires RefPriced(a1) && RefPriced(a2)
  {
    UpperWeight * PartSimilarity(Sum(Uppers(a1)), Sum(Uppers(a2)))
    + BodyWeight * PartSimilarity(Sum(Bodies(a1)), Sum(Bodies(a2)))
    + LowerWeight * PartSimilarity(Sum(Lowers(a1)), Sum(Lowers(a2)))
  }

  /** `_calculate_shape_similarity`: 0 with fewer than 2 common dates; on
      well-formed candles a score in [0, 1]. */
  function ShapeSimilarity(s1: Rows, s2: Rows): (r: real)
    requires AlignedRefPriced(s1, s2)
    ensures |CommonDates(s1, s2)| < 2 ==> r == 0.0
    ensures Candles(s1) && Candles(s2) ==> 0.0 <= r <= 1.0
  {
    if |CommonDates(s1, s2)| < 2 then 0.0
    else
      var (a1, a2) := AlignPair(s1, s2);
      assert Candles(s1) && Candles(s2) ==> 0.0 <= ShapeScore(a1, a2) <= 1.0 by {
        if Candles(s1) && Candles(s2) {
          forall i | 0 <= i < |a1|
            ensures a1[i] in s1 && a2[i] in s2
          {
          }
          assert Candles(a1) && Candles(a2);
          PartSumsNonNegative(a1);
          PartSumsNonNegative(a2);
        }
      }
      ShapeScore(a1, a2)
  }

  /** Shape similarity of chronological series is symmetric. */
  lemma ShapeSymmetric(s1: Rows, s2: Rows)
    requires AlignedRefPriced(s1, s2)
    requires Chronological(s1) && Chronological(s2)
    ensures AlignedRefPriced(s2, s1)
    ensures ShapeSimilarity(s1, s2) == ShapeSimilarity(s2, s1)
  {
    AlignedRefPricedSymmetric(s1, s2);
    CommonDatesSymmetric(s1, s2);
    AlignPairSymmetric(s1, s2);
    var (a1, a2) := AlignPair(s1, s2);
    if |CommonDates(s1, s2)| >= 2 {
      PartSimilaritySymmetric(Sum(Uppers(a1)), Sum(Uppers(a2)));
      PartSimilaritySymmetric(Sum(Bodies(a1)), Sum(Bodies(a2)));
      PartSimilaritySymmetric(Sum(Lowers(a1)), Sum(Lowers(a2)));
    }
  }

  /** A frame scored against itself gets 1 (given at least two dates). */
  lemma ShapeSelf(s: Rows)
    requires RefPriced(s) && Chronological(s) && |s| >= 2
    ensures AlignedRefPriced(s, s)
    ensures ShapeSimilarity(s, s) == 1.0
  {
    AlignSelf(s);
  }

  /** When, for any one of the three parts, exactly one security's sum is
      zero, that part scores 0 and the total stays at most 0.67 (the weight
      of the other two parts). */
  lemma ShapeZeroPartCapsScore(s1: Rows, s2: Rows)
    requires AlignedRefPriced(s1, s2)
    requires Candles(s1) && Candles(s2)
    requires |CommonDates(s1, s2)| >= 2
    requires var (a1, a2) := AlignPair(s1, s2);
      (Sum(Uppers(a1)) == 0.0) != (Sum(Uppers(a2)) == 0.0)
      || (Sum(Bodies(a1)) == 0.0) != (Sum(Bodies(a2)) == 0.0)
      || (Sum(Lowers(a1)) == 0.0) != (Sum(Lowers(a2)) == 0.0)
    ensures ShapeSimilarity(s1, s2) <= 0.67
  {
    var (a1, a2) := AlignPair(s1, s2);
    assert Candles(a1) && Candles(a2) by {
      forall i | 0 <= i < |a1|
        ensures a1[i] in s1 && a2[i] in s2
      {
      }
    }
    ShapeScoreCap(a1, a2);
  }

  /** The cap on two aligned frames. */
  lemma ShapeScoreCap(a1: Rows, a2: Rows)
    requires Candles(a1) && Candles(a2)
    requires (Sum(Uppers(a1)) == 0.0) != (Sum(Uppers(a2)) == 0.0)
      || (Sum(Bodies(a1)) == 0.0) != (Sum(Bodies(a2)) == 0.0)
      || (Sum(Lowers(a1)) == 0.0) != (Sum(Lowers(a2)) == 0.0)
    ensures ShapeScore(a1, a2) <= 0.67
  {
    PartSumsNonNegative(a1);
    PartSumsNonNegative(a2);
    var u := PartSimilarity(Sum(Uppers(a1)), Sum(Uppers(a2)));
    var b := PartSimilarity(Sum(Bodies(a1)), Sum(Bodies(a2)));
    var l := PartSimilarity(Sum(Lowers(a1)), Sum(Lowers(a2)));
    assert u == 0.0 || b == 0.0 || l == 0.0;
  }

  // ---------------------------------------------------------------------
  // position

  /** `calc_position`: 1 on the first day, then the close's move in units of
      a tenth of the previous close. */
  function Positions(a: Rows): (pos: seq<real>)
    requires |a| > 0 && PricedAfterFirst(a)
    ensures |pos| == |a|
    ensures pos[0] == 1.0
    ensures forall i :: 0 < i < |a| ==> pos[i] == (a[i].close - a[i].ycp) / (a[i].ycp * 0.1)
  {
    seq(|a|, i requires 0 <= i < |a| => if i == 0 then 1.0 else (a[i].close - a[i].ycp) / (a[i].ycp * 0.1))
  }

  /** `_calculate_position_similarity`: 0 with fewer than 2 common dates,
      otherwise the min/max rule on the two position sums. */
  function PositionSimilarity(s1: Rows, s2: Rows): (r: real)
    requires AlignedPricedAfterFirst(s1, s2)
    ensures |CommonDates(s1, s2)| < 2 ==> r == 0.0
  {
    if |CommonDates(s1, s2)| < 2 then 0.0
    else
      var (a1, a2) := AlignPair(s1, s2);
      PartSimilarity(PositionSum(a1), PositionSum(a2))
  }

  /** The summed positions of one aligned frame. */
  function PositionSum(a: Rows): real
    requires |a| > 0 && PricedAfterFirst(a)
  {
    Sum(Positions(a))
  }

  /** The score on two common days or more, by the signs of the two
      position sums: both zero gives 1, exactly one zero gives 0, and two
      positive sums give the smaller as a fraction of the larger. */
  lemma PositionSimilarityCases(s1: Rows, s2: Rows)
    requires AlignedPricedAfterFirst(s1, s2) && |CommonDates(s1, s2)| >= 2
    ensures var p1, p2, r := PositionSum(AlignPair(s1, s2).0), PositionSum(AlignPair(s1, s2).1), PositionSimilarity(s1, s2);
      && (p1 == 0.0 && p2 == 0.0 ==> r == 1.0)
      && ((p1 == 0.0) != (p2 == 0.0) ==> r == 0.0)
      && (p1 > 0.0 && p2 > 0.0 ==> 0.0 < r <= 1.0 && r * Max(p1, p2) == Min(p1, p2))
  {
    var (a1, a2) := AlignPair(s1, s2);
    assert PositionSimilarity(s1, s2) == PartSimilarity(PositionSum(a1), PositionSum(a2));
  }

  /** Position similarity of chronological series is symmetric. */
  lemma PositionSymmetric(s1: Rows, s2: Rows)
    requires AlignedPricedAfterFirst(s1, s2)
    requires Chronological(s1) && Chronological(s2)
    ensures AlignedPricedAfterFirst(s2, s1)
    ensures PositionSimilarity(s1, s2) == PositionSimilarity(s2, s1)
  {
    AlignedPricedAfterFirstSymmetric(s1, s2);
    CommonDatesSymmetric(s1, s2);
    AlignPairSymmetric(s1, s2);
    if |CommonDates(s1, s2)| >= 2 {
      var (a1, a2) := AlignPair(s1, s2);
      PartSimilaritySymmetric(PositionSum(a1), PositionSum(a2));
    }
  }

  /** A chronological frame of at least two days scored against itself
      gets 1: equal sums, whether zero or not. */
  lemma PositionSelf(s: Rows)
    requires PricedAfterFirst(s) && Chronological(s) && |s| >= 2
    ensures AlignedPricedAfterFirst(s, s)
    ensures PositionSimilarity(s, s) == 1.0
  {
    AlignSelf(s);
  }

  /** A two-day series whose second day closes at `c` against a previous
      close of 10. */
  function TwoDays(c: real): Rows {
    [Row(1, 10.0, 10.0, 10.0, 10.0, 10.0, 1.0), Row(2, 10.0, 10.0, c, c, 10.0, 1.0)]
  }

  /** Position sums can both be negative, and then min/max exceeds 1: second
      days that fall 3 and 2 tenths of the previous close give sums -2 and -1,
      and the score is 2. */
  lemma PositionCanExceedOne()
    ensures AlignedPricedAfterFirst(TwoDays(7.0), TwoDays(8.0))
    ensures PositionSimilarity(TwoDays(7.0), TwoDays(8.0)) == 2.0
  {
    var s1, s2 := TwoDays(7.0), TwoDays(8.0);
    TwoDaysAligned(7.0, 8.0);
    TwoDaysPositionSum(7.0);
    TwoDaysPositionSum(8.0);
    assert PositionSimilarity(s1, s2) == PartSimilarity(PositionSum(s1), PositionSum(s2));
    assert PartSimilarity(-2.0, -1.0) == 2.0;
  }

  lemma TwoDaysAligned(c1: real, c2: real)
    ensures AlignPair(TwoDays(c1), TwoDays(c2)) == (TwoDays(c1), TwoDays(c2))
    ensures |CommonDates(TwoDays(c1), TwoDays(c2))| == 2
  {
    var s1, s2 := TwoDays(c1), TwoDays(c2);
    assert Dates(s1) == [1, 2] && Dates(s2) == [1, 2];
    AlignSelfDates(s1, s2);
  }

  lemma TwoDaysPositionSum(c: real)
    ensures RefPriced(TwoDays(c))
    ensures PositionSum(TwoDays(c)) == 1.0 + (c - 10.0)
  {
    var s := TwoDays(c);
    var p := Positions(s);
    assert |p| == 2 && p[0] == 1.0;
    assert s[1].close == c && s[1].ycp == 10.0;
    assert p[1] == c - 10.0 by {
      assert p[1] == (c - 10.0) / (10.0 * 0.1);
    }
    assert Sum(p[..1]) == 1.0 by {
      assert p[..1][..0] == [];
    }
  }

  /** The first day's previous close is never read: changing it, to 0 say,
      leaves every position and the sum unchanged. */
  lemma PositionsIgnoreFirstPreviousClose(a: Rows, y: real)
    requires |a| > 0 && PricedAfterFirst(a)
    ensures PricedAfterFirst(a[0 := a[0].(ycp := y)])
    ensures Positions(a[0 := a[0].(ycp := y)]) == Positions(a)
    ensures PositionSum(a[0 := a[0].(ycp := y)]) == PositionSum(a)
  {
    var b := a[0 := a[0].(ycp := y)];
    assert forall i :: 0 < i < |a| ==> b[i] == a[i];
  }

  /** `TwoDays(c)` on a listing day: the first previous close is 0. */
  function ListingDays(c: real): Rows {
    TwoDays(c)[0 := TwoDays(c)[0].(ycp := 0.0)]
  }

  /** Two listing-day series share both days and align to themselves. */
  lemma ListingDaysAligned()
    ensures |CommonDates(ListingDays(7.0), ListingDays(8.0))| == 2
    ensures AlignPair(ListingDays(7.0), ListingDays(8.0)) == (ListingDays(7.0), ListingDays(8.0))
  {
    var s1, s2 := ListingDays(7.0), ListingDays(8.0);
    assert Dates(s1) == [1, 2] && Dates(s2) == [1, 2];
    AlignSelfDates(s1, s2);
  }

  /** A pair whose first common day has no previous close is still scored,
      exactly as with a previous close of 10 on that day. */
  lemma ListingDayScored()
    ensures !RefPriced(ListingDays(7.0)) && !RefPriced(ListingDays(8.0))
    ensures AlignedPricedAfterFirst(ListingDays(7.0), ListingDays(8.0))
    ensures PositionSimilarity(ListingDays(7.0), ListingDays(8.0)) == 2.0
  {
    var s1, s2 := ListingDays(7.0), ListingDays(8.0);
    ListingDaysAligned();
    TwoDaysPositionSum(7.0);
    TwoDaysPositionSum(8.0);
    PositionsIgnoreFirstPreviousClose(TwoDays(7.0), 0.0);
    PositionsIgnoreFirstPreviousClose(TwoDays(8.0), 0.0);
    assert PositionSimilarity(s1, s2) == PartSimilarity(PositionSum(s1), PositionSum(s2));
    assert PartSimilarity(-2.0, -1.0) == 2.0;
  }

  /** Two chronological series on the same calendar align to themselves. */
  lemma AlignSelfDates(s1: Rows, s2: Rows)
    requires Chronological(s1) && Chronological(s2) && Dates(s1) == Dates(s2)
    ensures AlignPair(s1, s2) == (s1, s2)
  {
    AlignSelf(s1);
    AlignSelf(s2);
    assert CommonDates(s1, s2) == CommonDates(s1, s1);
    assert CommonDates(s2, s2) == Dates(s2);
    assert CommonDates(s1, s2) == Dates(s2);
  }
}

=== FILE: clique.dfy ===
/** `_find_max_clique`: order the vertices by degree, highest first (a
    stable sort), and grow a clique greedily, keeping each vertex that is
    adjacent to every vertex kept so far. */
module Clique {
  import opened Ordering

  /** Every member is adjacent to each member kept before it. */
  ghost predicate IsClique<T>(c: seq<T>, adj: (T, T) -> bool) {
    forall i, j :: 0 <= i < j < |c| ==> adj(c[j], c[i])
  }

  /** The greedy pass over `order`. */
  function Greedy<T(==,!new)>(order: seq<T>, adj: (T, T) -> bool): (c: seq<T>)
    ensures IsClique(c, adj)
    ensures |c| <= |order|
    ensures forall v :: v in c ==> v in order
    ensures |order| > 0 ==> |c| > 0 && c[0] == order[0]
    ensures forall v :: v in order && v !in c ==> exists u :: u in c && !adj(v, u)
    decreases |order|
  {
    if |order| == 0 then []
    else
      var init := order[..|order| - 1];
      var v := order[|order| - 1];
      var c := Greedy(init, adj);
      assert forall x :: x in order <==> x in init || x == v;
      if forall u | u in c :: adj(v, u) then
        assert forall i :: 0 <= i < |c| ==> adj(v, c[i]) by {
          forall i | 0 <= i < |c| ensures adj(v, c[i]) { assert c[i] in c; }
        }
        c + [v]
      else c
  }

  /** `graph.degree(v)`: the number of vertices adjacent to `v`. */
  function Degree<T(!new)>(nodes: seq<T>, adj: (T, T) -> bool, v: T): nat {
    |Filter(nodes, u => adj(v, u))|
  }

  /** The vertices sorted by degree, highest first, ties in vertex order. */
  function ByDegree<T(!new)>(nodes: seq<T>, adj: (T, T) -> bool): (order: seq<T>)
    ensures |order| == |nodes|
    ensures forall v :: v in order <==> v in nodes
    ensures |nodes| > 0 ==> forall v :: v in nodes ==> Degree(nodes, adj, v) <= Degree(nodes, adj, order[0])
  {
    var f := v => Degree(nodes, adj, v) as real;
    var keys := seq(|nodes|, k requires 0 <= k < |nodes| => f(nodes[k]));
    var idx := SortIndices(keys, |nodes|);
    var order := seq(|idx|, k requires 0 <= k < |idx| => nodes[idx[k]]);
    ReorderedCovers(nodes, idx, order);
    FirstMaximises(nodes, f, keys, idx);
    order
  }

  /** Picking every position once keeps exactly the same elements. */
  lemma ReorderedCovers<T>(nodes: seq<T>, idx: seq<nat>, order: seq<T>)
    requires |idx| == |nodes| == |order|
    requires forall k :: 0 <= k < |idx| ==> idx[k] < |nodes| && order[k] == nodes[idx[k]]
    requires forall k :: 0 <= k < |nodes| ==> k in idx
    ensures forall v :: v in order <==> v in nodes
  {
    forall v | v in nodes
      ensures v in order
    {
      var k :| 0 <= k < |nodes| && nodes[k] == v;
      assert k in idx;
      var m :| 0 <= m < |idx| && idx[m] == k;
      assert order[m] == v;
    }
  }

  /** The first index of a stable descending sort carries the highest key. */
  lemma FirstMaximises<T>(nodes: seq<T>, f: T -> real, keys: seq<real>, idx: seq<nat>)
    requires |keys| == |nodes| == |idx|
    requires forall k :: 0 <= k < |nodes| ==> keys[k] == f(nodes[k])
    requires forall k :: 0 <= k < |idx| ==> idx[k] < |nodes|
    requires forall k :: 0 <= k < |nodes| ==> k in idx
    requires IndicesSorted(keys, idx)
    ensures |nodes| > 0 ==> forall v :: v in nodes ==> f(v) <= f(nodes[idx[0]])
  {
    forall v | v in nodes && |nodes| > 0
      ensures f(v) <= f(nodes[idx[0]])
    {
      var k :| 0 <= k < |nodes| && nodes[k] == v;
      assert k in idx;
      var m :| 0 <= m < |idx| && idx[m] == k;
      if m > 0 {
        assert Precedes(keys, idx[0], idx[m]);
      }
    }
  }

  /** The clique the source reports: empty for an empty graph, otherwise
      the greedy pass over the degree order. */
  function FindMaxClique<T(==,!new)>(nodes: seq<T>, adj: (T, T) -> bool): (c: seq<T>)
    ensures IsClique(c, adj)
    ensures |c| <= |nodes|
    ensures forall v :: v in c ==> v in nodes
    ensures |nodes| > 0 ==> |c| > 0
    ensures |nodes| > 0 ==> forall v :: v in nodes ==> Degree(nodes, adj, v) <= Degree(nodes, adj, c[0])
    ensures forall v :: v in nodes && v !in c ==> exists u :: u in c && !adj(v, u)
  {
    if |nodes| == 0 then [] else Greedy(ByDegree(nodes, adj), adj)
  }

  /** A vertex of highest degree with a neighbour puts a second vertex in
      the clique when adjacency is irreflexive. */
  lemma CliqueOfTwo<T(!new)>(nodes: seq<T>, adj: (T, T) -> bool, a: T, b: T)
    requires a in nodes && b in nodes && adj(a, b)
    requires forall v :: !adj(v, v)
    requires forall u, v :: adj(u, v) ==> adj(v, u)
    ensures |FindMaxClique(nodes, adj)| >= 2
  {
    var c := FindMaxClique(nodes, adj);
    var top := c[0];
    var na := Filter(nodes, u => adj(a, u));
    assert b in na;
    assert Degree(nodes, adj, a) >= 1;
    assert Degree(nodes, adj, top) >= 1;
    var ns := Filter(nodes, u => adj(top, u));
    assert ns[0] in ns;
    var w := ns[0];
    assert adj(top, w) && w in nodes;
    if w !in c {
      var u :| u in c && !adj(w, u);
      assert u != top;
      var k :| 0 <= k < |c| && c[k] == u;
      assert k != 0;
    } else {
      assert w != top;
      var k :| 0 <= k < |c| && c[k] == w;
      assert k != 0;
    }
  }
}

=== FILE: common.dfy ===
/** Shared vocabulary of the model: optional values, IEEE-style numbers and
    small real-valued helpers (absolute value, clamping, sums and means). */
module Common {

  /** A value that may be missing: pandas NaN, a SQL NULL or a Python None. */
  datatype Option<+T> = None | Some(value: T)

  /** A floating-point value as the source sees it: finite, NaN or an infinity. */
  datatype Num = Finite(v: real) | NaN | PosInf | NegInf {
    predicate IsFinite() { Finite? }
  }

  function Abs(x: real): (r: real)
    ensures r >= 0.0
    ensures r == x || r == -x
  {
    if x < 0.0 then -x else x
  }

  function Min(x: real, y: real): real { if x <= y then x else y }

  function Max(x: real, y: real): real { if x >= y then x else y }

  /** `max(min(x, 1), 0)`: the clamp the scorers apply before returning. */
  function Clamp01(x: real): (r: real)
    ensures 0.0 <= r <= 1.0
    ensures 0.0 <= x <= 1.0 ==> r == x
  {
    Max(Min(x, 1.0), 0.0)
  }

  /** Sum of a sequence of reals, left to right. */
  function Sum(xs: seq<real>): real
    decreases |xs|
  {
    if |xs| == 0 then 0.0 else Sum(xs[..|xs| - 1]) + xs[|xs| - 1]
  }

  /** `np.mean`: only defined on non-empty sequences. */
  function Mean(xs: seq<real>): real
    requires |xs| > 0
  {
    Sum(xs) / (|xs| as real)
  }

  ghost predicate AllIn(xs: seq<real>, lo: real, hi: real) {
    forall i :: 0 <= i < |xs| ==> lo <= xs[i] <= hi
  }

  /** A concatenation is within bounds exactly when both parts are. */
  lemma AllInSplit(xs: seq<real>, ys: seq<real>, lo: real, hi: real)
    ensures AllIn(xs + ys, lo, hi) <==> AllIn(xs, lo, hi) && AllIn(ys, lo, hi)
  {
    if AllIn(xs + ys, lo, hi) {
      forall i | 0 <= i < |ys|
        ensures lo <= ys[i] <= hi
      {
        assert ys[i] == (xs + ys)[|xs| + i];
      }
      forall i | 0 <= i < |xs|
        ensures lo <= xs[i] <= hi
      {
        assert xs[i] == (xs + ys)[i];
      }
    }
    if AllIn(xs, lo, hi) && AllIn(ys, lo, hi) {
      AllInConcat(xs, ys, lo, hi);
    }
  }

  lemma AllInConcat(xs: seq<real>, ys: seq<real>, lo: real, hi: real)
    requires AllIn(xs, lo, hi) && AllIn(ys, lo, hi)
    ensures AllIn(xs + ys, lo, hi)
  {
    forall i | 0 <= i < |xs + ys|
      ensures lo <= (xs + ys)[i] <= hi
    {
      if i >= |xs| {
        assert (xs + ys)[i] == ys[i - |xs|];
      }
    }
  }

  lemma {:induction false} SumAppend(xs: seq<real>, x: real)
    ensures Sum(xs + [x]) == Sum(xs) + x
  {
    assert (xs + [x])[..|xs + [x]| - 1] == xs;
  }

  lemma {:induction false} SumCons(x: real, xs: seq<real>)
    ensures Sum([x] + xs) == x + Sum(xs)
    decreases |xs|
  {
    if |xs| == 0 {
      assert [x] + xs == [x];
      assert [x][..0] == [];
    } else {
      var init := xs[..|xs| - 1];
      SumCons(x, init);
      assert [x] + xs == ([x] + init) + [xs[|xs| - 1]];
      SumAppend([x] + init, xs[|xs| - 1]);
      assert xs == init + [xs[|xs| - 1]];
      SumAppend(init, xs[|xs| - 1]);
    }
  }

  /** Every entry in [lo, hi] puts the sum in [n*lo, n*hi], for n the
      length taken as a real. */
  lemma {:induction false} SumBounds(xs: seq<real>, lo: real, hi: real, n: real)
    requires AllIn(xs, lo, hi) && n == |xs| as real
    ensures n * lo <= Sum(xs) <= n * hi
    decreases |xs|
  {
    if |xs| > 0 {
      var m := n - 1.0;
      SumBounds(xs[..|xs| - 1], lo, hi, m);
      ScaleStep(m, lo);
      ScaleStep(m, hi);
    }
  }

  /** One more copy of x: (a + 1) * x == a * x + x. */
  lemma ScaleStep(a: real, x: real)
    ensures (a + 1.0) * x == a * x + x
  {
  }

  /** Dividing bounds n*lo <= s <= n*hi by a positive n. */
  lemma QuotientBounds(s: real, n: real, lo: real, hi: real)
    requires n > 0.0 && n * lo <= s <= n * hi
    ensures lo <= s / n <= hi
  {
  }

  /** A mean of values in [lo, hi] stays in [lo, hi]. */
  lemma MeanBounds(xs: seq<real>, lo: real, hi: real)
    requires |xs| > 0
    requires AllIn(xs, lo, hi)
    ensures lo <= Mean(xs) <= hi
  {
    var n := |xs| as real;
    SumBounds(xs, lo, hi, n);
    QuotientBounds(Sum(xs), n, lo, hi);
  }

  lemma MeanNonNegative(xs: seq<real>)
    requires |xs| > 0
    requires forall i :: 0 <= i < |xs| ==> xs[i] >= 0.0
    ensures Mean(xs) >= 0.0
  {
    SumNonNegative(xs);
  }

  /** Facts about `1 / x` for x >= 1 that the solver does not find alone. */
  lemma ReciprocalFacts(x: real)
    requires x >= 1.0
    ensures 0.0 < 1.0 / x <= 1.0
    ensures (1.0 / x) * x == 1.0
    ensures 1.0 / x == 1.0 <==> x == 1.0
    ensures x <= 2.0 ==> 1.0 / x >= 0.5
  {
    assert (1.0 / x) * x == 1.0;
  }

  /** A part of a positive whole, divided by it, lies in [0, 1] and hits the
      ends only at the empty part and the whole. */
  lemma RatioFacts(a: real, b: real)
    requires 0.0 <= a <= b && 0.0 < b
    ensures 0.0 <= a / b <= 1.0
    ensures a / b == 0.0 <==> a == 0.0
    ensures a / b == 1.0 <==> a == b
  {
    var q := a / b;
    assert q * b == a;
  }

  /** All entries equal to c make the sum n*c, for n the length taken as a real. */
  lemma {:induction false} SumConstant(xs: seq<real>, c: real, n: real)
    requires forall i :: 0 <= i < |xs| ==> xs[i] == c
    requires n == |xs| as real
    ensures Sum(xs) == n * c
    decreases |xs|
  {
    if |xs| > 0 {
      var m := n - 1.0;
      SumConstant(xs[..|xs| - 1], c, m);
      ScaleStep(m, c);
    }
  }

  /** (n*c)/n == c for a positive n. */
  lemma QuotientOfMultiple(n: real, c: real)
    requires n > 0.0
    ensures (n * c) / n == c
  {
  }

  /** All entries equal to c make the mean c. */
  lemma MeanConstant(xs: seq<real>, c: real)
    requires |xs| > 0
    requires forall i :: 0 <= i < |xs| ==> xs[i] == c
    ensures Mean(xs) == c
  {
    var n := |xs| as real;
    SumConstant(xs, c, n);
    QuotientOfMultiple(n, c);
  }

  /** Sum of non-negative reals is zero exactly when every entry is. */
  lemma {:induction false} SumZeroIffAllZero(xs: seq<real>)
    requires forall i :: 0 <= i < |xs| ==> xs[i] >= 0.0
    ensures Sum(xs) == 0.0 <==> forall i :: 0 <= i < |xs| ==> xs[i] == 0.0
    decreases |xs|
  {
    if |xs| > 0 {
      var init := xs[..|xs| - 1];
      SumZeroIffAllZero(init);
      SumNonNegative(init);
    }
  }

  /** s/n is 0 exactly when s is, for a positive n. */
  lemma QuotientZero(s: real, n: real)
    requires n > 0.0
    ensures s / n == 0.0 <==> s == 0.0
  {
    assert (s / n) * n == s;
  }

  /** A mean of non-negative values is 0 exactly when every value is 0. */
  lemma MeanZeroIffAllZero(xs: seq<real>)
    requires |xs| > 0 && forall i :: 0 <= i < |xs| ==> xs[i] >= 0.0
    ensures Mean(xs) == 0.0 <==> AllIn(xs, 0.0, 0.0)
  {
    SumZeroIffAllZero(xs);
    QuotientZero(Sum(xs), |xs| as real);
  }

  lemma {:induction false} SumNonNegative(xs: seq<real>)
    requires forall i :: 0 <= i < |xs| ==> xs[i] >= 0.0
    ensures Sum(xs) >= 0.0
    decreases |xs|
  {
    if |xs| > 0 {
      SumNonNegative(xs[..|xs| - 1]);
    }
  }

  /** A sequence with an element has a member: what turns "no member" into "empty". */
  lemma FirstIsMember<T>(xs: seq<T>)
    ensures |xs| > 0 ==> xs[0] in xs
  {
  }

  /** The first components of a sequence of pairs, in order: the keys of a
      property list, the dates of a dated series. */
  function Firsts<K, V>(ps: seq<(K, V)>): (ks: seq<K>)
    ensures |ks| == |ps| && forall i :: 0 <= i < |ps| ==> ks[i] == ps[i].0
  {
    seq(|ps|, i requires 0 <= i < |ps| => ps[i].0)
  }

  /** `s.startswith(p)` */
  predicate StartsWith(s: string, p: string) {
    |p| <= |s| && s[..|p|] == p
  }
}

=== FILE: dispatch.dfy ===
/** `_calculate_stock_similarity`: align two securities on their common
    trading days and hand the aligned frames to the strategy the method
    identifier names, falling back to DTW for an unknown identifier. */
module Dispatch {
  import opened Common
  import opened Series
  import opened NumericMethods
  import opened CandleMethods

  /** The method identifiers this dispatcher recognises. */
  predicate KnownMethod(kind: string) {
    kind in {"dtw", "pearson", "euclidean", "coIntegration", "shape", "position"}
  }

  /** The ratio series the chosen strategy reads are finite on the aligned
      frames: previous closes for shape and for the price indicators, those
      after the first day for position, the maximum volume for turnover.
      `pearson` needs nothing
      (a non-finite series gives a NaN correlation, which it drops), and
      `euclidean` reads only the close changes. */
  ghost predicate Computable(s1: Rows, s2: Rows, inds: seq<string>, kind: string) {
    |CommonDates(s1, s2)| >= 2 ==> ComputableFrames(AlignPair(s1, s2).0, AlignPair(s1, s2).1, inds, kind)
  }

  /** The requirement on the two aligned frames. */
  ghost predicate ComputableFrames(a1: Rows, a2: Rows, inds: seq<string>, kind: string) {
    if kind == "shape" then RefPriced(a1) && RefPriced(a2)
    else if kind == "position" then PricedAfterFirst(a1) && PricedAfterFirst(a2)
    else if kind == "pearson" then true
    else if kind == "euclidean" then ("close" in inds ==> RefPriced(a1) && RefPriced(a2))
    else if kind == "coIntegration" then (|a1| > 25 && |a2| > 25 ==> Measurable(a1, a2, Selected(inds)))
    else Measurable(a1, a2, Selected(inds))
  }

  /** For chronological series the requirement does not depend on which
      security comes first. */
  lemma ComputableSymmetric(s1: Rows, s2: Rows, inds: seq<string>, kind: string)
    requires Chronological(s1) && Chronological(s2)
    ensures Computable(s1, s2, inds, kind) <==> Computable(s2, s1, inds, kind)
  {
    CommonDatesSymmetric(s1, s2);
    AlignPairSymmetric(s1, s2);
    var (a1, a2) := AlignPair(s1, s2);
    assert ComputableFrames(a1, a2, inds, kind) <==> ComputableFrames(a2, a1, inds, kind);
  }

  /** A security with no rows shares no day with any other: nothing to compute. */
  lemma ComputableWithoutRows(s1: Rows, inds: seq<string>, kind: string)
    ensures Computable(s1, [], inds, kind)
  {
    var cd := CommonDates(s1, []);
    FirstIsMember(cd);
  }

  /** A pair whose first common day has a previous close of 0 is scored by
      position, which never reads that day's previous close, but not by
      shape, which divides by it. */
  lemma ListingDayComputable(inds: seq<string>)
    ensures Computable(ListingDays(7.0), ListingDays(8.0), inds, "position")
    ensures !Computable(ListingDays(7.0), ListingDays(8.0), inds, "shape")
  {
    var s1, s2 := ListingDays(7.0), ListingDays(8.0);
    ListingDaysAligned();
    ListingDayScored();
    assert ComputableFrames(s1, s2, inds, "position");
    assert s1[0].ycp == 0.0;
    assert !ComputableFrames(s1, s2, inds, "shape");
  }

  function StockSimilarity(n: Numerics, s1: Rows, s2: Rows, inds: seq<string>, kind: string): (r: real)
    requires Computable(s1, s2, inds, kind) && ValidNumerics(n)
    ensures |CommonDates(s1, s2)| < 2 ==> r == 0.0
    ensures kind != "shape" && kind != "position" ==> 0.0 <= r <= 1.0
    ensures kind == "shape" && Candles(s1) && Candles(s2) ==> 0.0 <= r <= 1.0
  {
    if |CommonDates(s1, s2)| < 2 then 0.0
    else
      var (a1, a2) := AlignPair(s1, s2);
      if kind == "dtw" then DtwSimilarity(n, a1, a2, inds)
      else if kind == "pearson" then PearsonSimilarity(n, a1, a2, inds)
      else if kind == "euclidean" then EuclideanSimilarity(n, a1, a2, inds)
      else if kind == "coIntegration" then CointegrationSimilarity(n, a1, a2, inds)
      else if kind == "shape" then
        RefPricedAligned(a1, a2);
        assert Candles(s1) && Candles(s2) ==> Candles(a1) && Candles(a2) by {
          forall i | 0 <= i < |a1|
            ensures a1[i] in s1 && a2[i] in s2
          {
          }
        }
        ShapeSimilarity(a1, a2)
      else if kind == "position" then
        AlignPairIdempotent(s1, s2);
        PositionSimilarity(a1, a2)
      else DtwSimilarity(n, a1, a2, inds)
  }

  /** An unrecognised method identifier scores exactly as "dtw". */
  lemma UnknownMethodFallsBackToDtw(n: Numerics, s1: Rows, s2: Rows, inds: seq<string>, kind: string)
    requires Computable(s1, s2, inds, kind) && ValidNumerics(n)
    requires !KnownMethod(kind)
    ensures Computable(s1, s2, inds, "dtw")
    ensures StockSimilarity(n, s1, s2, inds, kind) == StockSimilarity(n, s1, s2, inds, "dtw")
  {
  }

  /** For chronological series and symmetric library numerics, every method
      but the (order-dependent) Engle-Granger test scores the pair the same
      whichever security comes first. */
  lemma StockSimilaritySymmetric(n: Numerics, s1: Rows, s2: Rows, inds: seq<string>, kind: string)
    requires Computable(s1, s2, inds, kind) && ValidNumerics(n) && SymmetricNumerics(n)
    requires Chronological(s1) && Chronological(s2)
    requires kind != "coIntegration"
    ensures Computable(s2, s1, inds, kind)
    ensures StockSimilarity(n, s1, s2, inds, kind) == StockSimilarity(n, s2, s1, inds, kind)
  {
    CommonDatesSymmetric(s1, s2);
    if |CommonDates(s1, s2)| >= 2 {
      AlignPairSymmetric(s1, s2);
      ComputableSymmetric(s1, s2, inds, kind);
      AlignChronological(s1, s2);
      var (a1, a2) := AlignPair(s1, s2);
      if kind == "pearson" {
        PearsonSymmetric(n, a1, a2, inds);
      } else if kind == "euclidean" {
        EuclideanSymmetric(n, a1, a2, inds);
      } else if kind == "shape" {
        RefPricedAligned(a1, a2);
        ShapeSymmetric(a1, a2);
      } else if kind == "position" {
        AlignPairIdempotent(s1, s2);
        PositionSymmetric(a1, a2);
      } else {
        DtwSymmetric(n, a1, a2, inds);
      }
    }
  }
}

=== FILE: graph_editing.dfy ===
/** `_calculate_graph_similarity` ("graphEditing"): per-indicator closeness
    of the node features on the shared days, the closeness of the weights on
    the shared edges, and their mean. */
module GraphEditing {
  import opened Common
  import opened Ordering
  import opened Series
  import opened NumericMethods
  import opened PriceGraph

  function GraphDates(g: Graph): (ds: seq<int>)
    ensures |ds| == |g.nodes|
    ensures forall i :: 0 <= i < |ds| ==> ds[i] == g.nodes[i].date
  {
    seq(|g.nodes|, i requires 0 <= i < |g.nodes| => g.nodes[i].date)
  }

  /** `G.nodes[d]`: the (first) node dated `d`. */
  function NodeAt(g: Graph, d: int): (n: Node)
    requires d in GraphDates(g)
    ensures n in g.nodes && n.date == d
  {
    g.nodes[IndexOf(GraphDates(g), d)]
  }

  /** `set(G1.nodes()) & set(G2.nodes())`, listed in the order of G1. */
  function CommonNodes(g1: Graph, g2: Graph): (cd: seq<int>)
    ensures forall d :: d in cd <==> d in GraphDates(g1) && d in GraphDates(g2)
  {
    Intersect(GraphDates(g1), GraphDates(g2))
  }

  /** Both nodes of date `d` carry the feature of `ind`. */
  predicate BothCarry(g1: Graph, g2: Graph, ind: Indicator, d: int) {
    && d in GraphDates(g1) && d in GraphDates(g2)
    && Feature(NodeAt(g1, d).f, ind).Some? && Feature(NodeAt(g2, d).f, ind).Some?
  }

  /** The shared days on which both nodes carry the indicator's feature. */
  function SharedDates(g1: Graph, g2: Graph, ind: Indicator): (ds: seq<int>)
    ensures forall d :: d in ds ==> BothCarry(g1, g2, ind, d)
  {
    Filter(CommonNodes(g1, g2), d => BothCarry(g1, g2, ind, d))
  }

  /** The absolute difference of the two nodes' feature on day `d`. */
  function FeatureGap(g1: Graph, g2: Graph, ind: Indicator, d: int): (gap: real)
    ensures gap >= 0.0
  {
    if BothCarry(g1, g2, ind, d)
    then Abs(Feature(NodeAt(g1, d).f, ind).value - Feature(NodeAt(g2, d).f, ind).value)
    else 0.0
  }

  /** The absolute feature differences on the shared days. */
  function FeatureDiffs(g1: Graph, g2: Graph, ind: Indicator): (diffs: seq<real>)
    ensures |diffs| == |SharedDates(g1, g2, ind)|
    ensures forall k :: 0 <= k < |diffs| ==> diffs[k] == FeatureGap(g1, g2, ind, SharedDates(g1, g2, ind)[k])
  {
    var ds := SharedDates(g1, g2, ind);
    seq(|ds|, k requires 0 <= k < |ds| => FeatureGap(g1, g2, ind, ds[k]))
  }

  /** 1 / (1 + mean difference) for price changes, 1 - mean difference for
      turnover, clamped to [0, 1]. */
  function Closeness(ind: Indicator, avg: real): (r: real)
    requires avg >= 0.0
    ensures 0.0 <= r <= 1.0
    ensures r == 1.0 <==> avg == 0.0
  {
    if ind == TurnoverInd then Clamp01(1.0 - avg) else Clamp01(DistanceToScore(avg))
  }

  /** The score appended for a requested indicator, when some shared day
      carries its feature. */
  function IndicatorScore(g1: Graph, g2: Graph, inds: seq<string>, ind: Indicator): (o: Option<real>)
    ensures o.Some? ==> 0.0 <= o.value <= 1.0
    ensures o.Some? <==> ind in Selected(inds) && |SharedDates(g1, g2, ind)| > 0
  {
    var diffs := FeatureDiffs(g1, g2, ind);
    assert forall k :: 0 <= k < |diffs| ==> diffs[k] >= 0.0;
    if ind !in Selected(inds) || |diffs| == 0 then None
    else
      MeanNonNegative(diffs);
      Some(Closeness(ind, Mean(diffs)))
  }

  // ---------------------------------------------------------------------
  // Edges, keyed `(min(u, v), max(u, v))`

  function EdgeKey(u: int, v: int): (key: (int, int))
    ensures key.0 <= key.1
    ensures (key.0 == u && key.1 == v) || (key.0 == v && key.1 == u)
  {
    if u <= v then (u, v) else (v, u)
  }

  function EdgeKeys(g: Graph): (ks: seq<(int, int)>)
    requires IsPath(g)
    ensures |ks| == |g.weights|
    ensures forall k :: 0 <= k < |ks| ==> ks[k] == EdgeKey(g.nodes[k].date, g.nodes[k + 1].date)
  {
    seq(|g.weights|, k requires 0 <= k < |g.weights| => EdgeKey(g.nodes[k].date, g.nodes[k + 1].date))
  }

  /** `G.get_edge_data(*key)['weight']`: the weight of the (first) edge with that key. */
  function WeightOf(g: Graph, key: (int, int)): real
    requires IsPath(g) && key in EdgeKeys(g)
  {
    g.weights[IndexOf(EdgeKeys(g), key)]
  }

  /** `set(G1_edges) & set(G2_edges)`, listed in the order of G1. */
  function CommonEdges(g1: Graph, g2: Graph): (ks: seq<(int, int)>)
    requires IsPath(g1) && IsPath(g2)
    ensures forall key :: key in ks <==> key in EdgeKeys(g1) && key in EdgeKeys(g2)
  {
    var other := EdgeKeys(g2);
    Filter(EdgeKeys(g1), key => key in other)
  }

  /** The absolute difference of the two graphs' weights on edge `key`. */
  function WeightGap(g1: Graph, g2: Graph, key: (int, int)): (gap: real)
    requires IsPath(g1) && IsPath(g2)
    ensures gap >= 0.0
  {
    if key in EdgeKeys(g1) && key in EdgeKeys(g2)
    then Abs(WeightOf(g1, key) - WeightOf(g2, key))
    else 0.0
  }

  function EdgeDiffs(g1: Graph, g2: Graph): (diffs: seq<real>)
    requires IsPath(g1) && IsPath(g2)
    ensures |diffs| == |CommonEdges(g1, g2)|
    ensures forall k :: 0 <= k < |diffs| ==> diffs[k] == WeightGap(g1, g2, CommonEdges(g1, g2)[k])
  {
    var ks := CommonEdges(g1, g2);
    seq(|ks|, k requires 0 <= k < |ks| => WeightGap(g1, g2, ks[k]))
  }

  /** The edge score, when the graphs share an edge: 1 / (1 + mean weight
      difference), clamped. */
  function EdgeScore(g1: Graph, g2: Graph): (o: Option<real>)
    requires IsPath(g1) && IsPath(g2)
    ensures o.Some? <==> |CommonEdges(g1, g2)| > 0
    ensures o.Some? ==> 0.0 < o.value <= 1.0
  {
    var diffs := EdgeDiffs(g1, g2);
    assert forall k :: 0 <= k < |diffs| ==> diffs[k] >= 0.0;
    if |diffs| == 0 then None
    else
      MeanNonNegative(diffs);
      Some(Clamp01(DistanceToScore(Mean(diffs))))
  }

  function OptionList(o: Option<real>): (xs: seq<real>)
    ensures o.None? ==> xs == []
    ensures o.Some? ==> xs == [o.value]
    ensures o.Some? && 0.0 <= o.value <= 1.0 ==> AllIn(xs, 0.0, 1.0)
  {
    if o.Some? then [o.value] else []
  }

  /** Listing five optional values, each within [lo, hi] when present,
      gives only values within [lo, hi]. */
  lemma OptionsIn(c: Option<real>, h: Option<real>, l: Option<real>, t: Option<real>, e: Option<real>, lo: real, hi: real)
    requires c.Some? ==> lo <= c.value <= hi
    requires h.Some? ==> lo <= h.value <= hi
    requires l.Some? ==> lo <= l.value <= hi
    requires t.Some? ==> lo <= t.value <= hi
    requires e.Some? ==> lo <= e.value <= hi
    ensures AllIn(OptionList(c) + OptionList(h) + OptionList(l) + OptionList(t) + OptionList(e), lo, hi)
  {
    var xc, xh, xl, xt, xe := OptionList(c), OptionList(h), OptionList(l), OptionList(t), OptionList(e);
    assert AllIn(xc, lo, hi) && AllIn(xh, lo, hi) && AllIn(xl, lo, hi);
    assert AllIn(xt, lo, hi) && AllIn(xe, lo, hi);
    AllInConcat(xc, xh, lo, hi);
    var ch := xc + xh;
    AllInConcat(ch, xl, lo, hi);
    var chl := ch + xl;
    AllInConcat(chl, xt, lo, hi);
    var chlt := chl + xt;
    AllInConcat(chlt, xe, lo, hi);
  }

  /** `similarity_scores`: close, high, low, turnover, then the edge score,
      each only when it was computed. */
  function Scores(g1: Graph, g2: Graph, inds: seq<string>): (sc: seq<real>)
    requires IsPath(g1) && IsPath(g2)
    ensures AllIn(sc, 0.0, 1.0)
  {
    var c, h := IndicatorScore(g1, g2, inds, CloseInd), IndicatorScore(g1, g2, inds, HighInd);
    var l, t := IndicatorScore(g1, g2, inds, LowInd), IndicatorScore(g1, g2, inds, TurnoverInd);
    var e := EdgeScore(g1, g2);
    OptionsIn(c, h, l, t, e, 0.0, 1.0);
    OptionList(c) + OptionList(h) + OptionList(l) + OptionList(t) + OptionList(e)
  }

  /** The graph-editing similarity: 0 without a shared day or without any
      score, otherwise the clamped mean of the scores. */
  function GraphEditingSimilarity(g1: Graph, g2: Graph, inds: seq<string>): (r: real)
    requires IsPath(g1) && IsPath(g2)
    ensures 0.0 <= r <= 1.0
    ensures |CommonNodes(g1, g2)| == 0 ==> r == 0.0
    ensures |CommonNodes(g1, g2)| > 0 && |Scores(g1, g2, inds)| == 0 ==> r == 0.0
    ensures |CommonNodes(g1, g2)| > 0 && |Scores(g1, g2, inds)| > 0 ==> r == Mean(Scores(g1, g2, inds))
  {
    if |CommonNodes(g1, g2)| == 0 then 0.0
    else
      var sc := Scores(g1, g2, inds);
      if |sc| == 0 then 0.0
      else
        MeanBounds(sc, 0.0, 1.0);
        Clamp01(Mean(sc))
  }

  // ---------------------------------------------------------------------
  // Properties

  /** Against itself, a computed indicator score is 1. */
  lemma IndicatorSelf(g: Graph, inds: seq<string>, ind: Indicator)
    ensures IndicatorScore(g, g, inds, ind).Some? ==> IndicatorScore(g, g, inds, ind).value == 1.0
  {
    var diffs := FeatureDiffs(g, g, ind);
    if IndicatorScore(g, g, inds, ind).Some? {
      forall k | 0 <= k < |diffs|
        ensures diffs[k] == 0.0
      {
        var d := SharedDates(g, g, ind)[k];
        assert diffs[k] == FeatureGap(g, g, ind, d);
      }
      MeanConstant(diffs, 0.0);
      assert IndicatorScore(g, g, inds, ind) == Some(Closeness(ind, Mean(diffs)));
    }
  }

  /** A path with an edge scores its edges 1 against itself. */
  lemma EdgeSelf(g: Graph)
    requires IsPath(g) && |g.nodes| >= 2
    ensures EdgeScore(g, g) == Some(1.0)
  {
    assert EdgeKeys(g)[0] in CommonEdges(g, g);
    MeanConstant(EdgeDiffs(g, g), 0.0);
  }

  /** Scores that are each 1 when computed make a list of ones. */
  lemma ScoresOfOnes(g1: Graph, g2: Graph, inds: seq<string>)
    requires IsPath(g1) && IsPath(g2)
    requires forall ind: Indicator :: IndicatorScore(g1, g2, inds, ind).Some? ==> IndicatorScore(g1, g2, inds, ind).value == 1.0
    requires EdgeScore(g1, g2).Some? ==> EdgeScore(g1, g2).value == 1.0
    ensures AllIn(Scores(g1, g2, inds), 1.0, 1.0)
  {
    OptionsIn(IndicatorScore(g1, g2, inds, CloseInd), IndicatorScore(g1, g2, inds, HighInd),
              IndicatorScore(g1, g2, inds, LowInd), IndicatorScore(g1, g2, inds, TurnoverInd), EdgeScore(g1, g2), 1.0, 1.0);
  }

  /** A graph with at least one edge is fully similar to itself, whatever
      indicators are requested. */
  lemma GraphEditingSelf(g: Graph, inds: seq<string>)
    requires IsPath(g) && |g.nodes| >= 2
    ensures GraphEditingSimilarity(g, g, inds) == 1.0
  {
    assert GraphDates(g)[0] in CommonNodes(g, g);
    forall ind: Indicator
      ensures IndicatorScore(g, g, inds, ind).Some? ==> IndicatorScore(g, g, inds, ind).value == 1.0
    {
      IndicatorSelf(g, inds, ind);
    }
    EdgeSelf(g);
    ScoresOfOnes(g, g, inds);
    MeanBounds(Scores(g, g, inds), 1.0, 1.0);
  }

  /** Against itself, a path's edge score is 1 whenever it is computed; a
      one-node path has no edge and no edge score. */
  lemma EdgeSelfAnySize(g: Graph)
    requires IsPath(g)
    ensures EdgeScore(g, g).Some? ==> EdgeScore(g, g).value == 1.0
  {
    var diffs := EdgeDiffs(g, g);
    if |diffs| > 0 {
      MeanConstant(diffs, 0.0);
    }
  }

  /** Any non-empty path, a single node included, scores 1 against itself
      as soon as one score is computed, and 0 when none is. */
  lemma GraphEditingSelfScored(g: Graph, inds: seq<string>)
    requires IsPath(g) && |g.nodes| >= 1
    ensures GraphEditingSimilarity(g, g, inds) == (if |Scores(g, g, inds)| > 0 then 1.0 else 0.0)
  {
    assert GraphDates(g)[0] in CommonNodes(g, g);
    forall ind: Indicator
      ensures IndicatorScore(g, g, inds, ind).Some? ==> IndicatorScore(g, g, inds, ind).value == 1.0
    {
      IndicatorSelf(g, inds, ind);
    }
    EdgeSelfAnySize(g);
    ScoresOfOnes(g, g, inds);
    if |Scores(g, g, inds)| > 0 {
      MeanBounds(Scores(g, g, inds), 1.0, 1.0);
    }
  }

  /** Order on edge keys of a chronological path: by the earlier endpoint. */
  ghost predicate EarlierEdge(p: (int, int), q: (int, int)) {
    p.0 < q.0
  }

  lemma EdgeKeysSorted(g: Graph)
    requires IsPath(g) && Increasing(GraphDates(g))
    ensures SortedBy(EdgeKeys(g), (p, q) => EarlierEdge(p, q))
  {
    var ks := EdgeKeys(g);
    forall i, j | 0 <= i < j < |ks|
      ensures EarlierEdge(ks[i], ks[j])
    {
      assert GraphDates(g)[i] < GraphDates(g)[i + 1];
      assert GraphDates(g)[j] < GraphDates(g)[j + 1];
      assert GraphDates(g)[i] < GraphDates(g)[j];
    }
  }

  lemma SharedDatesSymmetric(g1: Graph, g2: Graph, ind: Indicator)
    requires CommonNodes(g1, g2) == CommonNodes(g2, g1)
    ensures SharedDates(g1, g2, ind) == SharedDates(g2, g1, ind)
  {
    FilterCongruent(CommonNodes(g1, g2), d => BothCarry(g1, g2, ind, d), d => BothCarry(g2, g1, ind, d));
  }

  lemma FeatureGapSymmetric(g1: Graph, g2: Graph, ind: Indicator, d: int)
    ensures FeatureGap(g1, g2, ind, d) == FeatureGap(g2, g1, ind, d)
  {
    if BothCarry(g1, g2, ind, d) {
      assert BothCarry(g2, g1, ind, d);
    }
  }

  lemma IndicatorScoreSymmetric(g1: Graph, g2: Graph, inds: seq<string>, ind: Indicator)
    requires CommonNodes(g1, g2) == CommonNodes(g2, g1)
    ensures IndicatorScore(g1, g2, inds, ind) == IndicatorScore(g2, g1, inds, ind)
  {
    SharedDatesSymmetric(g1, g2, ind);
    var ds := SharedDates(g1, g2, ind);
    var d12, d21 := FeatureDiffs(g1, g2, ind), FeatureDiffs(g2, g1, ind);
    forall k | 0 <= k < |d12|
      ensures d12[k] == d21[k]
    {
      FeatureGapSymmetric(g1, g2, ind, ds[k]);
    }
    assert d12 == d21;
  }

  lemma CommonEdgesSymmetric(g1: Graph, g2: Graph)
    requires IsPath(g1) && IsPath(g2)
    requires Increasing(GraphDates(g1)) && Increasing(GraphDates(g2))
    ensures CommonEdges(g1, g2) == CommonEdges(g2, g1)
  {
    var ltE := (p: (int, int), q: (int, int)) => EarlierEdge(p, q);
    var o1, o2 := EdgeKeys(g2), EdgeKeys(g1);
    EdgeKeysSorted(g1);
    EdgeKeysSorted(g2);
    FilterSorted(EdgeKeys(g1), key => key in o1, ltE);
    FilterSorted(EdgeKeys(g2), key => key in o2, ltE);
    SortedUnique(CommonEdges(g1, g2), CommonEdges(g2, g1), ltE);
  }

  lemma EdgeScoreSymmetric(g1: Graph, g2: Graph)
    requires IsPath(g1) && IsPath(g2)
    requires Increasing(GraphDates(g1)) && Increasing(GraphDates(g2))
    ensures EdgeScore(g1, g2) == EdgeScore(g2, g1)
  {
    CommonEdgesSymmetric(g1, g2);
    var ks := CommonEdges(g1, g2);
    var d12, d21 := EdgeDiffs(g1, g2), EdgeDiffs(g2, g1);
    forall k | 0 <= k < |d12|
      ensures d12[k] == d21[k]
    {
      assert d12[k] == WeightGap(g1, g2, ks[k]);
      assert d21[k] == WeightGap(g2, g1, ks[k]);
    }
    assert d12 == d21;
  }

  /** On graphs with strictly increasing dates the score does not depend on
      which graph is named first. */
  lemma GraphEditingSymmetric(g1: Graph, g2: Graph, inds: seq<string>)
    requires IsPath(g1) && IsPath(g2)
    requires Increasing(GraphDates(g1)) && Increasing(GraphDates(g2))
    ensures GraphEditingSimilarity(g1, g2, inds) == GraphEditingSimilarity(g2, g1, inds)
  {
    var lt := (x: int, y: int) => x < y;
    assert SortedBy(CommonNodes(g1, g2), lt);
    assert SortedBy(CommonNodes(g2, g1), lt);
    SortedUnique(CommonNodes(g1, g2), CommonNodes(g2, g1), lt);
    IndicatorScoreSymmetric(g1, g2, inds, CloseInd);
    IndicatorScoreSymmetric(g1, g2, inds, HighInd);
    IndicatorScoreSymmetric(g1, g2, inds, LowInd);
    IndicatorScoreSymmetric(g1, g2, inds, TurnoverInd);
    EdgeScoreSymmetric(g1, g2);
    assert Scores(g1, g2, inds) == Scores(g2, g1, inds);
  }

  /** Graphs built from chronological series are scored symmetrically. */
  lemma GraphEditingSeriesSymmetric(s1: Rows, s2: Rows, inds: seq<string>)
    requires Chronological(s1) && Chronological(s2)
    ensures GraphEditingSimilarity(CreatePriceGraph(s1, inds), CreatePriceGraph(s2, inds), inds)
         == GraphEditingSimilarity(CreatePriceGraph(s2, inds), CreatePriceGraph(s1, inds), inds)
  {
    var g1, g2 := CreatePriceGraph(s1, inds), CreatePriceGraph(s2, inds);
    assert Increasing(GraphDates(g1));
    assert Increasing(GraphDates(g2));
    GraphEditingSymmetric(g1, g2, inds);
  }
}

=== FILE: kline.dfy ===
/** The K-line chart read of the data-access layer: the stock-code guard,
    the look-back table, the moving averages and the float sanitiser; and the
    listing's paging and missing-code default. */
module KLine {
  import opened Common

  // ---------------------------------------------------------------------
  // The stock-code guard: `re.match(r'^[A-Za-z0-9.]+$', code)`

  predicate CodeChar(c: char) {
    ('A' <= c <= 'Z') || ('a' <= c <= 'z') || ('0' <= c <= '9') || c == '.'
  }

  /** The length of the longest prefix of `s` made of code characters: how
      far the `[A-Za-z0-9.]+` part of the pattern can reach. */
  function CodeRun(s: string): (k: nat)
    ensures k <= |s|
    ensures forall i :: 0 <= i < k ==> CodeChar(s[i])
    ensures k < |s| ==> !CodeChar(s[k])
  {
    if |s| == 0 || !CodeChar(s[0]) then 0
    else 1 + CodeRun(s[1..])
  }

  /** The pattern matches when the run is non-empty and reaches the end of
      the string, or stops just before a final newline (Python's `$` also
      matches there). */
  function IsValidCode(s: string): (ok: bool)
    ensures ok <==>
      || (|s| > 0 && forall i :: 0 <= i < |s| ==> CodeChar(s[i]))
      || (|s| > 1 && s[|s| - 1] == '\n' && forall i :: 0 <= i < |s| - 1 ==> CodeChar(s[i]))
  {
    var k := CodeRun(s);
    k > 0 && (k == |s| || (k == |s| - 1 && s[k] == '\n'))
  }

  /** A valid code cannot close the SQL string literal it is pasted into. */
  lemma ValidCodeHasNoQuote(s: string)
    requires IsValidCode(s)
    ensures '\'' !in s
  {
    forall i | 0 <= i < |s|
      ensures s[i] != '\''
    {
      assert CodeChar(s[i]) || (i == |s| - 1 && s[i] == '\n');
    }
  }

  /** The guard lets one trailing newline through. */
  lemma TrailingNewlineAccepted()
    ensures IsValidCode("600000\n")
    ensures !IsValidCode("600000\n\n")
    ensures !IsValidCode("")
  {
    assert !CodeChar("600000\n\n"[6]);
    assert CodeRun("600000\n\n") == 6;
  }

  // ---------------------------------------------------------------------
  // Look-back window

  /** Days before the latest trading date the chart starts: 90 for "day",
      180 for "week", 365 for "month", 90 for anything else. */
  function LookbackDays(range: string): (days: int)
    ensures days in {90, 180, 365}
    ensures days == 180 <==> range == "week"
    ensures days == 365 <==> range == "month"
  {
    if range == "week" then 180
    else if range == "month" then 365
    else 90
  }

  // ---------------------------------------------------------------------
  // Moving averages: `rolling(window=w).mean().fillna(0)`

  /** A numeric column value as a real, with NaN and infinities read as 0
      (only used where the window is known to be finite). */
  function ValueOrZero(x: Num): real {
    if x.Finite? then x.v else 0.0
  }

  function Values(xs: seq<Num>): (vs: seq<real>)
    ensures |vs| == |xs|
    ensures forall i :: 0 <= i < |xs| ==> vs[i] == ValueOrZero(xs[i])
  {
    seq(|xs|, i requires 0 <= i < |xs| => ValueOrZero(xs[i]))
  }

  predicate AllFinite(xs: seq<Num>) {
    forall i :: 0 <= i < |xs| ==> xs[i].Finite?
  }

  /** The `w` values ending at position `i`. */
  function Window(xs: seq<Num>, w: nat, i: nat): (ws: seq<Num>)
    requires 1 <= w <= i + 1 && i < |xs|
    ensures |ws| == w
  {
    xs[i + 1 - w..i + 1]
  }

  /** Entry `i` of the filled moving average: 0 while fewer than `w` values
      are available or when the window holds a NaN, the window mean otherwise. */
  function MovingAverageAt(xs: seq<Num>, w: nat, i: nat): real
    requires w >= 1 && i < |xs|
  {
    if i + 1 < w || !AllFinite(Window(xs, w, i)) then 0.0
    else Mean(Values(Window(xs, w, i)))
  }

  function MovingAverage(xs: seq<Num>, w: nat): (ma: seq<real>)
    requires w >= 1
    ensures |ma| == |xs|
    ensures forall i :: 0 <= i < |xs| ==> ma[i] == MovingAverageAt(xs, w, i)
  {
    seq(|xs|, i requires 0 <= i < |xs| => MovingAverageAt(xs, w, i))
  }

  /** The number of non-finite values in `xs`. */
  function BadCount(xs: seq<Num>): (n: nat)
    ensures n == 0 <==> AllFinite(xs)
    decreases |xs|
  {
    if |xs| == 0 then 0
    else
      assert AllFinite(xs) <==> AllFinite(xs[..|xs| - 1]) && xs[|xs| - 1].Finite?;
      BadCount(xs[..|xs| - 1]) + (if xs[|xs| - 1].Finite? then 0 else 1)
  }

  lemma {:induction false} BadCountCons(x: Num, xs: seq<Num>)
    ensures BadCount([x] + xs) == BadCount(xs) + (if x.Finite? then 0 else 1)
    decreases |xs|
  {
    if |xs| > 0 {
      var init := xs[..|xs| - 1];
      BadCountCons(x, init);
      assert ([x] + xs)[..|[x] + xs| - 1] == [x] + init;
    } else {
      assert ([x] + xs)[..0] == [];
    }
  }

  /** Appending one value adds it to the sum and to the non-finite count. */
  lemma AppendStep(ws: seq<Num>, x: Num)
    ensures Sum(Values(ws + [x])) == Sum(Values(ws)) + ValueOrZero(x)
    ensures BadCount(ws + [x]) == BadCount(ws) + (if x.Finite? then 0 else 1)
  {
    var wx := ws + [x];
    assert wx[..|ws|] == ws;
    assert Values(wx) == Values(ws) + [ValueOrZero(x)];
    SumAppend(Values(ws), ValueOrZero(x));
  }

  /** Prepending one value adds it to the sum and to the non-finite count. */
  lemma ConsStep(x: Num, ws: seq<Num>)
    ensures Sum(Values([x] + ws)) == ValueOrZero(x) + Sum(Values(ws))
    ensures BadCount([x] + ws) == BadCount(ws) + (if x.Finite? then 0 else 1)
  {
    assert Values([x] + ws) == [ValueOrZero(x)] + Values(ws);
    SumCons(ValueOrZero(x), Values(ws));
    BadCountCons(x, ws);
  }

  /** The running sum and count over the window ending at `i` give its
      moving average. */
  lemma WindowAverage(xs: seq<Num>, w: nat, i: nat, lo: nat, sum: real, bad: nat)
    requires w >= 1 && i < |xs|
    requires lo == if i + 1 >= w then i + 1 - w else 0
    requires sum == Sum(Values(xs[lo..i + 1])) && bad == BadCount(xs[lo..i + 1])
    ensures (if i + 1 < w || bad > 0 then 0.0 else sum / (w as real)) == MovingAverageAt(xs, w, i)
  {
    if i + 1 >= w {
      assert xs[lo..i + 1] == Window(xs, w, i);
    }
  }

  /** The running state of the one-pass average: the window start, the sum
      of its finite values and its count of non-finite values. */
  datatype Running = Running(lo: nat, sum: real, bad: nat)

  /** `st` holds the sum and the non-finite count of the positions
      `st.lo..hi`. */
  ghost predicate Covers(xs: seq<Num>, st: Running, hi: nat) {
    && st.lo <= hi <= |xs|
    && st.sum == Sum(Values(xs[st.lo..hi]))
    && st.bad == BadCount(xs[st.lo..hi])
  }

  /** `st` covers the window ending just before position `i`. */
  ghost predicate Tracks(xs: seq<Num>, w: nat, i: nat, st: Running) {
    && st.lo == (if i >= w then i - w else 0)
    && Covers(xs, st, i)
  }

  /** Admitting position `i` at the back of the window adds its value to the
      sum and to the non-finite count. */
  function Admit(xs: seq<Num>, st: Running, i: nat): (next: Running)
    requires i < |xs| && Covers(xs, st, i)
    ensures next.lo == st.lo && Covers(xs, next, i + 1)
  {
    var before, full := xs[st.lo..i], xs[st.lo..i + 1];
    assert full == before + [xs[i]];
    AppendStep(before, xs[i]);
    Running(st.lo, st.sum + ValueOrZero(xs[i]), st.bad + (if xs[i].Finite? then 0 else 1))
  }

  /** Dropping the oldest position from a non-empty window takes its value
      out of the sum and out of the non-finite count. */
  function Evict(xs: seq<Num>, st: Running, hi: nat): (next: Running)
    requires st.lo < hi && Covers(xs, st, hi)
    ensures next.lo == st.lo + 1 && Covers(xs, next, hi)
  {
    var full, after := xs[st.lo..hi], xs[st.lo + 1..hi];
    assert full == [xs[st.lo]] + after;
    ConsStep(xs[st.lo], after);
    Running(st.lo + 1, st.sum - ValueOrZero(xs[st.lo]), st.bad - (if xs[st.lo].Finite? then 0 else 1))
  }

  /** Admit position `i` into the window and, once it is over-full, drop
      the oldest position. */
  function Slide(xs: seq<Num>, w: nat, i: nat, st: Running): (next: Running)
    requires w >= 1 && i < |xs| && Tracks(xs, w, i, st)
    ensures Tracks(xs, w, i + 1, next)
  {
    var full := Admit(xs, st, i);
    if i + 1 > w then Evict(xs, full, i + 1) else full
  }

  /** The average the running state reports for the window ending at `i`. */
  function Report(xs: seq<Num>, w: nat, i: nat, st: Running): (m: real)
    requires w >= 1 && i < |xs| && Tracks(xs, w, i + 1, st)
    ensures m == MovingAverageAt(xs, w, i)
  {
    WindowAverage(xs, w, i, st.lo, st.sum, st.bad);
    if i + 1 < w || st.bad > 0 then 0.0 else st.sum / (w as real)
  }

  /** The averages of the first positions, followed by the next one. */
  lemma AveragesExtend(xs: seq<Num>, w: nat, ma: seq<real>, m: real)
    requires w >= 1 && |ma| < |xs|
    requires forall k :: 0 <= k < |ma| ==> ma[k] == MovingAverageAt(xs, w, k)
    requires m == MovingAverageAt(xs, w, |ma|)
    ensures forall k :: 0 <= k < |ma| + 1 ==> (ma + [m])[k] == MovingAverageAt(xs, w, k)
  {
  }

  /** The moving average in one pass: a running sum and a running count of
      non-finite values over the current window. */
  method RollingMean(xs: seq<Num>, w: nat) returns (ma: seq<real>)
    requires w >= 1
    ensures ma == MovingAverage(xs, w)
  {
    ma := [];
    var st := Running(0, 0.0, 0);
    var i := 0;
    while i < |xs|
      invariant i <= |xs|
      invariant Tracks(xs, w, i, st)
      invariant |ma| == i
      invariant forall k :: 0 <= k < i ==> ma[k] == MovingAverageAt(xs, w, k)
    {
      st := Slide(xs, w, i, st);
      var m := Report(xs, w, i, st);
      AveragesExtend(xs, w, ma, m);
      ma := ma + [m];
      i := i + 1;
    }
    AveragesComplete(xs, w, ma);
  }

  lemma AveragesComplete(xs: seq<Num>, w: nat, ma: seq<real>)
    requires w >= 1 && |ma| == |xs|
    requires forall k :: 0 <= k < |ma| ==> ma[k] == MovingAverageAt(xs, w, k)
    ensures ma == MovingAverage(xs, w)
  {
  }

  /** A window of equal closes averages to that close. */
  lemma MovingAverageOfConstant(xs: seq<Num>, w: nat, i: nat, c: real)
    requires w >= 1 && w - 1 <= i < |xs|
    requires forall k :: 0 <= k < |xs| ==> xs[k] == Finite(c)
    ensures MovingAverage(xs, w)[i] == c
  {
    var ws := Window(xs, w, i);
    assert forall k :: 0 <= k < |ws| ==> ws[k] == xs[i + 1 - w + k];
    MeanConstant(Values(ws), c);
  }

  /** The moving average's values lie between the window's extremes. */
  lemma MovingAverageBounds(xs: seq<Num>, w: nat, i: nat, lo: real, hi: real)
    requires w >= 1 && w - 1 <= i < |xs| && lo <= 0.0 <= hi
    requires forall k :: 0 <= k < |xs| ==> xs[k].Finite? ==> lo <= xs[k].v <= hi
    ensures lo <= MovingAverage(xs, w)[i] <= hi
  {
    var ws := Window(xs, w, i);
    assert forall k :: 0 <= k < |ws| ==> ws[k] == xs[i + 1 - w + k];
    if AllFinite(ws) {
      MeanBounds(Values(ws), lo, hi);
    }
  }

  // ---------------------------------------------------------------------
  // `safe_float_list` and the candle values

  /** `safe_float_list`: NaN and infinities become None, finite values stay. */
  function SafeFloatList(xs: seq<Num>): (r: seq<Option<real>>)
    ensures |r| == |xs|
    ensures forall i :: 0 <= i < |xs| ==> (r[i].Some? <==> xs[i].Finite?)
    ensures forall i :: 0 <= i < |xs| ==> r[i].Some? ==> r[i].value == xs[i].v
  {
    seq(|xs|, i requires 0 <= i < |xs| => if xs[i].Finite? then Some(xs[i].v) else None)
  }

  function AsNums(xs: seq<real>): (r: seq<Num>)
    ensures |r| == |xs| && AllFinite(r)
    ensures forall i :: 0 <= i < |xs| ==> r[i] == Finite(xs[i])
  {
    seq(|xs|, i requires 0 <= i < |xs| => Finite(xs[i]))
  }

  /** Sanitising a finite column keeps every value. */
  lemma SafeFloatListOfFinite(xs: seq<real>)
    ensures forall i :: 0 <= i < |xs| ==> SafeFloatList(AsNums(xs))[i] == Some(xs[i])
  {
  }

  /** A sanitised list read back as floats, None as NaN. */
  function Reread(r: seq<Option<real>>): (xs: seq<Num>)
    ensures |xs| == |r|
    ensures forall i :: 0 <= i < |r| ==> xs[i] == if r[i].Some? then Finite(r[i].value) else NaN
  {
    seq(|r|, i requires 0 <= i < |r| => if r[i].Some? then Finite(r[i].value) else NaN)
  }

  /** Sanitising what was already sanitised changes nothing. */
  lemma SafeFloatListIdempotent(xs: seq<Num>)
    ensures SafeFloatList(Reread(SafeFloatList(xs))) == SafeFloatList(xs)
  {
  }

  /** A candle component: `float(x)` unless NaN, which becomes None
      (infinities are passed through). */
  function CandleValue(x: Num): (r: Option<Num>)
    ensures r.None? <==> x.NaN?
    ensures r.Some? ==> r.value == x
  {
    if x.NaN? then None else Some(x)
  }

  // ---------------------------------------------------------------------
  // The chart

  /** One daily row as read: the numeric columns after `to_numeric(errors='coerce')`. */
  datatype KRow = KRow(date: int, open: Num, close: Num, high: Num, low: Num, vol: Num)

  datatype Chart =
    | Full(categories: seq<int>, values: seq<seq<Option<Num>>>, ma5: seq<Option<real>>, ma10: seq<Option<real>>,
           ma30: seq<Option<real>>, volumes: seq<Option<real>>)
    | CloseOnly(categories: seq<int>, close: seq<Num>)

  const EmptyChart := Full([], [], [], [], [], [])

  function Column(rows: seq<KRow>, f: KRow -> Num): (xs: seq<Num>)
    ensures |xs| == |rows| && forall i :: 0 <= i < |rows| ==> xs[i] == f(rows[i])
  {
    seq(|rows|, i requires 0 <= i < |rows| => f(rows[i]))
  }

  function RowDates(rows: seq<KRow>): (ds: seq<int>)
    ensures |ds| == |rows| && forall i :: 0 <= i < |rows| ==> ds[i] == rows[i].date
  {
    seq(|rows|, i requires 0 <= i < |rows| => rows[i].date)
  }

  /** The chart drawn from the fetched rows: the empty chart without rows,
      the closes alone for the "close" data type, otherwise candles
      `[open, close, low, high]`, the 5/10/30-day moving averages and the
      volumes, sanitised. */
  function ChartOf(rows: seq<KRow>, dataType: string): (c: Chart)
    ensures |rows| == 0 <==> c == EmptyChart
    ensures c != EmptyChart ==> c.categories == RowDates(rows)
    ensures c.Full? && c != EmptyChart ==>
      && |c.values| == |c.ma5| == |c.ma10| == |c.ma30| == |c.volumes| == |c.categories|
      && (forall i :: 0 <= i < |c.ma5| ==> c.ma5[i].Some? && c.ma10[i].Some? && c.ma30[i].Some?)
      && (forall i :: 0 <= i < |c.values| ==> |c.values[i]| == 4)
  {
    if |rows| == 0 then EmptyChart
    else if dataType == "close" then CloseOnly(RowDates(rows), Column(rows, (r: KRow) => r.close))
    else
      var closes := Column(rows, (r: KRow) => r.close);
      var values := seq(|rows|, i requires 0 <= i < |rows| =>
        [CandleValue(rows[i].open), CandleValue(rows[i].close), CandleValue(rows[i].low), CandleValue(rows[i].high)]);
      Full(RowDates(rows), values,
           SafeFloatList(AsNums(MovingAverage(closes, 5))),
           SafeFloatList(AsNums(MovingAverage(closes, 10))),
           SafeFloatList(AsNums(MovingAverage(closes, 30))),
           SafeFloatList(Column(rows, (r: KRow) => r.vol)))
  }

  /** `get_kline_data`: the empty chart for an invalid code or a missing
      latest date, otherwise the chart of the rows between the look-back
      start and the latest date. `maxDate` and `fetch` stand for the two
      queries (rows between the two dates, oldest first). */
  function KLineData(code: string, range: string, dataType: string, maxDate: Option<int>,
                     fetch: (int, int) -> seq<KRow>): (c: Chart)
    ensures !IsValidCode(code) || maxDate.None? ==> c == EmptyChart
    ensures IsValidCode(code) && maxDate.Some? ==>
      var rows := fetch(maxDate.value - LookbackDays(range), maxDate.value);
      c == EmptyChart <==> |rows| == 0
    ensures c != EmptyChart ==>
      var rows := fetch(maxDate.value - LookbackDays(range), maxDate.value);
      |rows| > 0 && c.categories == RowDates(rows)
    ensures c.Full? && c != EmptyChart ==>
      && |c.values| == |c.ma5| == |c.ma10| == |c.ma30| == |c.volumes| == |c.categories|
      && (forall i :: 0 <= i < |c.ma5| ==> c.ma5[i].Some? && c.ma10[i].Some? && c.ma30[i].Some?)
      && (forall i :: 0 <= i < |c.values| ==> |c.values[i]| == 4)
  {
    if !IsValidCode(code) || maxDate.None? then EmptyChart
    else ChartOf(fetch(maxDate.value - LookbackDays(range), maxDate.value), dataType)
  }

  // ---------------------------------------------------------------------
  // The rows conversion as written

  /** `convert_result_to_dataframe`: an empty frame when the query returned
      no rows or no column named `timestamps`, otherwise the rows. */
  function ConvertResult<T>(rows: seq<T>, columns: seq<string>): (r: seq<T>)
    ensures r == [] <==> |rows| == 0 || "timestamps" !in columns
    ensures r != [] ==> r == rows
  {
    if |rows| == 0 || "timestamps" !in columns then [] else rows
  }

  /** The column names of the chart query, which selects `timestamps as date`. */
  const ChartColumns: seq<string> := ["code", "open", "close", "high", "low", "ycp", "vol", "date"]

  /** `get_kline_data` as written: the fetched rows pass through the
      conversion under the query's own column names, which carry the alias
      `date` in place of `timestamps`, so every chart comes out empty. */
  function KLineDataAsWritten(code: string, range: string, dataType: string, maxDate: Option<int>,
                              fetch: (int, int) -> seq<KRow>): (c: Chart)
    ensures c == EmptyChart
  {
    if !IsValidCode(code) || maxDate.None? then EmptyChart
    else
      assert "timestamps" !in ChartColumns;
      ChartOf(ConvertResult(fetch(maxDate.value - LookbackDays(range), maxDate.value), ChartColumns), dataType)
  }

  /** One row on a valid code: the chart as written is empty, the corrected
      chart is not. */
  lemma ChartEmptyAsWritten(row: KRow)
    ensures var fetch := (a: int, b: int) => [row];
      && KLineDataAsWritten("600000", "day", "kline", Some(0), fetch) == EmptyChart
      && KLineData("600000", "day", "kline", Some(0), fetch) != EmptyChart
  {
    assert forall i :: 0 <= i < 6 ==> CodeChar("600000"[i]);
  }

  /** What a chart with data reports for day `i`: the four candle prices
      (NaN shown as a gap), the 5-, 10- and 30-day averages of the closes,
      and the volume when it is finite. */
  lemma ChartContents(code: string, range: string, dataType: string, maxDate: Option<int>,
                      fetch: (int, int) -> seq<KRow>, i: nat)
    requires IsValidCode(code) && maxDate.Some? && dataType != "close"
    requires var rows := fetch(maxDate.value - LookbackDays(range), maxDate.value); i < |rows|
    ensures var rows := fetch(maxDate.value - LookbackDays(range), maxDate.value);
      var c, closes := KLineData(code, range, dataType, maxDate, fetch), Column(rows, (r: KRow) => r.close);
      && c.Full? && i < |c.values| && i < |c.volumes|
      && c.values[i] == [CandleValue(rows[i].open), CandleValue(rows[i].close), CandleValue(rows[i].low), CandleValue(rows[i].high)]
      && c.ma5[i] == Some(MovingAverageAt(closes, 5, i))
      && c.ma10[i] == Some(MovingAverageAt(closes, 10, i))
      && c.ma30[i] == Some(MovingAverageAt(closes, 30, i))
      && (c.volumes[i].Some? <==> rows[i].vol.Finite?)
      && (rows[i].vol.Finite? ==> c.volumes[i] == Some(rows[i].vol.v))
  {
  }

  /** The "close" data type charts the closes alone, day by day. */
  lemma ChartCloses(code: string, range: string, maxDate: Option<int>, fetch: (int, int) -> seq<KRow>)
    requires IsValidCode(code) && maxDate.Some?
    requires |fetch(maxDate.value - LookbackDays(range), maxDate.value)| > 0
    ensures var rows := fetch(maxDate.value - LookbackDays(range), maxDate.value);
      KLineData(code, range, "close", maxDate, fetch) == CloseOnly(RowDates(rows), Column(rows, (r: KRow) => r.close))
  {
  }

  // ---------------------------------------------------------------------
  // The listing: paging and the missing-code default

  /** `LIMIT size OFFSET (page - 1) * size` on the ordered listing. The
      page number is any integer the caller passes; a negative offset is
      rejected by the database and the listing re-raises (`None`). */
  function Page<T>(items: seq<T>, page: int, size: nat): (r: Option<seq<T>>)
    ensures r.None? <==> page < 1 && size > 0
    ensures r.Some? ==> |r.value| <= size
    ensures r.Some? ==> (page - 1) * size >= 0
    ensures r.Some? ==> forall i :: 0 <= i < |r.value| ==>
      (page - 1) * size + i < |items| && r.value[i] == items[(page - 1) * size + i]
  {
    var offset := (page - 1) * size;
    if offset < 0 then
      assert page < 1 && size > 0 by {
        if page >= 1 {
          NonNegativeProduct(page - 1, size);
        }
      }
      None
    else if offset >= |items| then Some([])
    else if offset + size >= |items| then Some(items[offset..])
    else Some(items[offset..offset + size])
  }

  lemma NonNegativeProduct(a: int, b: nat)
    requires a >= 0
    ensures a * b >= 0
  {
  }

  /** The first `n` pages, one after the other. */
  function Pages<T>(items: seq<T>, n: nat, size: nat): seq<T>
    decreases n
  {
    if n == 0 then [] else Pages(items, n - 1, size) + Page(items, n, size).value
  }

  /** Paging neither skips nor repeats: the first `n` pages are the first
      `n * size` items. */
  lemma {:induction false} PagesArePrefix<T>(items: seq<T>, n: nat, size: nat)
    ensures Pages(items, n, size) == items[..if n * size <= |items| then n * size else |items|]
    decreases n
  {
    if n > 0 {
      PagesArePrefix(items, n - 1, size);
      var a := (n - 1) * size;
      assert n * size == a + size;
      var lo := if a <= |items| then a else |items|;
      var hi := if a + size <= |items| then a + size else |items|;
      assert items[..hi] == items[..lo] + items[lo..hi];
    }
  }

  /** The listing's code field: the text of the code, or "111111" when it is missing. */
  function ListingCode(code: Option<string>): (c: string)
    ensures code.Some? ==> c == code.value
    ensures code.None? ==> c == "111111"
    ensures |c| > 0 || code == Some("")
  {
    if code.None? then "111111" else code.value
  }
}

=== FILE: max_common_subgraph.dfy ===
/** `_calculate_mcs_similarity` ("maxCommonSubgraph"): the product graph of
    two price graphs, its greedy clique, and the Tanimoto ratio of the
    clique size to the two graph sizes. Graphs over the node limit go to the
    sampled fallback. Nodes are identified by position, which is the date
    identity of networkx when each date occurs once. */
module MaxCommonSubgraph {
  import opened Common
  import opened NumericMethods
  import opened PriceGraph
  import opened Clique
  import opened Simplified

  const MaxNodes: nat := 100

  /** Product-graph edges need an edge similarity above this. */
  const MinEdgeSimilarity: real := 0.0001

  /** A product node: a node position of G1 paired with one of G2. */
  type Pair = (nat, nat)

  /** `_check_node_compatibility`: both nodes carry the named feature; a
      name that is not an indicator is never compatible. */
  function NodeCompatible(a: Features, b: Features, name: string): (ok: bool)
    ensures ok ==> ParseIndicator(name).Some?
  {
    match ParseIndicator(name)
    case None => false
    case Some(ind) => Feature(a, ind).Some? && Feature(b, ind).Some?
  }

  /** The pair is a node of the product graph: compatible for every name. */
  predicate Compatible(g1: Graph, g2: Graph, inds: seq<string>, p: Pair) {
    && p.0 < |g1.nodes| && p.1 < |g2.nodes|
    && forall k :: 0 <= k < |inds| ==> NodeCompatible(g1.nodes[p.0].f, g2.nodes[p.1].f, inds[k])
  }

  /** `(i, j)` for j in 0 .. n2-1, the inner loop for G1's node i. */
  function PairRow(i: nat, n2: nat): (row: seq<Pair>)
    ensures forall p :: p in row <==> p.0 == i && p.1 < n2
  {
    var row := seq(n2, j requires 0 <= j < n2 => (i, j));
    assert forall p: Pair :: p.0 == i && p.1 < n2 ==> row[p.1] == p;
    row
  }

  /** All pairs in the nested-loop order of the source. */
  function AllPairs(n1: nat, n2: nat): (ps: seq<Pair>)
    ensures forall p :: p in ps <==> p.0 < n1 && p.1 < n2
  {
    if n1 == 0 then [] else AllPairs(n1 - 1, n2) + PairRow(n1 - 1, n2)
  }

  function ProductNodes(g1: Graph, g2: Graph, inds: seq<string>): (ps: seq<Pair>)
    ensures forall p :: p in ps <==> Compatible(g1, g2, inds, p)
  {
    Ordering.Filter(AllPairs(|g1.nodes|, |g2.nodes|), p => Compatible(g1, g2, inds, p))
  }

  /** `G.has_edge` on a path graph: the two positions are consecutive. */
  predicate HasEdge(g: Graph, i: nat, k: nat) {
    i < |g.nodes| && k < |g.nodes| && (i + 1 == k || k + 1 == i)
  }

  function PathWeight(g: Graph, i: nat, k: nat): real
    requires IsPath(g) && HasEdge(g, i, k)
  {
    if i < k then g.weights[i] else g.weights[k]
  }

  /** `_calculate_edge_similarity`: 1 minus the weight difference. */
  function EdgeSimilarity(g1: Graph, g2: Graph, p: Pair, q: Pair): (r: real)
    requires IsPath(g1) && IsPath(g2) && HasEdge(g1, p.0, q.0) && HasEdge(g2, p.1, q.1)
    ensures r <= 1.0
    ensures r == 1.0 <==> PathWeight(g1, p.0, q.0) == PathWeight(g2, p.1, q.1)
  {
    1.0 - Abs(PathWeight(g1, p.0, q.0) - PathWeight(g2, p.1, q.1))
  }

  /** A product-graph edge: both graphs have the edge (`_check_edge_compatibility`)
      and the edge similarity exceeds the threshold. */
  predicate Adjacent(g1: Graph, g2: Graph, p: Pair, q: Pair) {
    && IsPath(g1) && IsPath(g2)
    && HasEdge(g1, p.0, q.0) && HasEdge(g2, p.1, q.1)
    && EdgeSimilarity(g1, g2, p, q) > MinEdgeSimilarity
  }

  /** The clique reported for the product graph. */
  function McsClique(g1: Graph, g2: Graph, inds: seq<string>): (c: seq<Pair>)
    ensures IsClique(c, (p, q) => Adjacent(g1, g2, p, q))
    ensures forall p :: p in c ==> Compatible(g1, g2, inds, p)
    ensures |ProductNodes(g1, g2, inds)| > 0 ==> |c| > 0
  {
    FindMaxClique(ProductNodes(g1, g2, inds), (p, q) => Adjacent(g1, g2, p, q))
  }

  /** No three product nodes are pairwise adjacent: consecutive positions
      in a path cannot form a triangle. So a clique has at most two members,
      and two only when both graphs have an edge. */
  lemma CliqueAtMostTwo(g1: Graph, g2: Graph, c: seq<Pair>)
    ensures IsClique(c, (p, q) => Adjacent(g1, g2, p, q)) ==> |c| <= 2
    ensures IsClique(c, (p, q) => Adjacent(g1, g2, p, q)) && |c| == 2 ==> |g1.nodes| >= 2 && |g2.nodes| >= 2
  {
    if |c| >= 3 && Adjacent(g1, g2, c[1], c[0]) && Adjacent(g1, g2, c[2], c[0]) {
      assert !Adjacent(g1, g2, c[2], c[1]);
    }
    if |c| == 2 && Adjacent(g1, g2, c[1], c[0]) {
      assert |g1.nodes| >= 2 && |g2.nodes| >= 2;
    }
  }

  /** Some two product nodes are adjacent. */
  ghost predicate HasProductEdge(g1: Graph, g2: Graph, inds: seq<string>) {
    exists p: Pair, q: Pair :: Compatible(g1, g2, inds, p) && Compatible(g1, g2, inds, q) && Adjacent(g1, g2, p, q)
  }

  lemma AdjacentIrreflexiveSymmetric(g1: Graph, g2: Graph)
    ensures forall v: Pair :: !Adjacent(g1, g2, v, v)
    ensures forall u: Pair, v: Pair :: Adjacent(g1, g2, u, v) ==> Adjacent(g1, g2, v, u)
  {
  }

  /** An edge of the product graph puts two nodes in the clique. */
  lemma ProductEdgeGivesPair(g1: Graph, g2: Graph, inds: seq<string>)
    requires HasProductEdge(g1, g2, inds)
    ensures |McsClique(g1, g2, inds)| >= 2
  {
    var ps := ProductNodes(g1, g2, inds);
    var adj := (p: Pair, q: Pair) => Adjacent(g1, g2, p, q);
    var p: Pair, q: Pair :| Compatible(g1, g2, inds, p) && Compatible(g1, g2, inds, q) && Adjacent(g1, g2, p, q);
    AdjacentIrreflexiveSymmetric(g1, g2);
    CliqueOfTwo(ps, adj, p, q);
  }

  /** Two clique members are an edge of the product graph. */
  lemma PairGivesProductEdge(g1: Graph, g2: Graph, inds: seq<string>)
    requires |McsClique(g1, g2, inds)| >= 2
    ensures HasProductEdge(g1, g2, inds)
  {
    var c := McsClique(g1, g2, inds);
    assert c[0] in c && c[1] in c;
    assert Adjacent(g1, g2, c[1], c[0]);
  }

  /** The clique size is determined by the product graph: 0 without nodes,
      1 without edges, and 2 otherwise. */
  lemma McsCliqueSize(g1: Graph, g2: Graph, inds: seq<string>)
    ensures |McsClique(g1, g2, inds)| ==
      if |ProductNodes(g1, g2, inds)| == 0 then 0
      else if !HasProductEdge(g1, g2, inds) then 1
      else 2
  {
    var c := McsClique(g1, g2, inds);
    CliqueAtMostTwo(g1, g2, c);
    if |c| > 0 {
      assert c[0] in c;
      assert c[0] in ProductNodes(g1, g2, inds);
    }
    if |c| >= 2 {
      PairGivesProductEdge(g1, g2, inds);
    }
    if HasProductEdge(g1, g2, inds) {
      ProductEdgeGivesPair(g1, g2, inds);
    }
  }

  /** `mcs / (n1 + n2 - mcs)` for a clique no larger than half the nodes. */
  function Tanimoto(size: nat, n1: nat, n2: nat): (r: real)
    requires 2 * size <= n1 + n2 && size < n1 + n2
    ensures 0.0 <= r <= 1.0
    ensures r == 0.0 <==> size == 0
    ensures r == 1.0 <==> 2 * size == n1 + n2
  {
    var a, b := size as real, (n1 + n2) as real - size as real;
    RatioFacts(a, b);
    a / b
  }

  /** `_calculate_mcs_similarity`: 0 when a graph is empty; the sampled
      fallback over the node limit; otherwise the Tanimoto coefficient
      |clique| / (|G1| + |G2| - |clique|). The sample positions are only
      read in the fallback. */
  function McsSimilarity(n: Numerics, g1: Graph, g2: Graph, inds: seq<string>, sample1: seq<nat>, sample2: seq<nat>): (r: real)
    requires ValidNumerics(n)
    ensures 0.0 <= r <= 1.0
    ensures |g1.nodes| == 0 || |g2.nodes| == 0 ==> r == 0.0
    ensures 0 < |g1.nodes| <= MaxNodes && 0 < |g2.nodes| <= MaxNodes && |ProductNodes(g1, g2, inds)| == 0 ==> r == 0.0
    ensures 0 < |g1.nodes| && 0 < |g2.nodes| && (|g1.nodes| > MaxNodes || |g2.nodes| > MaxNodes) ==>
      r == SimplifiedSimilarity(n, g1, g2, inds, sample1, sample2)
  {
    var n1, n2 := |g1.nodes|, |g2.nodes|;
    if n1 == 0 || n2 == 0 then 0.0
    else if n1 > MaxNodes || n2 > MaxNodes then SimplifiedSimilarity(n, g1, g2, inds, sample1, sample2)
    else
      var c := McsClique(g1, g2, inds);
      CliqueAtMostTwo(g1, g2, c);
      Tanimoto(|c|, n1, n2)
  }

  // ---------------------------------------------------------------------
  // Properties

  /** Within the node limit the score is fixed by the product graph alone:
      0 without product nodes, the Tanimoto ratio of a one-node clique
      without product edges, and of a two-node clique otherwise. */
  lemma McsScore(n: Numerics, g1: Graph, g2: Graph, inds: seq<string>, sample1: seq<nat>, sample2: seq<nat>)
    requires ValidNumerics(n)
    requires 0 < |g1.nodes| <= MaxNodes && 0 < |g2.nodes| <= MaxNodes
    ensures |ProductNodes(g1, g2, inds)| == 0 ==> McsSimilarity(n, g1, g2, inds, sample1, sample2) == 0.0
    ensures |ProductNodes(g1, g2, inds)| > 0 && !HasProductEdge(g1, g2, inds) ==>
      McsSimilarity(n, g1, g2, inds, sample1, sample2) == Tanimoto(1, |g1.nodes|, |g2.nodes|)
    ensures HasProductEdge(g1, g2, inds) ==>
      |g1.nodes| >= 2 && |g2.nodes| >= 2 &&
      McsSimilarity(n, g1, g2, inds, sample1, sample2) == Tanimoto(2, |g1.nodes|, |g2.nodes|)
  {
    var c := McsClique(g1, g2, inds);
    McsCliqueSize(g1, g2, inds);
    McsWithinLimit(n, g1, g2, inds, sample1, sample2);
    CliqueAtMostTwo(g1, g2, c);
  }

  lemma McsWithinLimit(n: Numerics, g1: Graph, g2: Graph, inds: seq<string>, sample1: seq<nat>, sample2: seq<nat>)
    requires ValidNumerics(n)
    requires 0 < |g1.nodes| <= MaxNodes && 0 < |g2.nodes| <= MaxNodes
    ensures 2 * |McsClique(g1, g2, inds)| <= |g1.nodes| + |g2.nodes|
    ensures McsSimilarity(n, g1, g2, inds, sample1, sample2) == Tanimoto(|McsClique(g1, g2, inds)|, |g1.nodes|, |g2.nodes|)
  {
    CliqueAtMostTwo(g1, g2, McsClique(g1, g2, inds));
  }

  lemma TanimotoSmall(size: nat, n1: nat, n2: nat)
    requires 2 * size <= n1 + n2 && size < n1 + n2
    ensures size == 0 ==> Tanimoto(size, n1, n2) == 0.0
    ensures size == 1 ==> Tanimoto(size, n1, n2) == 1.0 / ((n1 + n2) as real - 1.0)
    ensures size == 2 ==> Tanimoto(size, n1, n2) == 2.0 / ((n1 + n2) as real - 2.0)
  {
  }

  /** A requested name that is not an indicator leaves the product graph
      without nodes, so the score is 0 within the node limit. */
  lemma McsUnknownIndicator(n: Numerics, g1: Graph, g2: Graph, inds: seq<string>, sample1: seq<nat>, sample2: seq<nat>, k: nat)
    requires ValidNumerics(n)
    requires 0 < |g1.nodes| <= MaxNodes && 0 < |g2.nodes| <= MaxNodes
    requires k < |inds| && ParseIndicator(inds[k]).None?
    ensures McsSimilarity(n, g1, g2, inds, sample1, sample2) == 0.0
  {
    var ps := ProductNodes(g1, g2, inds);
    forall p: Pair
      ensures !Compatible(g1, g2, inds, p)
    {
      if p.0 < |g1.nodes| && p.1 < |g2.nodes| {
        assert !NodeCompatible(g1.nodes[p.0].f, g2.nodes[p.1].f, inds[k]);
      }
    }
    assert forall i :: 0 <= i < |ps| ==> ps[i] in ps;
  }

  function Swap(p: Pair): Pair { (p.1, p.0) }

  lemma CompatibleSwap(g1: Graph, g2: Graph, inds: seq<string>, p: Pair)
    ensures Compatible(g1, g2, inds, p) <==> Compatible(g2, g1, inds, Swap(p))
  {
    if p.0 < |g1.nodes| && p.1 < |g2.nodes| {
      forall k | 0 <= k < |inds|
        ensures NodeCompatible(g1.nodes[p.0].f, g2.nodes[p.1].f, inds[k])
            == NodeCompatible(g2.nodes[p.1].f, g1.nodes[p.0].f, inds[k])
      {
      }
    }
  }

  lemma AdjacentSwap(g1: Graph, g2: Graph, p: Pair, q: Pair)
    ensures Adjacent(g1, g2, p, q) <==> Adjacent(g2, g1, Swap(p), Swap(q))
  {
  }

  lemma ProductSwap(g1: Graph, g2: Graph, inds: seq<string>)
    ensures |ProductNodes(g1, g2, inds)| == 0 <==> |ProductNodes(g2, g1, inds)| == 0
    ensures HasProductEdge(g1, g2, inds) <==> HasProductEdge(g2, g1, inds)
  {
    var ps, qs := ProductNodes(g1, g2, inds), ProductNodes(g2, g1, inds);
    if |ps| > 0 {
      assert ps[0] in ps;
      CompatibleSwap(g1, g2, inds, ps[0]);
      assert Swap(ps[0]) in qs;
    }
    if |qs| > 0 {
      assert qs[0] in qs;
      CompatibleSwap(g2, g1, inds, qs[0]);
      assert Swap(qs[0]) in ps;
    }
    if HasProductEdge(g1, g2, inds) {
      var p: Pair, q: Pair :| Compatible(g1, g2, inds, p) && Compatible(g1, g2, inds, q) && Adjacent(g1, g2, p, q);
      CompatibleSwap(g1, g2, inds, p);
      CompatibleSwap(g1, g2, inds, q);
      AdjacentSwap(g1, g2, p, q);
      assert Compatible(g2, g1, inds, Swap(p)) && Compatible(g2, g1, inds, Swap(q)) && Adjacent(g2, g1, Swap(p), Swap(q));
    }
    if HasProductEdge(g2, g1, inds) {
      var p: Pair, q: Pair :| Compatible(g2, g1, inds, p) && Compatible(g2, g1, inds, q) && Adjacent(g2, g1, p, q);
      CompatibleSwap(g2, g1, inds, p);
      CompatibleSwap(g2, g1, inds, q);
      AdjacentSwap(g2, g1, p, q);
      assert Compatible(g1, g2, inds, Swap(p)) && Compatible(g1, g2, inds, Swap(q)) && Adjacent(g1, g2, Swap(p), Swap(q));
    }
  }

  /** Swapping the graphs, together with their samples, leaves the score
      unchanged, even though the product graph and its degree order change. */
  lemma McsSymmetric(n: Numerics, g1: Graph, g2: Graph, inds: seq<string>, sample1: seq<nat>, sample2: seq<nat>)
    requires ValidNumerics(n)
    ensures McsSimilarity(n, g1, g2, inds, sample1, sample2) == McsSimilarity(n, g2, g1, inds, sample2, sample1)
  {
    var n1, n2 := |g1.nodes|, |g2.nodes|;
    if n1 > 0 && n2 > 0 {
      if n1 > MaxNodes || n2 > MaxNodes {
        SimplifiedSymmetric(n, g1, g2, inds, sample1, sample2);
      } else {
        ProductSwap(g1, g2, inds);
        McsScore(n, g1, g2, inds, sample1, sample2);
        McsScore(n, g2, g1, inds, sample2, sample1);
      }
    }
  }

  lemma CarriedCompatible(f: Features, inds: seq<string>, name: string)
    requires Carries(f, inds) && name in inds && ParseIndicator(name).Some?
    ensures NodeCompatible(f, f, name)
  {
  }

  /** On a built graph with known indicators the first two days, paired
      with themselves, are adjacent product nodes. */
  lemma SelfProductEdge(s: Series.Rows, inds: seq<string>)
    requires 2 <= |s|
    requires forall k :: 0 <= k < |inds| ==> ParseIndicator(inds[k]).Some?
    ensures |ProductNodes(CreatePriceGraph(s, inds), CreatePriceGraph(s, inds), inds)| > 0
    ensures HasProductEdge(CreatePriceGraph(s, inds), CreatePriceGraph(s, inds), inds)
  {
    var g := CreatePriceGraph(s, inds);
    forall i: nat, k | i < |s| && 0 <= k < |inds|
      ensures NodeCompatible(g.nodes[i].f, g.nodes[i].f, inds[k])
    {
      CarriedCompatible(g.nodes[i].f, inds, inds[k]);
    }
    var p: Pair, q: Pair := (1, 1), (0, 0);
    assert Compatible(g, g, inds, p) && Compatible(g, g, inds, q);
    assert EdgeSimilarity(g, g, p, q) == 1.0;
    assert Adjacent(g, g, p, q);
    assert p in ProductNodes(g, g, inds);
  }

  /** A price graph of n days (2 <= n <= 100) built for known indicators
      scores against itself only the Tanimoto ratio of a two-node clique,
      1 / (n - 1) by `TanimotoOfPair`: a path product has no larger clique. */
  lemma McsSelfScore(n: Numerics, s: Series.Rows, inds: seq<string>, sample: seq<nat>)
    requires ValidNumerics(n)
    requires 2 <= |s| <= MaxNodes
    requires forall k :: 0 <= k < |inds| ==> ParseIndicator(inds[k]).Some?
    ensures McsSimilarity(n, CreatePriceGraph(s, inds), CreatePriceGraph(s, inds), inds, sample, sample)
         == Tanimoto(2, |s|, |s|)
  {
    var g := CreatePriceGraph(s, inds);
    SelfProductEdge(s, inds);
    McsScore(n, g, g, inds, sample, sample);
  }

  /** Two of 2k nodes in common: 2 / (2k - 2) = 1 / (k - 1). */
  lemma TanimotoOfPair(k: nat)
    requires k >= 2
    ensures Tanimoto(2, k, k) == 1.0 / ((k - 1) as real)
  {
    TanimotoSmall(2, k, k);
    PairOverDoubled(k);
  }

  lemma PairOverDoubled(k: nat)
    requires k >= 2
    ensures 2.0 / ((k + k) as real - 2.0) == 1.0 / ((k - 1) as real)
  {
    var m := (k - 1) as real;
    assert (k + k) as real - 2.0 == 2.0 * m;
  }
}

=== FILE: numeric_methods.dfy ===
/** The four distance/statistics strategies (dtw, euclidean, pearson,
    coIntegration) as wrappers around library numerics. fastdtw,
    np.corrcoef, statsmodels' coint and sqrt are not modelled: they are the
    fields of `Numerics`, and `ValidNumerics` states the ranges the wrappers
    rely on. */
module NumericMethods {
  import opened Common
  import opened Series

  /** The library routines the strategies call, as uninterpreted functions. */
  datatype Numerics = Numerics(
    dtw: (seq<real>, seq<real>) -> real,           // fastdtw distance
    corr: (seq<real>, seq<real>) -> Option<real>,  // np.corrcoef(a, b)[0, 1]; None is NaN
    coint: (seq<real>, seq<real>) -> real,         // p-value of statsmodels' coint
    sqrt: real -> real)

  /** The ranges assumed of the library routines. */
  ghost predicate ValidNumerics(n: Numerics) {
    && (forall a, b :: n.dtw(a, b) >= 0.0)
    && (forall a, b :: n.corr(a, b).Some? ==> -1.0 <= n.corr(a, b).value <= 1.0)
    && (forall a, b :: 0.0 <= n.coint(a, b) <= 1.0)
    && (forall x :: x >= 0.0 ==> n.sqrt(x) >= 0.0 && (n.sqrt(x) == 0.0 <==> x == 0.0))
  }

  /** DTW distance and correlation do not depend on argument order. */
  ghost predicate SymmetricNumerics(n: Numerics) {
    && (forall a, b :: n.dtw(a, b) == n.dtw(b, a))
    && (forall a, b :: n.corr(a, b) == n.corr(b, a))
  }

  /** The indicators a request may name. */
  datatype Indicator = CloseInd | HighInd | LowInd | TurnoverInd

  function ParseIndicator(name: string): Option<Indicator> {
    if name == "close" then Some(CloseInd)
    else if name == "high" then Some(HighInd)
    else if name == "low" then Some(LowInd)
    else if name == "turnover" then Some(TurnoverInd)
    else None
  }

  /** The indicators checked with `"x" in indicators`, in the fixed order
      close, high, low, turnover in which the strategies test them. */
  function Selected(inds: seq<string>): (sel: seq<Indicator>)
    ensures |sel| <= 4
    ensures CloseInd in sel <==> "close" in inds
    ensures HighInd in sel <==> "high" in inds
    ensures LowInd in sel <==> "low" in inds
    ensures TurnoverInd in sel <==> "turnover" in inds
    ensures |sel| == 0 <==> forall s :: s in inds ==> ParseIndicator(s).None?
  {
    (if "close" in inds then [CloseInd] else [])
    + (if "high" in inds then [HighInd] else [])
    + (if "low" in inds then [LowInd] else [])
    + (if "turnover" in inds then [TurnoverInd] else [])
  }

  /** The ratio series of an indicator is finite on a frame: non-zero
      previous closes for a price change, a non-zero maximum volume for the
      relative turnover. */
  predicate IndicatorDefined(a: Rows, ind: Indicator) {
    match ind
    case TurnoverInd => VolumeScaled(a)
    case _ => RefPriced(a)
  }

  /** Every indicator of `sel` is defined on both frames. */
  predicate Measurable(a1: Rows, a2: Rows, sel: seq<Indicator>) {
    forall k :: 0 <= k < |sel| ==> IndicatorDefined(a1, sel[k]) && IndicatorDefined(a2, sel[k])
  }

  /** The per-day ratio series of one indicator over an aligned frame. */
  function IndicatorValues(a: Rows, ind: Indicator): (xs: seq<real>)
    requires |a| > 0 && IndicatorDefined(a, ind)
    ensures |xs| == |a|
  {
    match ind
    case CloseInd => ChangeSeries(a, CloseField)
    case HighInd => ChangeSeries(a, HighField)
    case LowInd => ChangeSeries(a, LowField)
    case TurnoverInd => TurnoverSeries(a)
  }

  /** `1 / (1 + d)`: a non-negative distance becomes a score in (0, 1],
      1 exactly for distance 0, and larger distances score lower. */
  function DistanceToScore(d: real): (r: real)
    requires d >= 0.0
    ensures 0.0 < r <= 1.0
    ensures r == 1.0 <==> d == 0.0
    ensures d <= 1.0 ==> r >= 0.5
  {
    ReciprocalFacts(1.0 + d);
    1.0 / (1.0 + d)
  }

  /** The score inverts `1 + d`. */
  lemma DistanceToScoreInverse(d: real)
    requires d >= 0.0
    ensures DistanceToScore(d) * (1.0 + d) == 1.0
  {
    ReciprocalFacts(1.0 + d);
  }

  /** The score of a list of non-negative distances (DTW distances or
      p-values): 0 for an empty list, otherwise `1 / (1 + mean)`. */
  function MeanScore(ds: seq<real>): (r: real)
    requires forall k :: 0 <= k < |ds| ==> ds[k] >= 0.0
    ensures r == 0.0 <==> |ds| == 0
    ensures |ds| > 0 ==> 0.0 < r <= 1.0
  {
    if |ds| == 0 then 0.0
    else
      MeanNonNegative(ds);
      DistanceToScore(Mean(ds))
  }

  /** A non-empty list's score inverts `1 + mean`, and is 1 exactly when
      every distance is 0. */
  lemma MeanScoreInverse(ds: seq<real>)
    requires |ds| > 0 && forall k :: 0 <= k < |ds| ==> ds[k] >= 0.0
    ensures MeanScore(ds) * (1.0 + Mean(ds)) == 1.0
    ensures MeanScore(ds) == 1.0 <==> AllIn(ds, 0.0, 0.0)
  {
    MeanNonNegative(ds);
    MeanZeroIffAllZero(ds);
    DistanceToScoreInverse(Mean(ds));
  }

  // ---------------------------------------------------------------------
  // dtw

  function DtwDistances(n: Numerics, a1: Rows, a2: Rows, sel: seq<Indicator>): (ds: seq<real>)
    requires |a1| > 0 && |a2| > 0 && Measurable(a1, a2, sel)
    ensures |ds| == |sel|
    ensures ValidNumerics(n) ==> forall k :: 0 <= k < |ds| ==> ds[k] >= 0.0
  {
    var ds := seq(|sel|, k requires 0 <= k < |sel| => n.dtw(IndicatorValues(a1, sel[k]), IndicatorValues(a2, sel[k])));
    assert forall k :: 0 <= k < |sel| ==> ds[k] == n.dtw(IndicatorValues(a1, sel[k]), IndicatorValues(a2, sel[k]));
    ds
  }

  /** `_calculate_dtw_similarity`: 0 when no known indicator is selected,
      otherwise a score in (0, 1]. */
  function DtwSimilarity(n: Numerics, a1: Rows, a2: Rows, inds: seq<string>): (r: real)
    requires |a1| > 0 && |a2| > 0 && Measurable(a1, a2, Selected(inds))
    requires ValidNumerics(n)
    ensures r == 0.0 <==> |Selected(inds)| == 0
    ensures |Selected(inds)| > 0 ==> 0.0 < r <= 1.0
  {
    MeanScore(DtwDistances(n, a1, a2, Selected(inds)))
  }

  /** The DTW score is 1 exactly when every indicator's series match with
      distance 0. */
  lemma DtwPerfectIffAllZero(n: Numerics, a1: Rows, a2: Rows, inds: seq<string>)
    requires |a1| > 0 && |a2| > 0 && Measurable(a1, a2, Selected(inds))
    requires ValidNumerics(n) && |Selected(inds)| > 0
    ensures DtwSimilarity(n, a1, a2, inds) == 1.0 <==> AllIn(DtwDistances(n, a1, a2, Selected(inds)), 0.0, 0.0)
  {
    MeanScoreInverse(DtwDistances(n, a1, a2, Selected(inds)));
  }

  /** With a symmetric DTW the score does not depend on argument order. */
  lemma DtwSymmetric(n: Numerics, a1: Rows, a2: Rows, inds: seq<string>)
    requires |a1| > 0 && |a2| > 0 && Measurable(a1, a2, Selected(inds))
    requires ValidNumerics(n) && SymmetricNumerics(n)
    ensures DtwSimilarity(n, a1, a2, inds) == DtwSimilarity(n, a2, a1, inds)
  {
    var sel := Selected(inds);
    var d12, d21 := DtwDistances(n, a1, a2, sel), DtwDistances(n, a2, a1, sel);
    forall k | 0 <= k < |sel|
      ensures d12[k] == d21[k]
    {
      var x, y := IndicatorValues(a1, sel[k]), IndicatorValues(a2, sel[k]);
      assert n.dtw(x, y) == n.dtw(y, x);
    }
    assert d12 == d21;
  }

  // ---------------------------------------------------------------------
  // euclidean

  function SquaredGaps(xs: seq<real>, ys: seq<real>): (sq: seq<real>)
    requires |xs| == |ys|
    ensures |sq| == |xs|
    ensures forall i :: 0 <= i < |sq| ==> sq[i] >= 0.0
  {
    seq(|xs|, i requires 0 <= i < |xs| => (xs[i] - ys[i]) * (xs[i] - ys[i]))
  }

  /** `_calculate_euclidean_similarity`: only the close indicator is ever
      measured; without it the score is 0. */
  function EuclideanSimilarity(n: Numerics, a1: Rows, a2: Rows, inds: seq<string>): (r: real)
    requires |a1| == |a2| > 0 && ("close" in inds ==> RefPriced(a1) && RefPriced(a2))
    requires ValidNumerics(n)
    ensures r == 0.0 <==> "close" !in inds
    ensures "close" in inds ==> 0.0 < r <= 1.0
  {
    if "close" in inds then
      var sq := SquaredGaps(ChangeSeries(a1, CloseField), ChangeSeries(a2, CloseField));
      SumNonNegative(sq);
      var dist := n.sqrt(Sum(sq));
      var ds := [dist];
      assert Sum(ds) == dist by { assert ds[..0] == []; }
      DistanceToScore(Mean(ds))
    else 0.0
  }

  /** Identical close-change series are at distance 0 and score exactly 1. */
  lemma EuclideanIdentical(n: Numerics, a1: Rows, a2: Rows, inds: seq<string>)
    requires |a1| == |a2| > 0 && RefPriced(a1) && RefPriced(a2)
    requires ValidNumerics(n)
    requires "close" in inds
    requires ChangeSeries(a1, CloseField) == ChangeSeries(a2, CloseField)
    ensures EuclideanSimilarity(n, a1, a2, inds) == 1.0
  {
    var c := ChangeSeries(a1, CloseField);
    var sq := SquaredGaps(c, c);
    SumConstant(sq, 0.0, |sq| as real);
    assert n.sqrt(Sum(sq)) == 0.0;
    assert Sum([0.0]) == 0.0 by { assert [0.0][..0] == []; }
  }

  /** Swapping the two frames leaves the Euclidean score unchanged. */
  lemma EuclideanSymmetric(n: Numerics, a1: Rows, a2: Rows, inds: seq<string>)
    requires |a1| == |a2| > 0 && ("close" in inds ==> RefPriced(a1) && RefPriced(a2))
    requires ValidNumerics(n)
    ensures EuclideanSimilarity(n, a1, a2, inds) == EuclideanSimilarity(n, a2, a1, inds)
  {
    if "close" in inds {
      var c1, c2 := ChangeSeries(a1, CloseField), ChangeSeries(a2, CloseField);
      assert SquaredGaps(c1, c2) == SquaredGaps(c2, c1);
    }
  }

  // ---------------------------------------------------------------------
  // pearson

  /** `np.corrcoef(x1, x2)[0, 1]` for one indicator. All four ratio series
      are computed up front with no guard, so on a frame where an
      indicator's series is not finite (a zero previous close, a zero
      maximum volume) it holds NaN or an infinity, and its correlation is
      NaN: `None`. */
  function Correlation(n: Numerics, a1: Rows, a2: Rows, ind: Indicator): (c: Option<real>)
    requires |a1| > 0 && |a2| > 0
    ensures ValidNumerics(n) && c.Some? ==> -1.0 <= c.value <= 1.0
    ensures !IndicatorDefined(a1, ind) || !IndicatorDefined(a2, ind) ==> c.None?
  {
    if IndicatorDefined(a1, ind) && IndicatorDefined(a2, ind) then
      n.corr(IndicatorValues(a1, ind), IndicatorValues(a2, ind))
    else None
  }

  /** The loop of `_calculate_pearson_similarity` over the indicator list.
      `last` is the Python variable `corr`: None before it is first bound,
      and an unknown indicator name leaves it as it was. An unknown name
      before any known one raises NameError, which the method's `except`
      turns into a 0 score; that is the `None` result here. */
  function PearsonScan(n: Numerics, a1: Rows, a2: Rows, inds: seq<string>, last: Option<Option<real>>, acc: seq<real>)
    : (r: Option<seq<real>>)
    requires |a1| > 0 && |a2| > 0
    requires ValidNumerics(n)
    requires last.Some? && last.value.Some? ==> -1.0 <= last.value.value <= 1.0
    requires AllIn(acc, -1.0, 1.0)
    ensures r.Some? ==> AllIn(r.value, -1.0, 1.0) && |r.value| <= |acc| + |inds|
    decreases |inds|
  {
    if |inds| == 0 then Some(acc)
    else
      var corr :=
        match ParseIndicator(inds[0])
        case Some(ind) => Some(Correlation(n, a1, a2, ind))
        case None => last;
      match corr
      case None => None
      case Some(c) =>
        var acc' := if c.Some? then acc + [c.value] else acc;
        PearsonScan(n, a1, a2, inds[1..], corr, acc')
  }

  /** `_calculate_pearson_similarity`: 0 for 25 rows or fewer; NaN
      correlations are dropped; the mean is clipped below at 0. */
  function PearsonSimilarity(n: Numerics, a1: Rows, a2: Rows, inds: seq<string>): (r: real)
    requires |a1| > 0 && |a2| > 0
    requires ValidNumerics(n)
    ensures 0.0 <= r <= 1.0
    ensures |a1| <= 25 || |a2| <= 25 ==> r == 0.0
  {
    if |a1| <= 25 || |a2| <= 25 then 0.0
    else
      match PearsonScan(n, a1, a2, inds, None, [])
      case None => 0.0
      case Some(vs) =>
        if |vs| == 0 then 0.0
        else
          MeanBounds(vs, -1.0, 1.0);
          var avg := Mean(vs);
          if avg > 0.0 then Max(0.0, avg) else 0.0
  }

  /** An unknown first indicator name raises before any correlation is taken,
      so the score is 0 whatever follows. */
  lemma PearsonUnknownFirstIndicator(n: Numerics, a1: Rows, a2: Rows, inds: seq<string>)
    requires |a1| > 0 && |a2| > 0
    requires ValidNumerics(n)
    requires |inds| > 0 && ParseIndicator(inds[0]).None?
    ensures PearsonSimilarity(n, a1, a2, inds) == 0.0
  {
  }

  /** The correlations kept for a list of known indicator names: one per
      name, in list order, NaN ones dropped. */
  function KnownCorrelations(n: Numerics, a1: Rows, a2: Rows, inds: seq<string>): seq<real>
    requires |a1| > 0 && |a2| > 0
    requires forall k :: 0 <= k < |inds| ==> ParseIndicator(inds[k]).Some?
  {
    if |inds| == 0 then []
    else
      var c := Correlation(n, a1, a2, ParseIndicator(inds[0]).value);
      (if c.Some? then [c.value] else []) + KnownCorrelations(n, a1, a2, inds[1..])
  }

  /** When every name is known, the scan keeps exactly the non-NaN
      correlations of the listed indicators, repeats included. */
  lemma {:induction false} PearsonScanKnown(n: Numerics, a1: Rows, a2: Rows, inds: seq<string>, last: Option<Option<real>>, acc: seq<real>)
    requires |a1| > 0 && |a2| > 0
    requires ValidNumerics(n)
    requires last.Some? && last.value.Some? ==> -1.0 <= last.value.value <= 1.0
    requires AllIn(acc, -1.0, 1.0)
    requires forall k :: 0 <= k < |inds| ==> ParseIndicator(inds[k]).Some?
    ensures PearsonScan(n, a1, a2, inds, last, acc) == Some(acc + KnownCorrelations(n, a1, a2, inds))
    decreases |inds|
  {
    if |inds| == 0 {
      assert acc + [] == acc;
    } else {
      var ind := ParseIndicator(inds[0]).value;
      var c := Correlation(n, a1, a2, ind);
      var acc' := if c.Some? then acc + [c.value] else acc;
      PearsonScanKnown(n, a1, a2, inds[1..], Some(c), acc');
      assert acc' + KnownCorrelations(n, a1, a2, inds[1..])
          == acc + ((if c.Some? then [c.value] else []) + KnownCorrelations(n, a1, a2, inds[1..]));
    }
  }

  /** With only known names and more than 25 rows on each side, the Pearson
      score is the mean of the non-NaN correlations when that mean is
      positive, and 0 otherwise (also when every correlation was NaN). */
  lemma PearsonValue(n: Numerics, a1: Rows, a2: Rows, inds: seq<string>)
    requires |a1| > 25 && |a2| > 25
    requires ValidNumerics(n)
    requires forall k :: 0 <= k < |inds| ==> ParseIndicator(inds[k]).Some?
    ensures var cs := KnownCorrelations(n, a1, a2, inds);
      PearsonSimilarity(n, a1, a2, inds) == (if |cs| == 0 then 0.0 else Max(0.0, Mean(cs)))
    ensures var cs := KnownCorrelations(n, a1, a2, inds);
      PearsonSimilarity(n, a1, a2, inds) > 0.0 <==> |cs| > 0 && Mean(cs) > 0.0
  {
    var cs := KnownCorrelations(n, a1, a2, inds);
    PearsonScanKnown(n, a1, a2, inds, None, []);
    assert [] + cs == cs;
  }

  /** With a symmetric correlation the Pearson score does not depend on
      argument order. */
  lemma {:induction false} PearsonScanSymmetric(n: Numerics, a1: Rows, a2: Rows, inds: seq<string>, last: Option<Option<real>>, acc: seq<real>)
    requires |a1| > 0 && |a2| > 0
    requires ValidNumerics(n) && SymmetricNumerics(n)
    requires last.Some? && last.value.Some? ==> -1.0 <= last.value.value <= 1.0
    requires AllIn(acc, -1.0, 1.0)
    ensures PearsonScan(n, a1, a2, inds, last, acc) == PearsonScan(n, a2, a1, inds, last, acc)
    decreases |inds|
  {
    if |inds| > 0 {
      var corr :=
        match ParseIndicator(inds[0])
        case Some(ind) => Some(Correlation(n, a1, a2, ind))
        case None => last;
      if corr.Some? {
        var c := corr.value;
        var acc' := if c.Some? then acc + [c.value] else acc;
        PearsonScanSymmetric(n, a1, a2, inds[1..], corr, acc');
      }
    }
  }

  lemma PearsonSymmetric(n: Numerics, a1: Rows, a2: Rows, inds: seq<string>)
    requires |a1| > 0 && |a2| > 0
    requires ValidNumerics(n) && SymmetricNumerics(n)
    ensures PearsonSimilarity(n, a1, a2, inds) == PearsonSimilarity(n, a2, a1, inds)
  {
    PearsonScanSymmetric(n, a1, a2, inds, None, []);
  }

  // ---------------------------------------------------------------------
  // coIntegration

  function PValues(n: Numerics, a1: Rows, a2: Rows, sel: seq<Indicator>): (ps: seq<real>)
    requires |a1| > 0 && |a2| > 0 && Measurable(a1, a2, sel)
    requires ValidNumerics(n)
    ensures |ps| == |sel|
    ensures AllIn(ps, 0.0, 1.0)
  {
    var ps := seq(|sel|, k requires 0 <= k < |sel| => n.coint(IndicatorValues(a1, sel[k]), IndicatorValues(a2, sel[k])));
    assert forall k :: 0 <= k < |sel| ==> ps[k] == n.coint(IndicatorValues(a1, sel[k]), IndicatorValues(a2, sel[k]));
    ps
  }

  /** `_calculate_cointegration_similarity`: 0 for 25 rows or fewer or no
      known indicator; otherwise `1 / (1 + mean p)`, which lies in [1/2, 1]
      and is 1 exactly when every test rejects with p = 0. */
  function CointegrationSimilarity(n: Numerics, a1: Rows, a2: Rows, inds: seq<string>): (r: real)
    requires |a1| > 0 && |a2| > 0 && (|a1| > 25 && |a2| > 25 ==> Measurable(a1, a2, Selected(inds)))
    requires ValidNumerics(n)
    ensures |a1| <= 25 || |a2| <= 25 || |Selected(inds)| == 0 ==> r == 0.0
    ensures |a1| > 25 && |a2| > 25 && |Selected(inds)| > 0 ==> 0.5 <= r <= 1.0
  {
    if |a1| <= 25 || |a2| <= 25 then 0.0
    else
      var ps := PValues(n, a1, a2, Selected(inds));
      if |ps| == 0 then 0.0
      else
        MeanBounds(ps, 0.0, 1.0);
        MeanScore(ps)
  }

  /** The cointegration score is 1 exactly when every test gives p = 0. */
  lemma CointegrationPerfectIffAllZero(n: Numerics, a1: Rows, a2: Rows, inds: seq<string>)
    requires |a1| > 25 && |a2| > 25 && Measurable(a1, a2, Selected(inds))
    requires ValidNumerics(n) && |Selected(inds)| > 0
    ensures CointegrationSimilarity(n, a1, a2, inds) == 1.0 <==> AllIn(PValues(n, a1, a2, Selected(inds)), 0.0, 0.0)
  {
    MeanScoreInverse(PValues(n, a1, a2, Selected(inds)));
  }

  /** A larger distance never scores higher, and a strictly larger one
      scores strictly lower. */
  lemma DistanceToScoreAntitone(d1: real, d2: real)
    requires 0.0 <= d1 <= d2
    ensures DistanceToScore(d1) >= DistanceToScore(d2)
    ensures d1 < d2 ==> DistanceToScore(d1) > DistanceToScore(d2)
  {
    var r1, r2 := DistanceToScore(d1), DistanceToScore(d2);
    DistanceToScoreInverse(d1);
    DistanceToScoreInverse(d2);
    ProductOrder(r1, r2, 1.0 + d1, 1.0 + d2);
  }

  /** r1 * x1 == r2 * x2 with positive factors and x1 <= x2 forces r1 >= r2. */
  lemma ProductOrder(r1: real, r2: real, x1: real, x2: real)
    requires r1 > 0.0 && r2 > 0.0 && 0.0 < x1 <= x2 && r1 * x1 == r2 * x2
    ensures r1 >= r2
    ensures x1 < x2 ==> r1 > r2
  {
    assert r2 * x1 <= r2 * x2;
    assert x1 < x2 ==> r2 * x1 < r2 * x2;
    MulCancel(r2, r1, x1);
  }

  lemma MulCancel(a: real, b: real, c: real)
    requires c > 0.0
    ensures a * c <= b * c ==> a <= b
    ensures a * c < b * c ==> a < b
  {
  }

  /** Of two pairs of frames, the one whose tests give the smaller mean
      p-value scores at least as high: weaker evidence of cointegration
      never raises the score. */
  lemma CointegrationFallsWithP(n: Numerics, a1: Rows, a2: Rows, b1: Rows, b2: Rows, inds: seq<string>)
    requires |a1| > 25 && |a2| > 25 && Measurable(a1, a2, Selected(inds))
    requires |b1| > 25 && |b2| > 25 && Measurable(b1, b2, Selected(inds))
    requires ValidNumerics(n) && |Selected(inds)| > 0
    requires Mean(PValues(n, a1, a2, Selected(inds))) <= Mean(PValues(n, b1, b2, Selected(inds)))
    ensures CointegrationSimilarity(n, a1, a2, inds) >= CointegrationSimilarity(n, b1, b2, inds)
    ensures Mean(PValues(n, a1, a2, Selected(inds))) < Mean(PValues(n, b1, b2, Selected(inds))) ==>
      CointegrationSimilarity(n, a1, a2, inds) > CointegrationSimilarity(n, b1, b2, inds)
  {
    var pa, pb := PValues(n, a1, a2, Selected(inds)), PValues(n, b1, b2, Selected(inds));
    MeanBounds(pa, 0.0, 1.0);
    MeanBounds(pb, 0.0, 1.0);
    DistanceToScoreAntitone(Mean(pa), Mean(pb));
  }
}

=== FILE: ordering.dfy ===
/** Orderings used across the model: strictly sorted sequences, the fact that
    a strictly sorted sequence is determined by its elements, and Python's
    stable `sort(key=..., reverse=True)` expressed as a sort of indices. */
module Ordering {

  /** Every earlier element is strictly below every later one under `lt`. */
  ghost predicate SortedBy<T>(xs: seq<T>, lt: (T, T) -> bool) {
    forall i, j :: 0 <= i < j < |xs| ==> lt(xs[i], xs[j])
  }

  /** `lt` is irreflexive and asymmetric. */
  ghost predicate StrictOrder<T(!new)>(lt: (T, T) -> bool) {
    && (forall a :: !lt(a, a))
    && (forall a, b :: lt(a, b) ==> !lt(b, a))
  }

  /** Two sequences that are strictly sorted under the same strict order and
      hold the same elements are equal. */
  lemma {:induction false} SortedUnique<T(!new)>(xs: seq<T>, ys: seq<T>, lt: (T, T) -> bool)
    requires StrictOrder(lt)
    requires SortedBy(xs, lt) && SortedBy(ys, lt)
    requires forall x :: x in xs <==> x in ys
    ensures xs == ys
    decreases |xs|
  {
    if |xs| > 0 {
      assert xs[0] in ys;
      assert ys[0] in xs;
      assert xs[0] == ys[0];
      var xt, yt := xs[1..], ys[1..];
      forall x
        ensures x in xt <==> x in yt
      {
        if x in xt {
          var k :| 0 <= k < |xt| && xt[k] == x;
          assert lt(xs[0], xs[k + 1]);
          assert x != xs[0];
          assert x in ys;
        }
        if x in yt {
          var k :| 0 <= k < |yt| && yt[k] == x;
          assert lt(ys[0], ys[k + 1]);
          assert x != ys[0];
          assert x in xs;
        }
      }
      SortedUnique(xt, yt, lt);
      assert xs == [xs[0]] + xt;
      assert ys == [ys[0]] + yt;
    }
  }

  /** The elements of `xs` that satisfy `keep`, in their original order
      (a Python list comprehension with an `if`). */
  function Filter<T(!new)>(xs: seq<T>, keep: T -> bool): (r: seq<T>)
    ensures |r| <= |xs|
    ensures forall x :: x in r <==> x in xs && keep(x)
    decreases |xs|
  {
    if |xs| == 0 then []
    else
      var init := xs[..|xs| - 1];
      var last := xs[|xs| - 1];
      assert forall x :: x in xs <==> x in init || x == last;
      Filter(init, keep) + (if keep(last) then [last] else [])
  }

  /** Filtering keeps a sorted sequence sorted. */
  lemma {:induction false} FilterSorted<T(!new)>(xs: seq<T>, keep: T -> bool, lt: (T, T) -> bool)
    requires SortedBy(xs, lt)
    ensures SortedBy(Filter(xs, keep), lt)
    decreases |xs|
  {
    if |xs| > 0 {
      var init := xs[..|xs| - 1];
      var last := xs[|xs| - 1];
      var rest := Filter(init, keep);
      FilterSorted(init, keep, lt);
      forall k | 0 <= k < |rest|
        ensures lt(rest[k], last)
      {
        assert rest[k] in rest;
        var m :| 0 <= m < |init| && init[m] == rest[k];
      }
    }
  }

  /** Keeping everything keeps the sequence. */
  lemma {:induction false} FilterAll<T(!new)>(xs: seq<T>, keep: T -> bool)
    requires forall x :: x in xs ==> keep(x)
    ensures Filter(xs, keep) == xs
    decreases |xs|
  {
    if |xs| > 0 {
      FilterAll(xs[..|xs| - 1], keep);
      assert xs == xs[..|xs| - 1] + [xs[|xs| - 1]];
    }
  }

  /** Filters that agree on the elements of `xs` select the same sequence. */
  lemma {:induction false} FilterCongruent<T(!new)>(xs: seq<T>, k1: T -> bool, k2: T -> bool)
    requires forall x :: x in xs ==> k1(x) == k2(x)
    ensures Filter(xs, k1) == Filter(xs, k2)
    decreases |xs|
  {
    if |xs| > 0 {
      FilterCongruent(xs[..|xs| - 1], k1, k2);
    }
  }

  /** `xs.index(x)`: the position of the first occurrence of `x`. */
  function IndexOf<T(==)>(xs: seq<T>, x: T): (i: nat)
    requires x in xs
    ensures i < |xs| && xs[i] == x
    ensures forall j :: 0 <= j < i ==> xs[j] != x
  {
    if xs[0] == x then 0 else 1 + IndexOf(xs[1..], x)
  }

  /** Index `a` comes before index `b` in a stable descending sort by `keys`:
      a strictly larger key first, and on equal keys the earlier index first. */
  predicate Precedes(keys: seq<real>, a: nat, b: nat)
    requires a < |keys| && b < |keys|
  {
    keys[a] > keys[b] || (keys[a] == keys[b] && a < b)
  }

  ghost predicate IndicesSorted(keys: seq<real>, s: seq<nat>)
    requires forall i :: 0 <= i < |s| ==> s[i] < |keys|
  {
    forall i, j :: 0 <= i < j < |s| ==> Precedes(keys, s[i], s[j])
  }

  /** Inserts index x into an index list already in stable descending order. */
  function Insert(keys: seq<real>, x: nat, s: seq<nat>): (r: seq<nat>)
    requires x < |keys|
    requires forall i :: 0 <= i < |s| ==> s[i] < |keys|
    requires IndicesSorted(keys, s)
    requires x !in s
    ensures |r| == |s| + 1
    ensures forall i :: 0 <= i < |r| ==> r[i] < |keys|
    ensures forall y :: y in r <==> y == x || y in s
    ensures IndicesSorted(keys, r)
    decreases |s|
  {
    if |s| == 0 then [x]
    else if Precedes(keys, x, s[0]) then
      assert forall j :: 0 < j < |s| ==> Precedes(keys, s[0], s[j]);
      [x] + s
    else
      var rest := Insert(keys, x, s[1..]);
      assert forall y :: y in s <==> y == s[0] || y in s[1..];
      assert forall k :: 0 <= k < |rest| ==> Precedes(keys, s[0], rest[k]) by {
        forall k | 0 <= k < |rest|
          ensures Precedes(keys, s[0], rest[k])
        {
          assert rest[k] in rest;
          if rest[k] != x {
            var m :| 0 <= m < |s[1..]| && s[1..][m] == rest[k];
            assert s[m + 1] == rest[k];
          }
        }
      }
      [s[0]] + rest
  }

  /** The indices 0 .. n-1 in the order a stable descending sort by `keys`
      puts them (Python `sorted(..., key=k, reverse=True)`). */
  function SortIndices(keys: seq<real>, n: nat): (r: seq<nat>)
    requires n <= |keys|
    ensures |r| == n
    ensures forall i :: 0 <= i < |r| ==> r[i] < n
    ensures forall k :: 0 <= k < n ==> k in r
    ensures IndicesSorted(keys, r)
    decreases n
  {
    if n == 0 then []
    else
      var s := SortIndices(keys, n - 1);
      var r := Insert(keys, n - 1, s);
      assert forall i :: 0 <= i < |r| ==> r[i] in r;
      r
  }

  /** Strict sortedness under `Precedes` makes the index list duplicate-free. */
  lemma SortedIndicesDistinct(keys: seq<real>, s: seq<nat>)
    requires forall i :: 0 <= i < |s| ==> s[i] < |keys|
    requires IndicesSorted(keys, s)
    ensures forall i, j :: 0 <= i < j < |s| ==> s[i] != s[j]
  {
  }

  /** The stable sort is unique: any duplicate-free listing of 0 .. n-1 in
      `Precedes` order is exactly `SortIndices(keys, n)`. */
  lemma {:induction false} SortIndicesUnique(keys: seq<real>, n: nat, s: seq<nat>)
    requires n <= |keys|
    requires forall i :: 0 <= i < |s| ==> s[i] < n
    requires forall k :: 0 <= k < n ==> k in s
    requires IndicesSorted(keys, s)
    ensures s == SortIndices(keys, n)
  {
    var r := SortIndices(keys, n);
    var lt := (a: nat, b: nat) => a < |keys| && b < |keys| && Precedes(keys, a, b);
    assert SortedBy(s, lt);
    assert SortedBy(r, lt);
    forall x: nat
      ensures x in s <==> x in r
    {
    }
    SortedUnique(s, r, lt);
  }
}

=== FILE: performance.dfy ===
/** `_get_performance_comparison`: cumulative percentage returns of the base
    security and of each ranked security over the base security's trading
    days, with gaps filled forward and leading gaps filled with zero. */
module Performance {
  import opened Common
  import opened Series

  /** `(price / base - 1) * 100` in floating point: a zero base gives an
      infinity of the price's sign, or NaN for a zero price. */
  function CumulativeReturn(price: real, base: real): (r: Num)
    ensures base != 0.0 ==> r == Finite((price / base - 1.0) * 100.0)
    ensures base == 0.0 ==> !r.Finite?
    ensures r.NaN? <==> base == 0.0 && price == 0.0
  {
    if base != 0.0 then Finite((price / base - 1.0) * 100.0)
    else if price > 0.0 then PosInf
    else if price < 0.0 then NegInf
    else NaN
  }

  /** The returns of a series relative to its first close. */
  function Returns(s: Rows): (xs: seq<Num>)
    requires |s| > 0
    ensures |xs| == |s|
    ensures forall i :: 0 <= i < |s| ==> xs[i] == CumulativeReturn(s[i].close, s[0].close)
  {
    seq(|s|, i requires 0 <= i < |s| => CumulativeReturn(s[i].close, s[0].close))
  }

  lemma ReturnsStartAtZero(s: Rows)
    requires |s| > 0 && s[0].close != 0.0
    ensures Returns(s)[0] == Finite(0.0)
  {
    assert s[0].close / s[0].close == 1.0;
  }

  // ---------------------------------------------------------------------
  // Gap filling: `fillna(method='ffill').fillna(0)`

  /** The value a forward fill followed by a zero fill gives position `i`:
      the entry itself if it is not NaN, else the filled value before it,
      else zero. */
  function LastKnown(xs: seq<Num>, i: nat): (r: Num)
    requires i < |xs|
    ensures !r.NaN?
    ensures !xs[i].NaN? ==> r == xs[i]
    decreases i
  {
    if !xs[i].NaN? then xs[i]
    else if i == 0 then Finite(0.0)
    else LastKnown(xs, i - 1)
  }

  /** The filled series. */
  function Filled(xs: seq<Num>): (ys: seq<Num>)
    ensures |ys| == |xs|
    ensures forall i :: 0 <= i < |xs| ==> ys[i] == LastKnown(xs, i)
  {
    seq(|xs|, i requires 0 <= i < |xs| => LastKnown(xs, i))
  }

  /** The fill, declaratively: a filled NaN holds the latest non-NaN entry
      before it, or zero when there is none. */
  lemma {:induction false} LastKnownIsLatest(xs: seq<Num>, i: nat, j: nat)
    requires j <= i < |xs|
    requires forall k :: j < k <= i ==> xs[k].NaN?
    ensures !xs[j].NaN? ==> LastKnown(xs, i) == xs[j]
    ensures j == 0 && xs[0].NaN? ==> LastKnown(xs, i) == Finite(0.0)
    decreases i
  {
    if i > j {
      LastKnownIsLatest(xs, i - 1, j);
    }
  }

  /** Filling twice changes nothing. */
  lemma FilledIdempotent(xs: seq<Num>)
    ensures Filled(Filled(xs)) == Filled(xs)
  {
    var ys := Filled(xs);
    forall i | 0 <= i < |xs|
      ensures LastKnown(ys, i) == ys[i]
    {
    }
  }

  /** The fill as a single left-to-right pass carrying the last value. */
  method FillForward(xs: seq<Num>) returns (ys: seq<Num>)
    ensures ys == Filled(xs)
  {
    ys := [];
    var carry := Finite(0.0);
    var i := 0;
    while i < |xs|
      invariant 0 <= i <= |xs|
      invariant |ys| == i
      invariant forall k :: 0 <= k < i ==> ys[k] == LastKnown(xs, k)
      invariant i > 0 ==> carry == LastKnown(xs, i - 1)
      invariant i == 0 ==> carry == Finite(0.0)
    {
      if !xs[i].NaN? {
        carry := xs[i];
      }
      ys := ys + [carry];
      i := i + 1;
    }
  }

  // ---------------------------------------------------------------------
  // The comparison

  datatype StockPerformance = StockPerformance(code: string, name: string, data: seq<Num>)

  datatype PerformanceData = PerformanceData(dates: seq<int>, stocks: seq<StockPerformance>)

  /** The candidate's returns, relative to its first close on a common day,
      placed on the base calendar; NaN on the base days it did not trade. */
  function Placed(base: Rows, other: Rows): (xs: seq<Num>)
    requires |CommonDates(base, other)| > 0
    ensures |xs| == |base|
  {
    var cd := CommonDates(base, other);
    var first := RowAt(other, cd[0]).close;
    seq(|base|, i requires 0 <= i < |base| =>
      if base[i].date in cd then CumulativeReturn(RowAt(other, base[i].date).close, first) else NaN)
  }

  /** One ranked security's entry, if it shares a day with the base security
      and its name is known (a missing name raises inside the per-security
      `try` and the security is skipped). */
  function CandidateEntry(base: Rows, code: string, other: Rows, name: Option<string>): (e: Option<StockPerformance>)
    ensures e.Some? <==> |CommonDates(base, other)| > 0 && name.Some?
    ensures e.Some? ==> e.value.code == code && |e.value.data| == |base|
    ensures e.Some? ==> forall i :: 0 <= i < |base| ==> !e.value.data[i].NaN?
  {
    if |CommonDates(base, other)| == 0 || name.None? then None
    else Some(StockPerformance(code, name.value, Filled(Placed(base, other))))
  }

  /** The entries of the ranked securities, in ranking order. */
  function CandidateEntries(base: Rows, codes: seq<string>, fetch: string -> Rows,
                            names: string -> Option<string>): (es: seq<StockPerformance>)
    ensures |es| <= |codes|
    ensures forall k :: 0 <= k < |es| ==> |es[k].data| == |base| && es[k].code in codes
    ensures forall k :: 0 <= k < |es| ==> forall i :: 0 <= i < |base| ==> !es[k].data[i].NaN?
    ensures forall c :: c in codes && |CommonDates(base, fetch(c))| > 0 && names(c).Some? ==>
      exists k :: 0 <= k < |es| && es[k].code == c
    decreases |codes|
  {
    if |codes| == 0 then []
    else
      var rest := CandidateEntries(base, codes[1..], fetch, names);
      match CandidateEntry(base, codes[0], fetch(codes[0]), names(codes[0]))
      case None => rest
      case Some(e) =>
        var es := [e] + rest;
        assert forall k :: 1 <= k < |es| ==> es[k] == rest[k - 1];
        ConsCovers(e, rest, codes, c => |CommonDates(base, fetch(c))| > 0 && names(c).Some?);
        es
  }

  /** An entry for the first code in front of entries covering the other
      codes covers them all. */
  lemma ConsCovers(e: StockPerformance, rest: seq<StockPerformance>, codes: seq<string>, want: string -> bool)
    requires |codes| > 0 && e.code == codes[0]
    requires forall c :: c in codes[1..] && want(c) ==> exists k :: 0 <= k < |rest| && rest[k].code == c
    ensures forall c :: c in codes && want(c) ==> exists k :: 0 <= k < |[e] + rest| && ([e] + rest)[k].code == c
  {
    var es := [e] + rest;
    forall c | c in codes && want(c)
      ensures exists k :: 0 <= k < |es| && es[k].code == c
    {
      if c == codes[0] {
        assert es[0].code == c;
      } else {
        assert c in codes[1..];
        var k :| 0 <= k < |rest| && rest[k].code == c;
        assert es[k + 1].code == c;
      }
    }
  }

  /** The comparison; `None` when the base series is empty or unnamed, where
      the source raises. `fetch` and `names` stand for the database reads. */
  function PerformanceComparison(base: Rows, baseCode: string, codes: seq<string>, fetch: string -> Rows,
                                 names: string -> Option<string>): (r: Option<PerformanceData>)
    ensures r.Some? <==> |base| > 0 && names(baseCode).Some?
    ensures r.Some? ==> r.value.dates == Dates(base)
    ensures r.Some? ==> |r.value.stocks| >= 1 && r.value.stocks[0].code == baseCode
    ensures r.Some? ==> r.value.stocks[0].data == Returns(base)
    ensures r.Some? ==> forall k :: 0 <= k < |r.value.stocks| ==> |r.value.stocks[k].data| == |base|
    ensures r.Some? ==> r.value.stocks[1..] == CandidateEntries(base, codes, fetch, names)
  {
    if |base| == 0 || names(baseCode).None? then None
    else
      var head := StockPerformance(baseCode, names(baseCode).value, Returns(base));
      var rest := CandidateEntries(base, codes, fetch, names);
      var stocks := [head] + rest;
      assert stocks[0] == head && stocks[1..] == rest;
      assert forall k :: 0 <= k < |stocks| ==> |stocks[k].data| == |base| by {
        forall k | 0 <= k < |stocks|
          ensures |stocks[k].data| == |base|
        {
          if k > 0 {
            assert stocks[k] == rest[k - 1];
          }
        }
      }
      Some(PerformanceData(Dates(base), stocks))
  }

  /** On a base day the candidate traded, its entry is its cumulative return
      since the first common day, unless that return is itself NaN. */
  lemma CandidateOnCommonDay(base: Rows, code: string, other: Rows, name: string, i: nat)
    requires |CommonDates(base, other)| > 0 && i < |base|
    requires base[i].date in CommonDates(base, other)
    ensures !Placed(base, other)[i].NaN? ==>
      CandidateEntry(base, code, other, Some(name)).value.data[i] ==
      CumulativeReturn(RowAt(other, base[i].date).close, RowAt(other, CommonDates(base, other)[0]).close)
  {
  }

  /** Base days before the candidate's first trading day read zero. */
  lemma CandidateBeforeFirstTrade(base: Rows, code: string, other: Rows, name: string, i: nat)
    requires |CommonDates(base, other)| > 0 && i < |base|
    requires forall k :: 0 <= k <= i ==> base[k].date !in CommonDates(base, other)
    ensures CandidateEntry(base, code, other, Some(name)).value.data[i] == Finite(0.0)
  {
    var xs := Placed(base, other);
    assert forall k :: 0 <= k <= i ==> xs[k].NaN?;
    LastKnownIsLatest(xs, i, 0);
  }
}

=== FILE: price_graph.dfy ===
/** `_create_price_graph`: one node per trading day carrying the requested
    indicator features, and a path of edges between consecutive days whose
    weight is the mean absolute change of the shared features. */
module PriceGraph {
  import opened Common
  import opened Series
  import opened NumericMethods

  /** The node attributes; a feature is present exactly when its indicator
      was requested. */
  datatype Features = Features(close: Option<real>, high: Option<real>, low: Option<real>, turnover: Option<real>)

  datatype Node = Node(date: int, f: Features)

  /** Nodes in row order; `weights[k]` is the weight of the edge between
      `nodes[k]` and `nodes[k + 1]`. */
  datatype Graph = Graph(nodes: seq<Node>, weights: seq<real>)

  /** The path shape every built graph has. */
  predicate IsPath(g: Graph) {
    |g.weights| == if |g.nodes| == 0 then 0 else |g.nodes| - 1
  }

  function Feature(f: Features, ind: Indicator): Option<real> {
    match ind
    case CloseInd => f.close
    case HighInd => f.high
    case LowInd => f.low
    case TurnoverInd => f.turnover
  }

  /** A price change relative to the previous close, 0 when that close is 0. */
  function Change(price: real, ycp: real): real {
    if ycp != 0.0 then (price - ycp) / ycp else 0.0
  }

  /** `relative_turnover`: volume over the series' maximum volume, or 0 for
      every day when that maximum is 0. */
  function RelativeTurnover(vol: real, maxVol: real): real {
    if maxVol != 0.0 then vol / maxVol else 0.0
  }

  /** The features present are exactly those of the requested indicators. */
  predicate Carries(f: Features, inds: seq<string>) {
    && (f.close.Some? <==> "close" in inds)
    && (f.high.Some? <==> "high" in inds)
    && (f.low.Some? <==> "low" in inds)
    && (f.turnover.Some? <==> "turnover" in inds)
  }

  function RowFeatures(r: Row, inds: seq<string>, maxVol: real): (f: Features)
    ensures Carries(f, inds)
  {
    Features(
      if "close" in inds then Some(Change(r.close, r.ycp)) else None,
      if "high" in inds then Some(Change(r.high, r.ycp)) else None,
      if "low" in inds then Some(Change(r.low, r.ycp)) else None,
      if "turnover" in inds then Some(RelativeTurnover(r.vol, maxVol)) else None)
  }

  /** The absolute change of one feature, when both days carry it. */
  function Gap(x: Option<real>, y: Option<real>): (g: seq<real>)
    ensures |g| <= 1
    ensures forall k :: 0 <= k < |g| ==> g[k] >= 0.0
  {
    if x.Some? && y.Some? then [Abs(y.value - x.value)] else []
  }

  /** One feature's gap is 0 exactly when the days agree on it or one of
      them lacks it. */
  lemma GapZeroIff(x: Option<real>, y: Option<real>)
    ensures AllIn(Gap(x, y), 0.0, 0.0) <==> (x.Some? && y.Some? ==> x == y)
  {
    if x.Some? && y.Some? {
      assert Gap(x, y)[0] == Abs(y.value - x.value);
    }
  }

  /** The absolute changes of the features present on both days, in the
      order close, high, low, turnover. */
  function FeatureGaps(a: Features, b: Features): (gaps: seq<real>)
    ensures |gaps| <= 4
    ensures forall k :: 0 <= k < |gaps| ==> gaps[k] >= 0.0
  {
    var c, h, l, t := Gap(a.close, b.close), Gap(a.high, b.high), Gap(a.low, b.low), Gap(a.turnover, b.turnover);
    var ch := c + h;
    var chl := ch + l;
    chl + t
  }

  /** The edge weight: mean of the shared feature gaps, 0 with none shared. */
  function EdgeWeight(a: Features, b: Features): (w: real)
    ensures w >= 0.0
  {
    var gaps := FeatureGaps(a, b);
    if |gaps| == 0 then 0.0
    else
      MeanNonNegative(gaps);
      Mean(gaps)
  }

  /** Two days whose shared features agree: the sum of gaps is 0. */
  ghost predicate SameShared(a: Features, b: Features) {
    forall ind: Indicator :: Feature(a, ind).Some? && Feature(b, ind).Some? ==> Feature(a, ind) == Feature(b, ind)
  }

  /** Agreement on shared features, feature by feature. */
  lemma SameSharedIff(a: Features, b: Features)
    ensures SameShared(a, b) <==>
      && (a.close.Some? && b.close.Some? ==> a.close == b.close)
      && (a.high.Some? && b.high.Some? ==> a.high == b.high)
      && (a.low.Some? && b.low.Some? ==> a.low == b.low)
      && (a.turnover.Some? && b.turnover.Some? ==> a.turnover == b.turnover)
  {
    if SameShared(a, b) {
      assert Feature(a, CloseInd).Some? && Feature(b, CloseInd).Some? ==> Feature(a, CloseInd) == Feature(b, CloseInd);
      assert Feature(a, HighInd).Some? && Feature(b, HighInd).Some? ==> Feature(a, HighInd) == Feature(b, HighInd);
      assert Feature(a, LowInd).Some? && Feature(b, LowInd).Some? ==> Feature(a, LowInd) == Feature(b, LowInd);
      assert Feature(a, TurnoverInd).Some? && Feature(b, TurnoverInd).Some? ==> Feature(a, TurnoverInd) == Feature(b, TurnoverInd);
    }
  }

  /** The gaps are all 0 exactly when the days agree on what they share. */
  lemma GapsZeroIff(a: Features, b: Features)
    ensures AllIn(FeatureGaps(a, b), 0.0, 0.0) <==> SameShared(a, b)
  {
    var c, h, l, t := Gap(a.close, b.close), Gap(a.high, b.high), Gap(a.low, b.low), Gap(a.turnover, b.turnover);
    AllInSplit(c, h, 0.0, 0.0);
    AllInSplit(c + h, l, 0.0, 0.0);
    AllInSplit(c + h + l, t, 0.0, 0.0);
    GapZeroIff(a.close, b.close);
    GapZeroIff(a.high, b.high);
    GapZeroIff(a.low, b.low);
    GapZeroIff(a.turnover, b.turnover);
    SameSharedIff(a, b);
  }

  /** An edge weighs 0 exactly when the two days agree on every feature they
      share. */
  lemma EdgeWeightZeroIff(a: Features, b: Features)
    ensures EdgeWeight(a, b) == 0.0 <==> SameShared(a, b)
  {
    var gaps := FeatureGaps(a, b);
    GapsZeroIff(a, b);
    if |gaps| > 0 {
      MeanZeroIffAllZero(gaps);
    }
  }

  /** Swapping the two days does not change the edge weight. */
  lemma EdgeWeightSymmetric(a: Features, b: Features)
    ensures EdgeWeight(a, b) == EdgeWeight(b, a)
  {
    assert FeatureGaps(a, b) == FeatureGaps(b, a);
  }

  /** One node per row, in row order. */
  function Nodes(s: Rows, inds: seq<string>, maxVol: real): (nodes: seq<Node>)
    ensures |nodes| == |s|
    ensures forall i :: 0 <= i < |s| ==> nodes[i] == Node(s[i].date, RowFeatures(s[i], inds, maxVol))
  {
    seq(|s|, i requires 0 <= i < |s| => Node(s[i].date, RowFeatures(s[i], inds, maxVol)))
  }

  /** One edge weight per pair of consecutive nodes. */
  function PathWeights(nodes: seq<Node>): (ws: seq<real>)
    ensures |ws| == if |nodes| == 0 then 0 else |nodes| - 1
    ensures forall k :: 0 <= k < |ws| ==> ws[k] == EdgeWeight(nodes[k].f, nodes[k + 1].f)
  {
    Pairwise(nodes, (a: Node, b: Node) => EdgeWeight(a.f, b.f))
  }

  /** `f` applied to each pair of consecutive elements. */
  function Pairwise<T>(xs: seq<T>, f: (T, T) -> real): (ws: seq<real>)
    ensures |ws| == if |xs| == 0 then 0 else |xs| - 1
    ensures forall k :: 0 <= k < |ws| ==> ws[k] == f(xs[k], xs[k + 1])
  {
    var m := if |xs| == 0 then 0 else |xs| - 1;
    seq(m, k requires 0 <= k < m => f(xs[k], xs[k + 1]))
  }

  /** The graph of a series for the requested indicators. */
  function CreatePriceGraph(s: Rows, inds: seq<string>): (g: Graph)
    ensures IsPath(g)
    ensures |g.nodes| == |s|
    ensures forall i :: 0 <= i < |s| ==> g.nodes[i].date == s[i].date
    ensures forall i :: 0 <= i < |s| ==> Carries(g.nodes[i].f, inds)
    ensures forall k :: 0 <= k < |g.weights| ==> g.weights[k] == EdgeWeight(g.nodes[k].f, g.nodes[k + 1].f)
    ensures forall k :: 0 <= k < |g.weights| ==> g.weights[k] >= 0.0
  {
    var maxVol := if |s| == 0 then 0.0 else MaxVol(s);
    var nodes := Nodes(s, inds, maxVol);
    Graph(nodes, PathWeights(nodes))
  }

  /** `relative_turnover` of a non-negative volume lies in [0, 1]. */
  lemma RelativeTurnoverInUnitRange(vol: real, maxVol: real)
    requires 0.0 <= vol <= maxVol
    ensures 0.0 <= RelativeTurnover(vol, maxVol) <= 1.0
  {
    if vol > 0.0 {
      RatioInUnitRange(vol, maxVol);
    }
  }

  /** The graph's features are the row ratios: a change over the previous
      close (0 when that close is 0) and a turnover in [0, 1] for
      non-negative volumes. */
  lemma GraphFeatures(s: Rows, inds: seq<string>, i: nat)
    requires i < |s|
    requires forall k :: 0 <= k < |s| ==> s[k].vol >= 0.0
    ensures "close" in inds ==> CreatePriceGraph(s, inds).nodes[i].f.close == Some(Change(s[i].close, s[i].ycp))
    ensures "high" in inds ==> CreatePriceGraph(s, inds).nodes[i].f.high == Some(Change(s[i].high, s[i].ycp))
    ensures "low" in inds ==> CreatePriceGraph(s, inds).nodes[i].f.low == Some(Change(s[i].low, s[i].ycp))
    ensures "turnover" in inds ==> 0.0 <= CreatePriceGraph(s, inds).nodes[i].f.turnover.value <= 1.0
  {
    var m := MaxVol(s);
    var f := RowFeatures(s[i], inds, m);
    assert CreatePriceGraph(s, inds).nodes[i].f == f by {
      assert CreatePriceGraph(s, inds).nodes == Nodes(s, inds, m);
    }
    if "turnover" in inds {
      RelativeTurnoverInUnitRange(s[i].vol, m);
    }
  }
}

=== FILE: ranking.dfy ===
/** Python's `xs.sort(key=k, reverse=True)` followed by the slice `xs[:count]`:
    the ranking step shared by the similarity service and the screener. */
module Ranking {
  import opened Ordering

  /** The sort keys of `xs`, position by position. */
  function Keys<T>(xs: seq<T>, key: T -> real): (ks: seq<real>)
    ensures |ks| == |xs|
    ensures forall i :: 0 <= i < |xs| ==> ks[i] == key(xs[i])
  {
    seq(|xs|, i requires 0 <= i < |xs| => key(xs[i]))
  }

  /** The elements of `xs` at the listed positions. */
  function Gather<T>(xs: seq<T>, s: seq<nat>): (r: seq<T>)
    requires forall i :: 0 <= i < |s| ==> s[i] < |xs|
    ensures |r| == |s|
    ensures forall i :: 0 <= i < |s| ==> r[i] == xs[s[i]]
  {
    seq(|s|, i requires 0 <= i < |s| => xs[s[i]])
  }

  /** Stable descending sort by `key`. */
  function SortDesc<T>(xs: seq<T>, key: T -> real): (r: seq<T>)
    ensures |r| == |xs|
    ensures forall i, j :: 0 <= i < j < |r| ==> key(r[i]) >= key(r[j])
    ensures multiset(r) == multiset(xs)
  {
    var ks := Keys(xs, key);
    var s := SortIndices(ks, |xs|);
    SortIndicesPermutes(xs, ks, |xs|);
    assert xs[..|xs|] == xs;
    Gather(xs, s)
  }

  /** `n` rounded into the range a Python slice end can take on a sequence of
      length `len`: a negative end counts from the back. */
  function SliceEnd(n: int, len: nat): (e: nat)
    ensures e <= len
    ensures n >= 0 ==> e == if n <= len then n else len
    ensures n < 0 ==> e == if len + n >= 0 then len + n else 0
  {
    if n >= 0 then (if n <= len then n else len)
    else if len + n >= 0 then len + n else 0
  }

  /** `xs[:n]` */
  function Take<T>(xs: seq<T>, n: int): (r: seq<T>)
    ensures |r| == SliceEnd(n, |xs|)
    ensures forall i :: 0 <= i < |r| ==> r[i] == xs[i]
  {
    xs[..SliceEnd(n, |xs|)]
  }

  /** The ranking: sort by `key`, highest first, then keep the first `n`. */
  function TopK<T>(xs: seq<T>, key: T -> real, n: int): (r: seq<T>)
    ensures |r| == SliceEnd(n, |xs|)
    ensures forall i, j :: 0 <= i < j < |r| ==> key(r[i]) >= key(r[j])
    ensures multiset(r) <= multiset(xs)
  {
    var sorted := SortDesc(xs, key);
    var r := Take(sorted, n);
    assert sorted == r + sorted[|r|..];
    r
  }

  // ---------------------------------------------------------------------
  // The sort is a permutation

  /** `Insert` places its new index at one position and leaves the others in order. */
  lemma {:induction false} InsertSplit(keys: seq<real>, x: nat, s: seq<nat>) returns (p: nat)
    requires x < |keys|
    requires forall i :: 0 <= i < |s| ==> s[i] < |keys|
    requires IndicesSorted(keys, s)
    requires x !in s
    ensures p <= |s|
    ensures Insert(keys, x, s) == s[..p] + [x] + s[p..]
    decreases |s|
  {
    if |s| == 0 || Precedes(keys, x, s[0]) {
      p := 0;
    } else {
      var t := s[1..];
      SortedTail(keys, s);
      var q := InsertSplit(keys, x, t);
      assert Insert(keys, x, s) == [s[0]] + Insert(keys, x, t);
      ConsSplit(s[0], t, q, x);
      assert s == [s[0]] + t;
      p := q + 1;
    }
  }

  /** The tail of a sorted index list is sorted and misses what the list misses. */
  lemma SortedTail(keys: seq<real>, s: seq<nat>)
    requires |s| > 0
    requires forall i :: 0 <= i < |s| ==> s[i] < |keys|
    requires IndicesSorted(keys, s)
    ensures forall i :: 0 <= i < |s[1..]| ==> s[1..][i] < |keys|
    ensures IndicesSorted(keys, s[1..])
    ensures forall y :: y in s[1..] ==> y in s
  {
    var t := s[1..];
    assert forall i :: 0 <= i < |t| ==> t[i] == s[i + 1];
  }

  /** Splitting a tail and putting the head back splits one place later. */
  lemma ConsSplit<T>(h: T, t: seq<T>, q: nat, x: T)
    requires q <= |t|
    ensures [h] + (t[..q] + [x] + t[q..]) == ([h] + t)[..q + 1] + [x] + ([h] + t)[q + 1..]
  {
    var s := [h] + t;
    assert s[..q + 1] == [h] + t[..q];
    assert s[q + 1..] == t[q..];
  }

  /** Gathering with one extra position adds exactly that element. */
  lemma GatherInsert<T>(xs: seq<T>, a: seq<nat>, x: nat, b: seq<nat>)
    requires x < |xs|
    requires forall i :: 0 <= i < |a| ==> a[i] < |xs|
    requires forall i :: 0 <= i < |b| ==> b[i] < |xs|
    ensures multiset(Gather(xs, a + [x] + b)) == multiset(Gather(xs, a + b)) + multiset{xs[x]}
  {
    assert Gather(xs, a + [x] + b) == Gather(xs, a) + [xs[x]] + Gather(xs, b);
    assert Gather(xs, a + b) == Gather(xs, a) + Gather(xs, b);
  }

  /** Inserting position `n - 1` into a listing of the first `n - 1`
      positions lists the first `n`. */
  lemma GatherStep<T>(xs: seq<T>, a: seq<nat>, b: seq<nat>, n: nat)
    requires 0 < n <= |xs|
    requires forall i :: 0 <= i < |a| ==> a[i] < |xs|
    requires forall i :: 0 <= i < |b| ==> b[i] < |xs|
    requires multiset(Gather(xs, a + b)) == multiset(xs[..n - 1])
    ensures multiset(Gather(xs, a + [n - 1] + b)) == multiset(xs[..n])
  {
    GatherInsert(xs, a, n - 1, b);
    assert xs[..n] == xs[..n - 1] + [xs[n - 1]];
  }

  /** Gathering along the sorted index list of the first `n` positions is a
      permutation of those `n` elements. */
  lemma {:induction false} SortIndicesPermutes<T>(xs: seq<T>, keys: seq<real>, n: nat)
    requires n <= |keys| == |xs|
    ensures multiset(Gather(xs, SortIndices(keys, n))) == multiset(xs[..n])
    decreases n
  {
    if n > 0 {
      var s := SortIndices(keys, n - 1);
      SortIndicesPermutes(xs, keys, n - 1);
      var p := InsertSplit(keys, n - 1, s);
      assert s == s[..p] + s[p..];
      GatherStep(xs, s[..p], s[p..], n);
    }
  }

  // ---------------------------------------------------------------------
  // Properties of the ranking

  /** Stability, as a reference definition: any listing of the positions of
      `xs` that orders by key, highest first, and keeps equal keys in their
      original order, gathers exactly the sorted sequence. */
  lemma SortDescIsStableOrder<T>(xs: seq<T>, key: T -> real, s: seq<nat>)
    requires forall i :: 0 <= i < |s| ==> s[i] < |xs|
    requires forall k :: 0 <= k < |xs| ==> k in s
    requires IndicesSorted(Keys(xs, key), s)
    ensures Gather(xs, s) == SortDesc(xs, key)
  {
    SortIndicesUnique(Keys(xs, key), |xs|, s);
  }

  /** Everything kept comes from the input. */
  lemma TopKMembers<T>(xs: seq<T>, key: T -> real, n: int)
    ensures forall i :: 0 <= i < |TopK(xs, key, n)| ==> TopK(xs, key, n)[i] in xs
  {
    var r := TopK(xs, key, n);
    forall i | 0 <= i < |r|
      ensures r[i] in xs
    {
      assert r[i] in multiset(r);
    }
  }

  /** Nothing left out of the top `n` outranks anything kept. */
  lemma TopKDominates<T>(xs: seq<T>, key: T -> real, n: int, x: T, y: T)
    requires x in xs && x !in TopK(xs, key, n)
    requires y in TopK(xs, key, n)
    ensures key(y) >= key(x)
  {
    var sorted := SortDesc(xs, key);
    var r := TopK(xs, key, n);
    assert x in multiset(xs);
    assert x in sorted;
    var j :| 0 <= j < |sorted| && sorted[j] == x;
    var i :| 0 <= i < |r| && r[i] == y;
    assert sorted[i] == y;
    assert j >= |r|;
  }

  /** A key that tells the elements of `xs` apart also tells the ranked
      elements apart: the ranking never repeats an entry. */
  lemma TopKDistinct<T, K>(xs: seq<T>, key: T -> real, n: int, id: T -> K)
    requires forall p, q :: 0 <= p < q < |xs| ==> id(xs[p]) != id(xs[q])
    ensures var r := TopK(xs, key, n);
      forall i, j :: 0 <= i < j < |r| ==> id(r[i]) != id(r[j])
  {
    var ks := Keys(xs, key);
    var s := SortIndices(ks, |xs|);
    SortedIndicesDistinct(ks, s);
    var r := TopK(xs, key, n);
    forall i, j | 0 <= i < j < |r|
      ensures id(r[i]) != id(r[j])
    {
      assert r[i] == xs[s[i]] && r[j] == xs[s[j]];
      assert s[i] != s[j];
    }
  }

  /** A non-negative count keeps everything when it covers the whole list. */
  lemma TopKKeepsAll<T>(xs: seq<T>, key: T -> real, n: int)
    requires n >= |xs|
    ensures multiset(TopK(xs, key, n)) == multiset(xs)
  {
    assert Take(SortDesc(xs, key), n) == SortDesc(xs, key);
  }
}

=== FILE: sanitize.dfy ===
/** `sanitizeData` and `handleResponse` of the front end's returns API: a
    JSON-like value is scrubbed of the numbers JSON cannot carry (NaN and the
    infinities) before the page uses it. */
module Sanitize {
  import opened Common

  /** A JavaScript value as the scrubber sees it. An object lists its own
      enumerable properties in enumeration order and, apart, the enumerable
      properties it inherits through its prototype chain. */
  datatype Value =
    | Undefined
    | Null
    | Bool(b: bool)
    | Number(n: Num)
    | Str(s: string)
    | Arr(items: seq<Value>)
    | Obj(own: seq<(string, Value)>, inherited: seq<(string, Value)>)

  /** The values `if (x)` treats as false. */
  predicate Falsy(v: Value) {
    || v.Undefined? || v.Null?
    || v == Bool(false)
    || v == Number(NaN) || v == Number(Finite(0.0))
    || v == Str("")
  }

  /** The one own key an assignment cannot create: `o["__proto__"] = x`
      runs the `Object.prototype.__proto__` setter instead, which makes `x`
      the prototype when it is an object or null and does nothing when it
      is a primitive. */
  const ProtoKey: string := "__proto__"

  type Props = seq<(string, Value)>

  /** A value with no non-finite number reachable from it, through array
      items, own properties or inherited ones. */
  predicate Clean(v: Value)
    decreases v
  {
    match v
    case Number(n) => n.Finite?
    case Arr(items) => forall i :: 0 <= i < |items| ==> Clean(items[i])
    case Obj(own, inherited) =>
      && (forall i :: 0 <= i < |own| ==> Clean(own[i].1))
      && (forall i :: 0 <= i < |inherited| ==> Clean(inherited[i].1))
    case _ => true
  }

  /** A clean value built of plain objects only: no inherited enumerable
      property and no own `"__proto__"` key at any depth. */
  predicate Plain(v: Value)
    decreases v
  {
    match v
    case Number(n) => n.Finite?
    case Arr(items) => forall i :: 0 <= i < |items| ==> Plain(items[i])
    case Obj(own, inherited) =>
      |inherited| == 0 && forall i :: 0 <= i < |own| ==> own[i].0 != ProtoKey && Plain(own[i].1)
    case _ => true
  }

  /** No own `"__proto__"` key on any object reachable through array items
      and own properties, the parts the scrubber reads. */
  predicate ProtoFree(v: Value)
    decreases v
  {
    match v
    case Arr(items) => forall i :: 0 <= i < |items| ==> ProtoFree(items[i])
    case Obj(own, _) => forall i :: 0 <= i < |own| ==> own[i].0 != ProtoKey && ProtoFree(own[i].1)
    case _ => true
  }

  /** The properties that become own properties of the result: every pair
      but the `"__proto__"` ones, in order. */
  function WithoutProto(ps: Props): (r: Props)
    ensures forall p :: p in r <==> p in ps && p.0 != ProtoKey
    decreases |ps|
  {
    if |ps| == 0 then []
    else (if ps[0].0 == ProtoKey then [] else [ps[0]]) + WithoutProto(ps[1..])
  }

  /** The decimal numeral of an array index, the key an array exposes it under. */
  function IndexKey(n: nat): (k: string)
    ensures |k| > 0
  {
    var d := ['0', '1', '2', '3', '4', '5', '6', '7', '8', '9'][n % 10];
    if n < 10 then [d] else IndexKey(n / 10) + [d]
  }

  /** The enumerable properties an object inherits from a prototype `x`:
      its own ones and then those it inherits itself; an array's indices. */
  function ProtoProps(x: Value): Props
    requires x.Obj? || x.Arr?
  {
    if x.Obj? then x.own + x.inherited
    else seq(|x.items|, i requires 0 <= i < |x.items| => (IndexKey(i), x.items[i]))
  }

  /** The enumerable properties a fresh object inherits after the
      assignments `ps`, in order: it starts from `Object.prototype`, which
      has none, and every `"__proto__"` assignment of an object, an array or
      null replaces the prototype. */
  function ProtoFrom(ps: Props): (r: Props)
    ensures (forall i :: 0 <= i < |ps| ==> ps[i].0 != ProtoKey) ==> r == []
    decreases |ps|
  {
    if |ps| == 0 then []
    else
      var before := ProtoFrom(ps[..|ps| - 1]);
      var (k, x) := ps[|ps| - 1];
      if k != ProtoKey then before
      else if x.Obj? || x.Arr? then ProtoProps(x)
      else if x.Null? then []
      else before
  }

  /** The scrubber: NaN and the infinities become null, other primitives are
      kept, arrays are mapped element by element, and objects are rebuilt by
      assigning their own properties, each value scrubbed, to a fresh
      object. */
  function Sanitize(v: Value): (r: Value)
    ensures v.Number? && !v.n.Finite? ==> r == Null
    ensures !v.Arr? && !v.Obj? && !(v.Number? && !v.n.Finite?) ==> r == v
    ensures v.Arr? ==> r.Arr? && |r.items| == |v.items|
    ensures v.Arr? ==> forall i :: 0 <= i < |v.items| ==> r.items[i] == Sanitize(v.items[i])
    ensures v.Obj? ==> r.Obj? && forall p :: p in r.own ==> p.0 != ProtoKey
    decreases v
  {
    match v
    case Number(n) => if n.Finite? then v else Null
    case Arr(items) => Arr(seq(|items|, i requires 0 <= i < |items| => Sanitize(items[i])))
    case Obj(own, _) =>
      var ps := seq(|own|, i requires 0 <= i < |own| => (own[i].0, Sanitize(own[i].1)));
      Obj(WithoutProto(ps), ProtoFrom(ps))
    case _ => v
  }

  /** The assignments the object branch performs: each own key with its
      value scrubbed. */
  function Scrubbed(own: Props): (ps: Props)
    ensures |ps| == |own|
    ensures forall i :: 0 <= i < |own| ==> ps[i] == (own[i].0, Sanitize(own[i].1))
  {
    seq(|own|, i requires 0 <= i < |own| => (own[i].0, Sanitize(own[i].1)))
  }

  /** An object comes out as the non-`"__proto__"` assignments as own
      properties, and the prototype the `"__proto__"` ones leave behind. */
  lemma SanitizeObject(v: Value)
    requires v.Obj?
    ensures Sanitize(v) == Obj(WithoutProto(Scrubbed(v.own)), ProtoFrom(Scrubbed(v.own)))
  {
  }

  /** An object keeps exactly its own keys other than `"__proto__"`, in the
      same order. */
  lemma SanitizeKeepsOwnKeys(v: Value)
    requires v.Obj?
    ensures Sanitize(v).Obj? && Firsts(Sanitize(v).own) == Firsts(WithoutProto(v.own))
  {
    SanitizeObject(v);
    SameKeysWithoutProto(Scrubbed(v.own), v.own);
  }

  /** Two property lists with the same keys keep the same keys. */
  lemma {:induction false} SameKeysWithoutProto(a: Props, b: Props)
    requires |a| == |b| && forall i :: 0 <= i < |a| ==> a[i].0 == b[i].0
    ensures Firsts(WithoutProto(a)) == Firsts(WithoutProto(b))
    decreases |a|
  {
    if |a| > 0 {
      SameKeysWithoutProto(a[1..], b[1..]);
      var ha: Props := if a[0].0 == ProtoKey then [] else [a[0]];
      var hb: Props := if b[0].0 == ProtoKey then [] else [b[0]];
      FirstsAppend(ha, WithoutProto(a[1..]));
      FirstsAppend(hb, WithoutProto(b[1..]));
    }
  }

  lemma FirstsAppend(a: Props, b: Props)
    ensures Firsts(a + b) == Firsts(a) + Firsts(b)
  {
  }

  /** Without `"__proto__"` pairs nothing is dropped. */
  lemma {:induction false} WithoutProtoKeepsAll(ps: Props)
    requires forall i :: 0 <= i < |ps| ==> ps[i].0 != ProtoKey
    ensures WithoutProto(ps) == ps
    decreases |ps|
  {
    if |ps| > 0 {
      WithoutProtoKeepsAll(ps[1..]);
      assert [ps[0]] + ps[1..] == ps;
    }
  }

  /** Every inherited property comes from a clean assigned value, so it is
      clean itself. */
  lemma {:induction false} ProtoFromClean(ps: Props)
    requires forall i :: 0 <= i < |ps| ==> Clean(ps[i].1)
    ensures forall k :: 0 <= k < |ProtoFrom(ps)| ==> Clean(ProtoFrom(ps)[k].1)
    decreases |ps|
  {
    if |ps| > 0 {
      ProtoFromClean(ps[..|ps| - 1]);
      var x := ps[|ps| - 1].1;
      if x.Obj? {
        var pp := x.own + x.inherited;
        assert forall k :: 0 <= k < |pp| ==> Clean(pp[k].1) by {
          forall k | 0 <= k < |pp|
            ensures Clean(pp[k].1)
          {
            if k >= |x.own| {
              assert pp[k] == x.inherited[k - |x.own|];
            }
          }
        }
      }
    }
  }

  /** Whatever the input, the output is clean. */
  lemma {:induction false} SanitizeIsClean(v: Value)
    ensures Clean(Sanitize(v))
    decreases v
  {
    match v
    case Arr(items) =>
      forall i | 0 <= i < |items|
        ensures Clean(Sanitize(items[i]))
      {
        SanitizeIsClean(items[i]);
      }
    case Obj(own, _) =>
      var ps := Scrubbed(own);
      forall i | 0 <= i < |own|
        ensures Clean(ps[i].1)
      {
        SanitizeIsClean(own[i].1);
      }
      SanitizeObject(v);
      ProtoFromClean(ps);
      var r := Sanitize(v);
      forall i | 0 <= i < |r.own|
        ensures Clean(r.own[i].1)
      {
        assert r.own[i] in ps;
      }
    case _ =>
  }

  /** A plain value passes through unchanged. */
  lemma {:induction false} PlainIsFixed(v: Value)
    requires Plain(v)
    ensures Sanitize(v) == v
    decreases v
  {
    match v
    case Arr(items) =>
      forall i | 0 <= i < |items|
        ensures Sanitize(items[i]) == items[i]
      {
        PlainIsFixed(items[i]);
      }
      assert Sanitize(v).items == items;
    case Obj(own, inherited) =>
      forall i | 0 <= i < |own|
        ensures Sanitize(own[i].1) == own[i].1
      {
        PlainIsFixed(own[i].1);
      }
      var ps := Scrubbed(own);
      assert ps == own;
      WithoutProtoKeepsAll(own);
      SanitizeObject(v);
    case _ =>
  }

  /** A value the scrubber leaves alone is plain. */
  lemma {:induction false} FixedIsPlain(v: Value)
    requires Sanitize(v) == v
    ensures Plain(v)
    decreases v
  {
    match v
    case Arr(items) =>
      forall i | 0 <= i < |items|
        ensures Plain(items[i])
      {
        assert Sanitize(items[i]) == Sanitize(v).items[i];
        FixedIsPlain(items[i]);
      }
    case Obj(own, inherited) =>
      SanitizeObject(v);
      var ps := Scrubbed(own);
      assert own == WithoutProto(ps);
      forall i | 0 <= i < |ps|
        ensures ps[i].0 != ProtoKey
      {
        assert own[i] in WithoutProto(ps);
      }
      WithoutProtoKeepsAll(ps);
      forall i | 0 <= i < |own|
        ensures own[i].0 != ProtoKey && Plain(own[i].1)
      {
        assert Sanitize(own[i].1) == ps[i].1 == own[i].1;
        FixedIsPlain(own[i].1);
      }
    case _ =>
  }

  /** The scrubber leaves a value alone exactly when it is plain. */
  lemma SanitizeFixedIffPlain(v: Value)
    ensures Sanitize(v) == v <==> Plain(v)
  {
    if Plain(v) {
      PlainIsFixed(v);
    }
    if Sanitize(v) == v {
      FixedIsPlain(v);
    }
  }

  /** Without `"__proto__"` keys the output is plain. */
  lemma {:induction false} ProtoFreeSanitizesPlain(v: Value)
    requires ProtoFree(v)
    ensures Plain(Sanitize(v))
    decreases v
  {
    match v
    case Arr(items) =>
      forall i | 0 <= i < |items|
        ensures Plain(Sanitize(items[i]))
      {
        ProtoFreeSanitizesPlain(items[i]);
      }
    case Obj(own, _) =>
      SanitizeObject(v);
      var ps := Scrubbed(own);
      WithoutProtoKeepsAll(ps);
      forall i | 0 <= i < |own|
        ensures Plain(ps[i].1)
      {
        ProtoFreeSanitizesPlain(own[i].1);
      }
    case _ =>
  }

  /** Scrubbing twice is scrubbing once, for values without `"__proto__"` keys. */
  lemma SanitizeIdempotent(v: Value)
    requires ProtoFree(v)
    ensures Sanitize(Sanitize(v)) == Sanitize(v)
  {
    ProtoFreeSanitizesPlain(v);
    PlainIsFixed(Sanitize(v));
  }

  /** `{"__proto__": {"a": 1}}`: the first scrubbing turns the key into the
      prototype, so `a` is inherited; the second drops what is inherited. */
  function ProtoObject(): Value {
    Obj([(ProtoKey, Obj([("a", Number(Finite(1.0)))], []))], [])
  }

  lemma ProtoBreaksIdempotence()
    ensures Sanitize(ProtoObject()) == Obj([], [("a", Number(Finite(1.0)))])
    ensures Sanitize(Sanitize(ProtoObject())) == Obj([], [])
  {
    var inner := Obj([("a", Number(Finite(1.0)))], []);
    assert Sanitize(inner) == inner by {
      assert Plain(inner);
      PlainIsFixed(inner);
    }
    SanitizeObject(ProtoObject());
    assert Scrubbed(ProtoObject().own) == [(ProtoKey, inner)];
    assert WithoutProto([(ProtoKey, inner)]) == [];
    SanitizeObject(Sanitize(ProtoObject()));
  }

  /** `{"__proto__": 1}`: a primitive assigned to the key is ignored and the
      key is gone. */
  lemma ProtoPrimitiveDropped()
    ensures Sanitize(Obj([(ProtoKey, Number(Finite(1.0)))], [])) == Obj([], [])
  {
    var v := Obj([(ProtoKey, Number(Finite(1.0)))], []);
    SanitizeObject(v);
    assert Scrubbed(v.own) == [(ProtoKey, Number(Finite(1.0)))];
    assert WithoutProto(Scrubbed(v.own)) == [];
  }

  // ---------------------------------------------------------------------
  // Property access on a response object

  /** The index of the first own property named `key`. */
  function FindKey(fs: seq<(string, Value)>, key: string): (i: nat)
    ensures i <= |fs|
    ensures i < |fs| ==> fs[i].0 == key
    ensures forall k :: 0 <= k < i ==> fs[k].0 != key
    decreases |fs|
  {
    if |fs| == 0 then 0
    else if fs[0].0 == key then 0
    else 1 + FindKey(fs[1..], key)
  }

  /** Reading a property in a list of properties. */
  function Lookup(fs: seq<(string, Value)>, key: string): (r: Value)
    ensures FindKey(fs, key) < |fs| ==> r == fs[FindKey(fs, key)].1
    ensures FindKey(fs, key) == |fs| ==> r == Undefined
  {
    var i := FindKey(fs, key);
    if i < |fs| then fs[i].1 else Undefined
  }

  /** `x.key`: an own property first, then an inherited one; undefined on
      anything that is not an object. */
  function Get(x: Value, key: string): (r: Value)
    ensures !x.Obj? ==> r == Undefined
    ensures x.Obj? && FindKey(x.own, key) < |x.own| ==> r == x.own[FindKey(x.own, key)].1
    ensures x.Obj? && FindKey(x.own, key) == |x.own| ==> r == Lookup(x.inherited, key)
  {
    if !x.Obj? then Undefined
    else if FindKey(x.own, key) < |x.own| then x.own[FindKey(x.own, key)].1
    else Lookup(x.inherited, key)
  }

  /** `x.key = v` on an object: an existing own property is overwritten in
      place, otherwise a new own property is added at the end. */
  function Set(x: Value, key: string, v: Value): (r: Value)
    requires x.Obj?
    ensures r.Obj? && r.inherited == x.inherited
    ensures Get(r, key) == v
    ensures forall k :: k != key ==> Get(r, k) == Get(x, k)
  {
    var i := FindKey(x.own, key);
    if i < |x.own| then
      var own := x.own[i := (key, v)];
      assert forall k :: FindKey(own, k) == FindKey(x.own, k) by {
        forall k
          ensures FindKey(own, k) == FindKey(x.own, k)
        {
          SameKeysFindKey(own, x.own, k);
        }
      }
      Obj(own, x.inherited)
    else
      var own := x.own + [(key, v)];
      AppendFindKey(x.own, (key, v), key);
      forall k | k != key
        ensures Get(Obj(own, x.inherited), k) == Get(x, k)
      {
        AppendFindKey(x.own, (key, v), k);
      }
      Obj(own, x.inherited)
  }

  /** Two property lists with the same keys find every key at the same place. */
  lemma {:induction false} SameKeysFindKey(a: seq<(string, Value)>, b: seq<(string, Value)>, key: string)
    requires |a| == |b| && forall i :: 0 <= i < |a| ==> a[i].0 == b[i].0
    ensures FindKey(a, key) == FindKey(b, key)
    decreases |a|
  {
    if |a| > 0 && a[0].0 != key {
      SameKeysFindKey(a[1..], b[1..], key);
    }
  }

  /** Appending a property leaves the earlier keys where they were. */
  lemma {:induction false} AppendFindKey(fs: seq<(string, Value)>, f: (string, Value), key: string)
    ensures FindKey(fs, key) < |fs| ==> FindKey(fs + [f], key) == FindKey(fs, key)
    ensures FindKey(fs, key) == |fs| && f.0 == key ==> FindKey(fs + [f], key) == |fs|
    ensures FindKey(fs, key) == |fs| && f.0 != key ==> FindKey(fs + [f], key) == |fs| + 1
    decreases |fs|
  {
    if |fs| > 0 && fs[0].0 != key {
      assert (fs + [f])[1..] == fs[1..] + [f];
      AppendFindKey(fs[1..], f, key);
    }
  }

  /** `handleResponse`: when the response and its `data` are both truthy,
      `data` is replaced by its scrubbed value; otherwise the response is
      returned as it came. */
  function HandleResponse(res: Value): (r: Value)
    ensures Falsy(res) || Falsy(Get(res, "data")) ==> r == res
    ensures !Falsy(res) && !Falsy(Get(res, "data")) ==>
      r.Obj? && Get(r, "data") == Sanitize(Get(res, "data"))
    ensures forall k :: k != "data" ==> Get(r, k) == Get(res, k)
  {
    if Falsy(res) || Falsy(Get(res, "data")) then res
    else Set(res, "data", Sanitize(Get(res, "data")))
  }

  /** The `data` a handled response carries is clean whenever it was replaced. */
  lemma HandledDataIsClean(res: Value)
    requires !Falsy(res) && !Falsy(Get(res, "data"))
    ensures Clean(Get(HandleResponse(res), "data"))
  {
    SanitizeIsClean(Get(res, "data"));
  }
}

=== FILE: screening.dfy ===
/** `_find_similar_stocks_sync`: the quick screener that ranks every other
    security by the correlation of its recent closes with the target's,
    keeps those above a similarity of 0.7, attaches 7- and 30-day returns and
    returns the best ten. */
module Screening {
  import opened Common
  import Series
  import Ranking
  import Ordering

  /** The screener's thresholds. */
  const MinPoints := 30
  const MinSimilarity := 0.7
  const MaxResults := 10

  /** One column of the pivoted table: a security's closes by date (NaN or
      absent closes as `None`) and its name from the classification join. */
  datatype Column = Column(code: string, name: Option<string>, closes: seq<(int, Option<real>)>)

  /** The three prices the returns query reads: the latest close and the
      latest closes on or before 7 and 30 days ago. */
  datatype Prices = Prices(latest: Option<real>, ago7: Option<real>, ago30: Option<real>)

  datatype Pick = Pick(code: string, name: Option<string>, similarity: real, correlation: real,
                       sevenDay: Option<real>, thirtyDay: Option<real>)

  datatype Outcome<T> = Raised | Done(value: T)

  /** `pivot_df[code].dropna()`: the dated closes that are present. */
  function Present(closes: seq<(int, Option<real>)>): (ps: seq<(int, real)>)
    ensures |ps| <= |closes|
    ensures forall p :: p in ps <==> (p.0, Some(p.1)) in closes
    decreases |closes|
  {
    if |closes| == 0 then []
    else
      var init := closes[..|closes| - 1];
      var last := closes[|closes| - 1];
      assert forall c :: c in closes <==> c in init || c == last;
      Present(init) + (if last.1.Some? then [(last.0, last.1.value)] else [])
  }

  /** `.loc[d]` on a dated series. */
  function CloseAt(ps: seq<(int, real)>, d: int): real
    requires d in Firsts(ps)
  {
    var i := IndexOfDate(ps, d);
    ps[i].1
  }

  function IndexOfDate<V>(ps: seq<(int, V)>, d: int): (i: nat)
    requires d in Firsts(ps)
    ensures i < |ps| && ps[i].0 == d
    ensures forall j :: 0 <= j < i ==> ps[j].0 != d
    decreases |ps|
  {
    if ps[0].0 == d then 0
    else
      assert d in Firsts(ps[1..]) by {
        var k :| 0 <= k < |ps| && Firsts(ps)[k] == d;
        assert Firsts(ps[1..])[k - 1] == d;
      }
      1 + IndexOfDate(ps[1..], d)
  }

  /** Closes of `ps` at the listed dates. */
  function ClosesAt(ps: seq<(int, real)>, ds: seq<int>): (xs: seq<real>)
    requires forall d :: d in ds ==> d in Firsts(ps)
    ensures |xs| == |ds|
  {
    seq(|ds|, i requires 0 <= i < |ds| => CloseAt(ps, ds[i]))
  }

  /** `target_series.loc[d]`: the target's close on day `d`, NaN as `None`. */
  function TargetAt(target: seq<(int, Option<real>)>, d: int): (o: Option<real>)
    requires d in Firsts(target)
    ensures exists i :: 0 <= i < |target| && target[i] == (d, o) && forall j :: 0 <= j < i ==> target[j].0 != d
  {
    target[IndexOfDate(target, d)].1
  }

  /** The common dates on which the target's close is present: the pairs
      `Series.corr` keeps, since it drops every pair with a NaN side (the
      column's side has none after `dropna`). A target without NaN closes
      keeps every common date. */
  function Paired(target: seq<(int, Option<real>)>, common: seq<int>): (ds: seq<int>)
    requires forall d :: d in common ==> d in Firsts(target)
    ensures forall d :: d in ds <==> d in common && TargetAt(target, d).Some?
    ensures (forall k :: 0 <= k < |target| ==> target[k].1.Some?) ==> ds == common
  {
    var keep := (d: int) => d in Firsts(target) && TargetAt(target, d).Some?;
    var ds := Ordering.Filter(common, keep);
    assert (forall k :: 0 <= k < |target| ==> target[k].1.Some?) ==> ds == common by {
      if forall k :: 0 <= k < |target| ==> target[k].1.Some? {
        forall d | d in common
          ensures keep(d)
        {
          assert target[IndexOfDate(target, d)].1.Some?;
        }
        Ordering.FilterAll(common, keep);
      }
    }
    ds
  }

  /** The target's present closes at the listed dates. */
  function TargetClosesAt(target: seq<(int, Option<real>)>, ds: seq<int>): (xs: seq<real>)
    requires forall d :: d in ds ==> d in Firsts(target) && TargetAt(target, d).Some?
    ensures |xs| == |ds|
    ensures forall i :: 0 <= i < |ds| ==> Some(xs[i]) == TargetAt(target, ds[i])
  {
    seq(|ds|, i requires 0 <= i < |ds| => TargetAt(target, ds[i]).value)
  }

  /** `(correlation + 1) / 2` */
  function SimilarityOf(corr: real): (s: real)
    ensures -1.0 <= corr <= 1.0 ==> 0.0 <= s <= 1.0
    ensures s > MinSimilarity <==> corr > 0.4
  {
    (corr + 1.0) / 2.0
  }

  /** The correlation a column qualifies with, if it does: at least 30
      present closes, at least 30 dates in common with the target (NaN
      target closes included), a defined correlation over the common dates
      where the target's close is present, and a similarity above 0.7. */
  function Qualify(target: seq<(int, Option<real>)>, col: Column, corr: (seq<real>, seq<real>) -> Option<real>): (q: Option<real>)
    ensures q.Some? ==> SimilarityOf(q.value) > MinSimilarity
    ensures q.Some? ==> |Present(col.closes)| >= MinPoints
    ensures q.Some? ==> |Series.Intersect(Firsts(Present(col.closes)), Firsts(target))| >= MinPoints
    ensures var series := Present(col.closes);
      var common := Series.Intersect(Firsts(series), Firsts(target));
      var pairs := Paired(target, common);
      q.Some? <==>
        && |series| >= MinPoints
        && |common| >= MinPoints
        && corr(ClosesAt(series, pairs), TargetClosesAt(target, pairs)).Some?
        && SimilarityOf(corr(ClosesAt(series, pairs), TargetClosesAt(target, pairs)).value) > MinSimilarity
    ensures var series := Present(col.closes);
      var common := Series.Intersect(Firsts(series), Firsts(target));
      var pairs := Paired(target, common);
      q.Some? ==> q == corr(ClosesAt(series, pairs), TargetClosesAt(target, pairs))
  {
    var series := Present(col.closes);
    if |series| < MinPoints then None
    else
      var common := Series.Intersect(Firsts(series), Firsts(target));
      if |common| < MinPoints then None
      else
        var pairs := Paired(target, common);
        match corr(ClosesAt(series, pairs), TargetClosesAt(target, pairs))
        case None => None
        case Some(c) => if SimilarityOf(c) > MinSimilarity then Some(c) else None
  }

  /** One period's return in percent. A missing or zero past price gives
      no return; a missing latest price with a usable past price raises
      (`None - x`). */
  function PeriodReturn(latest: Option<real>, past: Option<real>): (r: Outcome<Option<real>>)
    ensures past.None? || past == Some(0.0) ==> r == Done(None)
    ensures past.Some? && past.value != 0.0 && latest.None? ==> r.Raised?
    ensures past.Some? && past.value != 0.0 && latest.Some? ==>
      r == Done(Some((latest.value - past.value) / past.value * 100.0))
  {
    if past.None? || past.value == 0.0 then Done(None)
    else if latest.None? then Raised
    else Done(Some((latest.value - past.value) / past.value * 100.0))
  }

  /** A computed return grows the past price into the latest one, and is
      positive exactly when the price rose from a positive past price. */
  lemma PeriodReturnInverse(latest: Option<real>, past: Option<real>, r: real)
    requires PeriodReturn(latest, past) == Done(Some(r))
    ensures latest.Some? && past.Some? && past.value != 0.0
    ensures past.value * (1.0 + r / 100.0) == latest.value
    ensures past.value > 0.0 ==> (r > 0.0 <==> latest.value > past.value)
  {
    var l, p := latest.value, past.value;
    var q := (l - p) / p;
    assert r == q * 100.0;
    assert r / 100.0 == q;
    QuotientTimes(l - p, p);
    if p > 0.0 {
      QuotientSign(l - p, p);
    }
  }

  lemma QuotientTimes(a: real, b: real)
    requires b != 0.0
    ensures b * (a / b) == a
  {
  }

  lemma QuotientSign(a: real, b: real)
    requires b > 0.0
    ensures a / b > 0.0 <==> a > 0.0
  {
    assert b * (a / b) == a;
  }

  /** The pick for a qualifying column; with no row from the returns query
      both returns are None. */
  function MakePick(col: Column, c: real, prices: Option<Prices>): (r: Outcome<Pick>)
    ensures prices.None? ==> r == Done(Pick(col.code, col.name, SimilarityOf(c), c, None, None))
    ensures r.Done? ==> r.value.code == col.code && r.value.similarity == SimilarityOf(c) && r.value.correlation == c
  {
    match prices
    case None => Done(Pick(col.code, col.name, SimilarityOf(c), c, None, None))
    case Some(p) =>
      match PeriodReturn(p.latest, p.ago7)
      case Raised => Raised
      case Done(r7) =>
        match PeriodReturn(p.latest, p.ago30)
        case Raised => Raised
        case Done(r30) => Done(Pick(col.code, col.name, SimilarityOf(c), c, r7, r30))
  }

  /** `p` is the pick of a column that passes the test with `p`'s correlation. */
  ghost predicate Admitted(cols: seq<Column>, qualify: Column -> Option<real>, p: Pick) {
    exists j :: 0 <= j < |cols| && cols[j].code == p.code && qualify(cols[j]) == Some(p.correlation)
  }

  /** Some pick in `ps` is for `code`. */
  ghost predicate Reported(ps: seq<Pick>, code: string) {
    exists k :: 0 <= k < |ps| && ps[k].code == code
  }

  /** The qualifying columns' picks, in column order; `qualify` is the
      per-column test. */
  function Picks(cols: seq<Column>, qualify: Column -> Option<real>, prices: string -> Option<Prices>): (r: Outcome<seq<Pick>>)
    ensures r.Done? ==> |r.value| <= |cols|
    ensures r.Done? ==> forall k :: 0 <= k < |r.value| ==> r.value[k].similarity == SimilarityOf(r.value[k].correlation)
    ensures r.Done? ==> forall k :: 0 <= k < |r.value| ==> Admitted(cols, qualify, r.value[k])
    ensures r.Done? ==> forall j :: 0 <= j < |cols| && qualify(cols[j]).Some? ==> Reported(r.value, cols[j].code)
    decreases |cols|
  {
    if |cols| == 0 then Done([])
    else
      var init := cols[..|cols| - 1];
      var col := cols[|cols| - 1];
      match Picks(init, qualify, prices)
      case Raised => Raised
      case Done(ps) =>
        assert cols == init + [col];
        AdmittedExtend(init, col, qualify, ps);
        match qualify(col)
        case None =>
          assert forall j :: 0 <= j < |init| ==> init[j] == cols[j];
          Done(ps)
        case Some(c) =>
          match MakePick(col, c, prices(col.code))
          case Raised => Raised
          case Done(p) =>
            var all := ps + [p];
            assert Admitted(cols, qualify, p) by {
              assert cols[|cols| - 1].code == p.code;
            }
            ReportedExtend(init, col, qualify, ps, p);
            Done(all)
  }

  /** Picks admitted by a prefix of the columns stay admitted by the whole. */
  lemma AdmittedExtend(init: seq<Column>, col: Column, qualify: Column -> Option<real>, ps: seq<Pick>)
    requires forall k :: 0 <= k < |ps| ==> Admitted(init, qualify, ps[k])
    ensures forall k :: 0 <= k < |ps| ==> Admitted(init + [col], qualify, ps[k])
  {
    forall k | 0 <= k < |ps|
      ensures Admitted(init + [col], qualify, ps[k])
    {
      assert Admitted(init, qualify, ps[k]);
      var j :| 0 <= j < |init| && init[j].code == ps[k].code && qualify(init[j]) == Some(ps[k].correlation);
      assert (init + [col])[j] == init[j];
    }
  }

  /** Appending the pick of the last column keeps every earlier column reported. */
  lemma ReportedExtend(init: seq<Column>, col: Column, qualify: Column -> Option<real>, ps: seq<Pick>, p: Pick)
    requires forall j :: 0 <= j < |init| && qualify(init[j]).Some? ==> Reported(ps, init[j].code)
    requires p.code == col.code
    ensures forall j :: 0 <= j < |init| + 1 && qualify((init + [col])[j]).Some? ==> Reported(ps + [p], (init + [col])[j].code)
  {
    var cols := init + [col];
    var all := ps + [p];
    forall j | 0 <= j < |cols| && qualify(cols[j]).Some?
      ensures Reported(all, cols[j].code)
    {
      if j < |init| {
        assert cols[j] == init[j];
        var k :| 0 <= k < |ps| && ps[k].code == init[j].code;
        assert all[k] == ps[k];
      } else {
        assert all[|ps|] == p;
      }
    }
  }

  function Similarity(p: Pick): real { p.similarity }

  /** Every column the test admits clears the similarity threshold. */
  ghost predicate AboveThreshold(qualify: Column -> Option<real>) {
    forall col :: qualify(col).Some? ==> SimilarityOf(qualify(col).value) > MinSimilarity
  }

  /** The per-column test with the target and correlation fixed. */
  function Qualifier(target: seq<(int, Option<real>)>, corr: (seq<real>, seq<real>) -> Option<real>): (q: Column -> Option<real>)
    ensures forall col :: q(col) == Qualify(target, col, corr)
    ensures AboveThreshold(q)
  {
    (col: Column) => Qualify(target, col, corr)
  }

  /** Every pick of an admitting test clears the similarity threshold. */
  lemma PicksAboveThreshold(cols: seq<Column>, qualify: Column -> Option<real>, prices: string -> Option<Prices>)
    requires AboveThreshold(qualify)
    requires Picks(cols, qualify, prices).Done?
    ensures forall k :: 0 <= k < |Picks(cols, qualify, prices).value| ==>
      Picks(cols, qualify, prices).value[k].similarity > MinSimilarity
  {
    var ps := Picks(cols, qualify, prices).value;
    forall k | 0 <= k < |ps|
      ensures ps[k].similarity > MinSimilarity
    {
      assert Admitted(cols, qualify, ps[k]);
      var j :| 0 <= j < |cols| && cols[j].code == ps[k].code && qualify(cols[j]) == Some(ps[k].correlation);
    }
  }

  /** Rank the picks by similarity, highest first, and keep ten. */
  function Rank(ps: seq<Pick>): (r: seq<Pick>)
    requires forall k :: 0 <= k < |ps| ==> ps[k].similarity > MinSimilarity
    ensures |r| == if |ps| < MaxResults then |ps| else MaxResults
    ensures forall i, j :: 0 <= i < j < |r| ==> r[i].similarity >= r[j].similarity
    ensures forall i :: 0 <= i < |r| ==> r[i] in ps && r[i].similarity > MinSimilarity
    ensures multiset(r) <= multiset(ps)
  {
    var top := Ranking.TopK(ps, Similarity, MaxResults);
    assert forall i :: 0 <= i < |top| ==> top[i] in ps by {
      forall i | 0 <= i < |top|
        ensures top[i] in ps
      {
        assert top[i] in multiset(top);
      }
    }
    top
  }

  /** The screened picks of the columns, or `Raised`. */
  function Screen(cols: seq<Column>, qualify: Column -> Option<real>, prices: string -> Option<Prices>): (r: Outcome<seq<Pick>>)
    requires AboveThreshold(qualify)
    ensures r.Raised? <==> Picks(cols, qualify, prices).Raised?
    ensures r.Done? ==> r.value == Rank(Picks(cols, qualify, prices).value)
  {
    var ps := Picks(cols, qualify, prices);
    if ps.Raised? then Raised
    else
      PicksAboveThreshold(cols, qualify, prices);
      Done(Rank(ps.value))
  }

  /** The screener: nothing for a target without data, otherwise the
      screened picks of the columns. `Raised` where the source raises. */
  function FindSimilarStocks(target: seq<(int, Option<real>)>, cols: seq<Column>, corr: (seq<real>, seq<real>) -> Option<real>,
                             prices: string -> Option<Prices>): (r: Outcome<seq<Pick>>)
    ensures |target| == 0 ==> r == Done([])
    ensures |target| > 0 ==> r == Screen(cols, Qualifier(target, corr), prices)
    ensures r.Done? ==> |r.value| <= MaxResults
    ensures r.Done? ==> forall i, j :: 0 <= i < j < |r.value| ==> r.value[i].similarity >= r.value[j].similarity
    ensures r.Done? ==> forall i :: 0 <= i < |r.value| ==> r.value[i].similarity > MinSimilarity
  {
    if |target| == 0 then Done([])
    else Screen(cols, Qualifier(target, corr), prices)
  }

  /** A screened pick was admitted by the test, with its similarity derived
      from its correlation. */
  lemma ScreenedAdmitted(cols: seq<Column>, qualify: Column -> Option<real>, prices: string -> Option<Prices>, p: Pick)
    requires AboveThreshold(qualify)
    requires Screen(cols, qualify, prices).Done?
    requires p in Screen(cols, qualify, prices).value
    ensures Admitted(cols, qualify, p)
    ensures p.similarity == SimilarityOf(p.correlation)
  {
    var ps := Picks(cols, qualify, prices).value;
    PicksAboveThreshold(cols, qualify, prices);
    assert p in Rank(ps);
    var k :| 0 <= k < |ps| && ps[k] == p;
  }

  /** Every reported pick is for a column that passes the test, with the
      correlation that column qualifies with. */
  lemma ReportedPicksQualify(target: seq<(int, Option<real>)>, cols: seq<Column>, corr: (seq<real>, seq<real>) -> Option<real>,
                             prices: string -> Option<Prices>, p: Pick)
    requires FindSimilarStocks(target, cols, corr, prices).Done?
    requires p in FindSimilarStocks(target, cols, corr, prices).value
    ensures exists j :: 0 <= j < |cols| && cols[j].code == p.code && Qualify(target, cols[j], corr) == Some(p.correlation)
    ensures p.similarity == SimilarityOf(p.correlation)
  {
    var q := Qualifier(target, corr);
    assert |target| > 0;
    ScreenedAdmitted(cols, q, prices, p);
    var j :| 0 <= j < |cols| && cols[j].code == p.code && q(cols[j]) == Some(p.correlation);
    assert Qualify(target, cols[j], corr) == Some(p.correlation);
  }

  /** Ranking ten picks or fewer loses none of their codes. */
  lemma RankKeepsFew(ps: seq<Pick>, code: string)
    requires forall k :: 0 <= k < |ps| ==> ps[k].similarity > MinSimilarity
    requires |ps| <= MaxResults && Reported(ps, code)
    ensures Reported(Rank(ps), code)
  {
    var k :| 0 <= k < |ps| && ps[k].code == code;
    var top := Rank(ps);
    Ranking.TopKKeepsAll(ps, Similarity, MaxResults);
    assert ps[k] in multiset(top);
    var m :| 0 <= m < |top| && top[m] == ps[k];
  }

  /** With at most ten qualifying columns, every one of them is reported. */
  lemma FewPicksAllReported(cols: seq<Column>, qualify: Column -> Option<real>, prices: string -> Option<Prices>, j: nat)
    requires AboveThreshold(qualify)
    requires Picks(cols, qualify, prices).Done?
    requires |Picks(cols, qualify, prices).value| <= MaxResults
    requires j < |cols| && qualify(cols[j]).Some?
    ensures Reported(Screen(cols, qualify, prices).value, cols[j].code)
  {
    var ps := Picks(cols, qualify, prices).value;
    assert Reported(ps, cols[j].code);
    PicksAboveThreshold(cols, qualify, prices);
    RankKeepsFew(ps, cols[j].code);
  }

  /** A pick that did not make the ten is no more similar than any that did. */
  lemma DroppedPickRanksLower(cols: seq<Column>, qualify: Column -> Option<real>, prices: string -> Option<Prices>,
                              dropped: Pick, kept: Pick)
    requires AboveThreshold(qualify)
    requires Picks(cols, qualify, prices).Done?
    requires dropped in Picks(cols, qualify, prices).value
    requires dropped !in Screen(cols, qualify, prices).value
    requires kept in Screen(cols, qualify, prices).value
    ensures kept.similarity >= dropped.similarity
  {
    PicksAboveThreshold(cols, qualify, prices);
    Ranking.TopKDominates(Picks(cols, qualify, prices).value, Similarity, MaxResults, dropped, kept);
  }
}

=== FILE: series.dfy ===
/** Daily rows of one security, the calendar alignment of two securities
    (`index.intersection` followed by `.loc`) and the derived per-day
    indicator ratios used by the similarity strategies. */
module Series {
  import opened Common
  import Ordering

  /** One trading day: `timestamps` (as a day number), OHLC, the previous
      close `ycp` and the volume `vol`. */
  datatype Row = Row(date: int, open: real, high: real, low: real, close: real, ycp: real, vol: real)

  type Rows = seq<Row>

  /** The price columns an indicator ratio can be taken of. */
  datatype PriceField = CloseField | HighField | LowField

  function Price(r: Row, f: PriceField): real {
    match f
    case CloseField => r.close
    case HighField => r.high
    case LowField => r.low
  }

  function Dates(s: Rows): (ds: seq<int>)
    ensures |ds| == |s|
    ensures forall i :: 0 <= i < |s| ==> ds[i] == s[i].date
  {
    seq(|s|, i requires 0 <= i < |s| => s[i].date)
  }

  /** The row order the loader produces (`ORDER BY timestamps`, one row per day). */
  ghost predicate Chronological(s: Rows) {
    forall i, j :: 0 <= i < j < |s| ==> s[i].date < s[j].date
  }

  ghost predicate Increasing(ds: seq<int>) {
    forall i, j :: 0 <= i < j < |ds| ==> ds[i] < ds[j]
  }

  /** The dates of `ds` that also occur in `other`, in the order of `ds`. */
  function Intersect(ds: seq<int>, other: seq<int>): (cd: seq<int>)
    ensures |cd| <= |ds|
    ensures forall d :: d in cd <==> d in ds && d in other
    ensures Increasing(ds) ==> Increasing(cd)
  {
    var keep := InOther(other);
    var cd := Ordering.Filter(ds, keep);
    assert Increasing(ds) ==> Increasing(cd) by {
      var lt := (x: int, y: int) => x < y;
      if Increasing(ds) {
        assert Ordering.SortedBy(ds, lt);
        Ordering.FilterSorted(ds, keep, lt);
      }
    }
    cd
  }

  /** The membership test `Intersect` filters by. */
  function InOther(other: seq<int>): (keep: int -> bool)
    ensures forall d :: keep(d) <==> d in other
  {
    (d: int) => d in other
  }

  /** Dates that all occur in `other` are kept, every one, in order. */
  lemma IntersectAll(ds: seq<int>, other: seq<int>)
    requires forall d :: d in ds ==> d in other
    ensures Intersect(ds, other) == ds
  {
    var keep := InOther(other);
    forall d | d in ds
      ensures keep(d)
    {
    }
    Ordering.FilterAll(ds, keep);
  }

  /** `stock1.index.intersection(stock2.index)`. */
  function CommonDates(s1: Rows, s2: Rows): (cd: seq<int>)
    ensures |cd| <= |s1|
    ensures forall d :: d in cd <==> d in Dates(s1) && d in Dates(s2)
  {
    Intersect(Dates(s1), Dates(s2))
  }

  /** `.loc[d]` for a single date: the (first) row of `s` dated `d`. */
  function RowAt(s: Rows, d: int): (r: Row)
    requires d in Dates(s)
    ensures r in s && r.date == d
    decreases |s|
  {
    if s[0].date == d then s[0]
    else
      assert d in Dates(s[1..]) by {
        var i :| 0 <= i < |s| && Dates(s)[i] == d;
        assert Dates(s[1..])[i - 1] == d;
      }
      RowAt(s[1..], d)
  }

  /** `.loc[cd]`: the rows of `s` at the listed dates, in the listed order. */
  function Align(s: Rows, cd: seq<int>): (a: Rows)
    requires forall d :: d in cd ==> d in Dates(s)
    ensures |a| == |cd|
    ensures forall i :: 0 <= i < |cd| ==> a[i].date == cd[i] && a[i] in s
  {
    seq(|cd|, i requires 0 <= i < |cd| => RowAt(s, cd[i]))
  }

  /** The pair of aligned frames the strategies receive. */
  function AlignPair(s1: Rows, s2: Rows): (p: (Rows, Rows))
    ensures |p.0| == |p.1| == |CommonDates(s1, s2)|
    ensures forall i :: 0 <= i < |p.0| ==> p.0[i].date == p.1[i].date
    ensures forall i :: 0 <= i < |p.0| ==> p.0[i] in s1 && p.1[i] in s2
  {
    var cd := CommonDates(s1, s2);
    (Align(s1, cd), Align(s2, cd))
  }

  /** Aligning the aligned frames again gives them back: their calendars
      agree day by day, and a date repeated in a frame is the same row each
      time. */
  lemma AlignPairIdempotent(s1: Rows, s2: Rows)
    ensures AlignPair(AlignPair(s1, s2).0, AlignPair(s1, s2).1) == AlignPair(s1, s2)
  {
    var (a1, a2) := AlignPair(s1, s2);
    var cd := CommonDates(s1, s2);
    assert Dates(a1) == cd && Dates(a2) == cd;
    IntersectAll(cd, cd);
    AlignAgain(s1, cd);
    AlignAgain(s2, cd);
  }

  /** `.loc[cd]` of `.loc[cd]` is `.loc[cd]`. */
  lemma AlignAgain(s: Rows, cd: seq<int>)
    requires forall d :: d in cd ==> d in Dates(s)
    ensures forall d :: d in cd ==> d in Dates(Align(s, cd))
    ensures Align(Align(s, cd), cd) == Align(s, cd)
  {
    var a := Align(s, cd);
    assert Dates(a) == cd;
    forall i | 0 <= i < |cd|
      ensures RowAt(a, cd[i]) == a[i]
    {
      var r := RowAt(a, cd[i]);
      var j :| 0 <= j < |a| && a[j] == r;
      assert a[j] == RowAt(s, cd[j]) && a[i] == RowAt(s, cd[i]);
    }
  }

  /** On chronological series the common calendar does not depend on which
      security is named first. */
  lemma CommonDatesSymmetric(s1: Rows, s2: Rows)
    requires Chronological(s1) && Chronological(s2)
    ensures CommonDates(s1, s2) == CommonDates(s2, s1)
  {
    var a, b := CommonDates(s1, s2), CommonDates(s2, s1);
    assert Increasing(Dates(s1)) && Increasing(Dates(s2));
    var lt := (x: int, y: int) => x < y;
    assert Ordering.SortedBy(a, lt);
    assert Ordering.SortedBy(b, lt);
    Ordering.SortedUnique(a, b, lt);
  }

  /** Swapping the two securities swaps the aligned frames. */
  lemma AlignPairSymmetric(s1: Rows, s2: Rows)
    requires Chronological(s1) && Chronological(s2)
    ensures AlignPair(s2, s1) == (AlignPair(s1, s2).1, AlignPair(s1, s2).0)
  {
    CommonDatesSymmetric(s1, s2);
  }

  /** Aligned frames of chronological series are chronological. */
  lemma AlignChronological(s1: Rows, s2: Rows)
    requires Chronological(s1) && Chronological(s2)
    ensures Chronological(AlignPair(s1, s2).0) && Chronological(AlignPair(s1, s2).1)
  {
    assert Increasing(Dates(s1));
    assert Increasing(CommonDates(s1, s2));
  }

  /** Aligning a chronological series on its own calendar gives it back. */
  lemma {:induction false} RowAtChronological(s: Rows, i: nat)
    requires Chronological(s) && i < |s|
    ensures RowAt(s, s[i].date) == s[i]
    decreases i
  {
    assert Dates(s)[i] == s[i].date;
    if i > 0 {
      assert s[0].date < s[i].date;
      assert s[1..][i - 1] == s[i];
      RowAtChronological(s[1..], i - 1);
    }
  }

  lemma AlignSelf(s: Rows)
    requires Chronological(s)
    ensures CommonDates(s, s) == Dates(s)
    ensures AlignPair(s, s) == (s, s)
  {
    CommonDatesSelf(s);
    AlignOwnDates(s);
  }

  /** A chronological series shares all of its dates with itself. */
  lemma CommonDatesSelf(s: Rows)
    requires Chronological(s)
    ensures CommonDates(s, s) == Dates(s)
  {
    var cd, ds := CommonDates(s, s), Dates(s);
    assert Increasing(ds);
    var lt := (x: int, y: int) => x < y;
    assert Ordering.SortedBy(cd, lt);
    assert Ordering.SortedBy(ds, lt);
    Ordering.SortedUnique(cd, ds, lt);
  }

  /** Looking up each of its own dates in a chronological series gives the
      series back. */
  lemma AlignOwnDates(s: Rows)
    requires Chronological(s)
    ensures Align(s, Dates(s)) == s
  {
    var a := Align(s, Dates(s));
    forall i | 0 <= i < |s|
      ensures a[i] == s[i]
    {
      RowAtChronological(s, i);
    }
  }

  // ---------------------------------------------------------------------
  // Indicator ratios

  /** Every row has a non-zero previous close, so the price ratios
      `(df[f] - df['ycp']) / df['ycp']` are finite. */
  predicate RefPriced(s: Rows) {
    forall i :: 0 <= i < |s| ==> s[i].ycp != 0.0
  }

  /** The aligned frames, when the strategies read them (two common days or
      more), have non-zero previous closes. Rows off the common calendar are
      never read. */
  ghost predicate AlignedRefPriced(s1: Rows, s2: Rows) {
    |CommonDates(s1, s2)| >= 2 ==> RefPriced(AlignPair(s1, s2).0) && RefPriced(AlignPair(s1, s2).1)
  }

  /** Every day but the first has a non-zero previous close: what the
      position strategy divides by, since it fixes the first day's position
      at 1 without reading that day's previous close. */
  predicate PricedAfterFirst(s: Rows) {
    forall i :: 0 < i < |s| ==> s[i].ycp != 0.0
  }

  /** The aligned frames, when read (two common days or more), have
      non-zero previous closes after their first day. */
  ghost predicate AlignedPricedAfterFirst(s1: Rows, s2: Rows) {
    |CommonDates(s1, s2)| >= 2 ==> PricedAfterFirst(AlignPair(s1, s2).0) && PricedAfterFirst(AlignPair(s1, s2).1)
  }

  /** For chronological series the requirement does not depend on which
      security comes first. */
  lemma AlignedPricedAfterFirstSymmetric(s1: Rows, s2: Rows)
    requires Chronological(s1) && Chronological(s2)
    ensures AlignedPricedAfterFirst(s1, s2) <==> AlignedPricedAfterFirst(s2, s1)
  {
    CommonDatesSymmetric(s1, s2);
    AlignPairSymmetric(s1, s2);
  }

  /** Frames the other strategies can read are readable by the position
      strategy, and not conversely: only the first day's previous close may
      be 0. */
  lemma PricedAfterFirstCases(s: Rows)
    ensures RefPriced(s) ==> PricedAfterFirst(s)
    ensures PricedAfterFirst(s) && |s| > 0 ==> (RefPriced(s) <==> s[0].ycp != 0.0)
  {
  }

  /** Aligning never brings in a row from outside the two series, so series
      priced throughout stay priced once aligned. */
  lemma RefPricedAligned(s1: Rows, s2: Rows)
    requires RefPriced(s1) && RefPriced(s2)
    ensures AlignedRefPriced(s1, s2)
  {
    var (a1, a2) := AlignPair(s1, s2);
    forall i | 0 <= i < |a1|
      ensures a1[i] in s1 && a2[i] in s2
    {
    }
  }

  /** For chronological series the requirement does not depend on which
      security comes first. */
  lemma AlignedRefPricedSymmetric(s1: Rows, s2: Rows)
    requires Chronological(s1) && Chronological(s2)
    ensures AlignedRefPriced(s1, s2) <==> AlignedRefPriced(s2, s1)
  {
    CommonDatesSymmetric(s1, s2);
    AlignPairSymmetric(s1, s2);
  }

  /** Well-formed candles: positive previous close, and the day's low and
      high bracket its open and close. */
  ghost predicate Candles(s: Rows) {
    forall i :: 0 <= i < |s| ==>
      && s[i].ycp > 0.0
      && s[i].low <= Min(s[i].open, s[i].close)
      && s[i].high >= Max(s[i].open, s[i].close)
  }

  /** `df['vol'].max()` */
  function MaxVol(s: Rows): (m: real)
    requires |s| > 0
    ensures forall i :: 0 <= i < |s| ==> s[i].vol <= m
    ensures exists i :: 0 <= i < |s| && s[i].vol == m
    decreases |s|
  {
    if |s| == 1 then s[0].vol
    else
      var m := MaxVol(s[..|s| - 1]);
      assert forall i :: 0 <= i < |s| - 1 ==> s[..|s| - 1][i] == s[i];
      Max(m, s[|s| - 1].vol)
  }

  /** `(df[f] - df['ycp']) / df['ycp']` */
  function ChangeSeries(s: Rows, f: PriceField): (xs: seq<real>)
    requires RefPriced(s)
    ensures |xs| == |s|
  {
    seq(|s|, i requires 0 <= i < |s| => (Price(s[i], f) - s[i].ycp) / s[i].ycp)
  }

  /** `df['vol'] / df['vol'].max()` */
  function TurnoverSeries(s: Rows): (xs: seq<real>)
    requires VolumeScaled(s)
    ensures |xs| == |s|
  {
    var m := MaxVol(s);
    seq(|s|, i requires 0 <= i < |s| => s[i].vol / m)
  }

  /** `df['vol'].max()` is not 0, so `df['vol'] / df['vol'].max()` is
      finite on every row. */
  predicate VolumeScaled(s: Rows) {
    |s| > 0 && MaxVol(s) != 0.0
  }

  /** Positive volumes give turnover ratios in (0, 1]. */
  lemma TurnoverInUnitRange(s: Rows)
    requires |s| > 0 && forall i :: 0 <= i < |s| ==> s[i].vol > 0.0
    ensures VolumeScaled(s)
    ensures forall i :: 0 <= i < |s| ==> 0.0 < TurnoverSeries(s)[i] <= 1.0
  {
    assert s[0].vol > 0.0;
    var m := MaxVol(s);
    forall i | 0 <= i < |s|
      ensures 0.0 < TurnoverSeries(s)[i] <= 1.0
    {
      assert TurnoverSeries(s)[i] == s[i].vol / m;
      RatioInUnitRange(s[i].vol, m);
    }
  }

  lemma RatioInUnitRange(v: real, m: real)
    requires 0.0 < v <= m
    ensures 0.0 < v / m <= 1.0
  {
    assert v / m * m == v;
  }
}

=== FILE: service.dfy ===
/** `calculate_similarity`: score every security of the base security's
    section against it with the requested method, rank the scores and attach
    the performance comparison of the ranked securities. */
module Service {
  import opened Common
  import opened Series
  import Ordering
  import Ranking
  import NumericMethods
  import Dispatch
  import PriceGraph
  import GraphEditing
  import MaxCommonSubgraph
  import Performance

  /** One row of the section table (`get_section_stock_info`): a security
      code and one of its daily rows. */
  datatype Quote = Quote(code: string, row: Row)

  /** One entry of `similarStocks`. */
  datatype SimilarStock = SimilarStock(code: string, name: string, similarity: real)

  /** The request fields the computation reads. */
  datatype Request = Request(code: string, indicators: seq<string>, kind: string, count: int)

  /** The service's answer, or `Failure` where the source raises. */
  datatype Outcome = Failure | Response(similar: seq<SimilarStock>, performance: Performance.PerformanceData)

  /** The collaborators the service calls but that are not modelled: the
      numeric libraries, the random sample the node-limit fallback draws for
      each security, the name lookup and the per-security data read. */
  datatype Env = Env(
    numerics: NumericMethods.Numerics,
    samples: string -> (seq<nat>, seq<nat>),
    names: string -> Option<string>,
    fetch: string -> Rows)

  predicate GraphMethod(kind: string) {
    kind == "graphEditing" || kind == "maxCommonSubgraph"
  }

  /** Every security of the table other than the base security, aligned
      with the base security, gives the requested numeric or candle strategy
      finite ratio series (graph methods read no ratio that can be
      undefined). The base code's own rows are never scored. */
  ghost predicate Scorable(req: Request, base: Rows, table: seq<Quote>) {
    !GraphMethod(req.kind) ==>
      forall c :: c != req.code ==> Dispatch.Computable(base, RowsOf(table, c), req.indicators, req.kind)
  }

  /** A quote of another code leaves a code's rows unchanged. */
  lemma RowsOfOtherQuote(table: seq<Quote>, q: Quote, c: string)
    requires q.code != c
    ensures RowsOf(table + [q], c) == RowsOf(table, c)
  {
    var t := table + [q];
    assert t[..|t| - 1] == table;
  }

  /** The base security's own rows in the table never decide whether a
      request can be scored: adding one changes nothing. */
  lemma ScorableIgnoresBaseRows(req: Request, base: Rows, table: seq<Quote>, r: Row)
    ensures Scorable(req, base, table + [Quote(req.code, r)]) <==> Scorable(req, base, table)
  {
    forall c | c != req.code
      ensures RowsOf(table + [Quote(req.code, r)], c) == RowsOf(table, c)
    {
      RowsOfOtherQuote(table, Quote(req.code, r), c);
    }
  }

  /** `all_stocks['code'].unique()`: the codes in order of first appearance. */
  function UniqueCodes(table: seq<Quote>): (cs: seq<string>)
    ensures forall i, j :: 0 <= i < j < |cs| ==> cs[i] != cs[j]
    ensures forall c :: c in cs <==> exists i :: 0 <= i < |table| && table[i].code == c
    decreases |table|
  {
    if |table| == 0 then []
    else
      var init := UniqueCodes(table[..|table| - 1]);
      var c := table[|table| - 1].code;
      assert forall i :: 0 <= i < |table| - 1 ==> table[..|table| - 1][i] == table[i];
      if c in init then init else init + [c]
  }

  /** `all_stocks[all_stocks['code'] == code]`: that security's rows, in table order. */
  function RowsOf(table: seq<Quote>, code: string): (rows: Rows)
    ensures forall r :: r in rows <==> Quote(code, r) in table
  {
    var qs := Ordering.Filter(table, (q: Quote) => q.code == code);
    var rows := seq(|qs|, i requires 0 <= i < |qs| => qs[i].row);
    ProjectedRows(table, qs, code, rows);
    rows
  }

  /** The rows of the quotes of one code are exactly the rows quoted for it. */
  lemma ProjectedRows(table: seq<Quote>, qs: seq<Quote>, code: string, rows: Rows)
    requires forall q :: q in qs <==> q in table && q.code == code
    requires |rows| == |qs| && forall i :: 0 <= i < |qs| ==> rows[i] == qs[i].row
    ensures forall r :: r in rows <==> Quote(code, r) in table
  {
    forall r
      ensures r in rows <==> Quote(code, r) in table
    {
      if r in rows {
        var i :| 0 <= i < |rows| && rows[i] == r;
        assert qs[i] in qs;
        assert qs[i] == Quote(code, r);
      }
      if Quote(code, r) in table {
        assert Quote(code, r) in qs;
        var j :| 0 <= j < |qs| && qs[j] == Quote(code, r);
        assert rows[j] == r;
      }
    }
  }

  /** The score of one security: graph editing or maximum common subgraph
      on the two price graphs, otherwise the aligned-series dispatcher. */
  function Score(env: Env, req: Request, base: Rows, code: string, rows: Rows): (r: real)
    requires NumericMethods.ValidNumerics(env.numerics)
    requires !GraphMethod(req.kind) ==> Dispatch.Computable(base, rows, req.indicators, req.kind)
    ensures req.kind != "shape" && req.kind != "position" ==> 0.0 <= r <= 1.0
  {
    var inds := req.indicators;
    if GraphMethod(req.kind) then
      var g1 := PriceGraph.CreatePriceGraph(base, inds);
      var g2 := PriceGraph.CreatePriceGraph(rows, inds);
      if req.kind == "maxCommonSubgraph" then
        MaxCommonSubgraph.McsSimilarity(env.numerics, g1, g2, inds, env.samples(code).0, env.samples(code).1)
      else GraphEditing.GraphEditingSimilarity(g1, g2, inds)
    else Dispatch.StockSimilarity(env.numerics, base, rows, inds, req.kind)
  }

  /** The per-security score the loop computes, as a function of the code.
      The loop skips the base code, so its value there is never read. */
  function Scorer(env: Env, req: Request, base: Rows, table: seq<Quote>): (score: string -> real)
    requires NumericMethods.ValidNumerics(env.numerics)
    requires Scorable(req, base, table)
    ensures forall c :: c != req.code ==> score(c) == Score(env, req, base, c, RowsOf(table, c))
  {
    (c: string) => if c == req.code then 0.0 else Score(env, req, base, c, RowsOf(table, c))
  }

  /** The loop over the section's codes: every code but the base code is
      scored and named, in order; `None` when a name lookup fails (the
      source raises on the missing name). */
  function ScoreAll(codes: seq<string>, skip: string, names: string -> Option<string>,
                    score: string -> real): (r: Option<seq<SimilarStock>>)
    ensures r.Some? <==> forall c :: c in codes && c != skip ==> names(c).Some?
    ensures r.Some? ==> forall k :: 0 <= k < |r.value| ==>
      r.value[k].code in codes && r.value[k].code != skip && r.value[k].similarity == score(r.value[k].code)
    ensures r.Some? ==> forall c :: c in codes && c != skip ==> exists k :: 0 <= k < |r.value| && r.value[k].code == c
    decreases |codes|
  {
    if |codes| == 0 then Some([])
    else
      var c := codes[0];
      var rest := ScoreAll(codes[1..], skip, names, score);
      assert forall x :: x in codes <==> x == c || x in codes[1..];
      if c == skip then rest
      else if names(c).None? then None
      else if rest.None? then None
      else
        var all := [SimilarStock(c, names(c).value, score(c))] + rest.value;
        assert forall k :: 1 <= k < |all| ==> all[k] == rest.value[k - 1];
        assert forall x :: x in codes && x != skip ==> exists k :: 0 <= k < |all| && all[k].code == x by {
          forall x | x in codes && x != skip
            ensures exists k :: 0 <= k < |all| && all[k].code == x
          {
            if x == c {
              assert all[0].code == x;
            } else {
              var k :| 0 <= k < |rest.value| && rest.value[k].code == x;
              assert all[k + 1].code == x;
            }
          }
        }
        Some(all)
  }

  /** Distinct codes give distinct scored entries, one per code but the skipped one. */
  lemma {:induction false} ScoreAllDistinct(codes: seq<string>, skip: string, names: string -> Option<string>,
                                            score: string -> real)
    requires forall i, j :: 0 <= i < j < |codes| ==> codes[i] != codes[j]
    requires ScoreAll(codes, skip, names, score).Some?
    ensures var s := ScoreAll(codes, skip, names, score).value;
      && |s| == |codes| - (if skip in codes then 1 else 0)
      && forall i, j :: 0 <= i < j < |s| ==> s[i].code != s[j].code
    decreases |codes|
  {
    if |codes| > 0 {
      var tail := codes[1..];
      assert forall i, j :: 0 <= i < j < |tail| ==> tail[i] != tail[j];
      ScoreAllDistinct(tail, skip, names, score);
      assert codes[0] !in tail;
      assert skip in codes <==> skip == codes[0] || skip in tail;
    }
  }

  function Similarity(s: SimilarStock): real { s.similarity }

  function CodesOf(ss: seq<SimilarStock>): (cs: seq<string>)
    ensures |cs| == |ss| && forall i :: 0 <= i < |ss| ==> cs[i] == ss[i].code
  {
    seq(|ss|, i requires 0 <= i < |ss| => ss[i].code)
  }

  /** Entries taken from a scored list carry what every scored entry does. */
  lemma KeptScored(scored: seq<SimilarStock>, top: seq<SimilarStock>, codes: seq<string>, skip: string,
                   score: string -> real)
    requires forall k :: 0 <= k < |scored| ==>
      scored[k].code in codes && scored[k].code != skip && scored[k].similarity == score(scored[k].code)
    requires forall i :: 0 <= i < |top| ==> top[i] in scored
    ensures forall i :: 0 <= i < |top| ==>
      top[i].code in codes && top[i].code != skip && top[i].similarity == score(top[i].code)
  {
    forall i | 0 <= i < |top|
      ensures top[i].code in codes && top[i].code != skip && top[i].similarity == score(top[i].code)
    {
      var k :| 0 <= k < |scored| && scored[k] == top[i];
    }
  }

  /** The ranked securities: the scored list sorted by score, highest
      first, cut to `count`. */
  function Top(codes: seq<string>, skip: string, names: string -> Option<string>, score: string -> real,
               count: int): (r: Option<seq<SimilarStock>>)
    requires forall i, j :: 0 <= i < j < |codes| ==> codes[i] != codes[j]
    ensures r.Some? <==> forall c :: c in codes && c != skip ==> names(c).Some?
    ensures r.Some? ==> |r.value| == Ranking.SliceEnd(count, |codes| - (if skip in codes then 1 else 0))
    ensures r.Some? ==> forall i, j :: 0 <= i < j < |r.value| ==> r.value[i].similarity >= r.value[j].similarity
    ensures r.Some? ==> forall i, j :: 0 <= i < j < |r.value| ==> r.value[i].code != r.value[j].code
    ensures r.Some? ==> forall i :: 0 <= i < |r.value| ==>
      r.value[i].code != skip && r.value[i].code in codes && r.value[i].similarity == score(r.value[i].code)
  {
    match ScoreAll(codes, skip, names, score)
    case None => None
    case Some(scored) =>
      ScoreAllDistinct(codes, skip, names, score);
      var top := Ranking.TopK(scored, Similarity, count);
      Ranking.TopKDistinct(scored, Similarity, count, (s: SimilarStock) => s.code);
      Ranking.TopKMembers(scored, Similarity, count);
      KeptScored(scored, top, codes, skip, score);
      Some(top)
  }

  /** The response once the universe is non-empty: rank, keep `count`, and
      compare performance over the ranked codes. */
  function Ranked(env: Env, req: Request, base: Rows, codes: seq<string>, score: string -> real): (r: Outcome)
    requires forall i, j :: 0 <= i < j < |codes| ==> codes[i] != codes[j]
    ensures r.Failure? <==>
      Top(codes, req.code, env.names, score, req.count).None? || |base| == 0 || env.names(req.code).None?
    ensures r.Response? ==> Top(codes, req.code, env.names, score, req.count) == Some(r.similar)
    ensures r.Response? ==> |r.performance.stocks| >= 1 && r.performance.stocks[0].code == req.code
  {
    match Top(codes, req.code, env.names, score, req.count)
    case None => Failure
    case Some(top) =>
      match Performance.PerformanceComparison(base, req.code, CodesOf(top), env.fetch, env.names)
      case None => Failure
      case Some(perf) => Response(top, perf)
  }

  /** `calculate_similarity`, with an empty section table answered by an
      empty response. */
  function CalculateSimilarity(env: Env, req: Request, base: Rows, table: seq<Quote>): (r: Outcome)
    requires NumericMethods.ValidNumerics(env.numerics)
    requires Scorable(req, base, table)
    ensures |table| == 0 ==> r == Response([], Performance.PerformanceData([], []))
    ensures |table| > 0 ==> r == Ranked(env, req, base, UniqueCodes(table), Scorer(env, req, base, table))
  {
    if |table| == 0 then Response([], Performance.PerformanceData([], []))
    else Ranked(env, req, base, UniqueCodes(table), Scorer(env, req, base, table))
  }

  /** When a ranking fails, for any list of codes and any scorer. */
  lemma RankedFailureCases(env: Env, req: Request, base: Rows, codes: seq<string>, score: string -> real)
    requires forall i, j :: 0 <= i < j < |codes| ==> codes[i] != codes[j]
    ensures Ranked(env, req, base, codes, score).Failure? <==>
      || (exists c :: c in codes && c != req.code && env.names(c).None?)
      || |base| == 0
      || env.names(req.code).None?
  {
    var t := Top(codes, req.code, env.names, score, req.count);
    assert t.None? <==> exists c :: c in codes && c != req.code && env.names(c).None?;
  }

  /** When a response fails: a security of the section without a name, or
      an empty or unnamed base security. */
  lemma FailureCases(env: Env, req: Request, base: Rows, table: seq<Quote>)
    requires NumericMethods.ValidNumerics(env.numerics)
    requires Scorable(req, base, table)
    requires |table| > 0
    ensures CalculateSimilarity(env, req, base, table).Failure? <==>
      || (exists c :: c in UniqueCodes(table) && c != req.code && env.names(c).None?)
      || |base| == 0
      || env.names(req.code).None?
  {
    var codes, score := UniqueCodes(table), Scorer(env, req, base, table);
    assert CalculateSimilarity(env, req, base, table) == Ranked(env, req, base, codes, score);
    RankedFailureCases(env, req, base, codes, score);
  }

  /** What a ranking holds, for any list of distinct codes and any scorer:
      codes of the list other than the skipped one, each once, in
      descending order of score, with the base security heading the
      comparison. */
  lemma RankedFacts(env: Env, req: Request, base: Rows, codes: seq<string>, score: string -> real)
    requires forall i, j :: 0 <= i < j < |codes| ==> codes[i] != codes[j]
    requires Ranked(env, req, base, codes, score).Response?
    ensures var r := Ranked(env, req, base, codes, score);
      && (forall i, j :: 0 <= i < j < |r.similar| ==> r.similar[i].similarity >= r.similar[j].similarity)
      && (forall i, j :: 0 <= i < j < |r.similar| ==> r.similar[i].code != r.similar[j].code)
      && (forall i :: 0 <= i < |r.similar| ==>
            r.similar[i].code != req.code && r.similar[i].code in codes && r.similar[i].similarity == score(r.similar[i].code))
      && r.performance.stocks[0].code == req.code
  {
    var r := Ranked(env, req, base, codes, score);
    assert Top(codes, req.code, env.names, score, req.count) == Some(r.similar);
  }

  /** What a response holds: securities of the section other than the base
      security, each once, ranked by their scores under the
      requested method, with the base security heading the comparison. */
  lemma ResponseFacts(env: Env, req: Request, base: Rows, table: seq<Quote>)
    requires NumericMethods.ValidNumerics(env.numerics)
    requires Scorable(req, base, table)
    requires |table| > 0
    requires CalculateSimilarity(env, req, base, table).Response?
    ensures var r := CalculateSimilarity(env, req, base, table);
      && (forall i, j :: 0 <= i < j < |r.similar| ==> r.similar[i].similarity >= r.similar[j].similarity)
      && (forall i, j :: 0 <= i < j < |r.similar| ==> r.similar[i].code != r.similar[j].code)
      && (forall i :: 0 <= i < |r.similar| ==>
            && r.similar[i].code != req.code
            && (exists k :: 0 <= k < |table| && table[k].code == r.similar[i].code)
            && r.similar[i].similarity == Scorer(env, req, base, table)(r.similar[i].code))
      && r.performance.stocks[0].code == req.code
  {
    var codes := UniqueCodes(table);
    var score := Scorer(env, req, base, table);
    var r := Ranked(env, req, base, codes, score);
    assert CalculateSimilarity(env, req, base, table) == r;
    RankedFacts(env, req, base, codes, score);
    forall i | 0 <= i < |r.similar|
      ensures exists k :: 0 <= k < |table| && table[k].code == r.similar[i].code
    {
      assert r.similar[i].code in codes;
    }
  }

  /** A ranked security never scores below one the ranking dropped. */
  lemma RankedDominates(codes: seq<string>, skip: string, names: string -> Option<string>, score: string -> real,
                        count: int, dropped: SimilarStock, kept: SimilarStock)
    requires ScoreAll(codes, skip, names, score).Some?
    requires dropped in ScoreAll(codes, skip, names, score).value
    requires dropped !in Ranking.TopK(ScoreAll(codes, skip, names, score).value, Similarity, count)
    requires kept in Ranking.TopK(ScoreAll(codes, skip, names, score).value, Similarity, count)
    ensures score(kept.code) >= score(dropped.code)
  {
    var scored := ScoreAll(codes, skip, names, score).value;
    Ranking.TopKDominates(scored, Similarity, count, dropped, kept);
    var top := Ranking.TopK(scored, Similarity, count);
    assert kept in multiset(top);
  }

  // ---------------------------------------------------------------------
  // The empty-table response as written

  /** The value handed to the response's `performanceData` field: a
      performance record, or a bare list. */
  datatype PerformanceArg = Record(data: Performance.PerformanceData) | EmptyList

  /** Building the response validates `performanceData` as a record; a list
      does not validate and the constructor raises. */
  function BuildResponse(similar: seq<SimilarStock>, arg: PerformanceArg): (r: Outcome)
    ensures r.Response? <==> arg.Record?
    ensures r.Response? ==> r.similar == similar && r.performance == arg.data
  {
    match arg
    case Record(data) => Response(similar, data)
    case EmptyList => Failure
  }

  /** The service as written: the empty-table branch passes an empty list
      as `performanceData`. */
  function CalculateSimilarityAsWritten(env: Env, req: Request, base: Rows, table: seq<Quote>): (r: Outcome)
    requires NumericMethods.ValidNumerics(env.numerics)
    requires Scorable(req, base, table)
    ensures |table| > 0 ==> r == CalculateSimilarity(env, req, base, table)
  {
    if |table| == 0 then BuildResponse([], EmptyList)
    else Ranked(env, req, base, UniqueCodes(table), Scorer(env, req, base, table))
  }

  /** The empty-table branch of the source raises instead of answering with
      an empty ranking. */
  lemma EmptyTableRaisesAsWritten(env: Env, req: Request, base: Rows)
    requires NumericMethods.ValidNumerics(env.numerics)
    ensures Scorable(req, base, [])
    ensures CalculateSimilarityAsWritten(env, req, base, []).Failure?
    ensures CalculateSimilarity(env, req, base, []).Response?
  {
    forall c
      ensures Dispatch.Computable(base, RowsOf([], c), req.indicators, req.kind)
    {
      assert RowsOf([], c) == [];
      Dispatch.ComputableWithoutRows(base, req.indicators, req.kind);
    }
  }
}

=== FILE: simplified.dfy ===
/** `_calculate_simplified_similarity` and `_calculate_feature_similarity`:
    the fallback for graphs over the node limit, which compares the mean and
    the standard deviation of each requested feature over a sample of the
    nodes of either graph. The random sample is a parameter. */
module Simplified {
  import opened Common
  import opened NumericMethods
  import opened PriceGraph

  const SampleCap: nat := 50

  /** `min(50, min(n1, n2))` */
  function SampleSize(n1: nat, n2: nat): (k: nat)
    ensures k <= SampleCap && k <= n1 && k <= n2
    ensures k == SampleCap || k == n1 || k == n2
  {
    if SampleCap <= n1 && SampleCap <= n2 then SampleCap
    else if n1 <= n2 then n1 else n2
  }

  /** What `random.sample(nodes, size)` returns: `size` distinct node positions. */
  ghost predicate IsSample(sample: seq<nat>, n: nat, size: nat) {
    && |sample| == size
    && (forall k :: 0 <= k < |sample| ==> sample[k] < n)
    && (forall k, m :: 0 <= k < m < |sample| ==> sample[k] != sample[m])
  }

  /** The feature values of the sampled nodes that carry the feature. */
  function SampledValues(g: Graph, sample: seq<nat>, ind: Indicator): (xs: seq<real>)
    ensures |xs| <= |sample|
    decreases |sample|
  {
    if |sample| == 0 then []
    else
      var i := sample[|sample| - 1];
      SampledValues(g, sample[..|sample| - 1], ind)
      + (if i < |g.nodes| && Feature(g.nodes[i].f, ind).Some? then [Feature(g.nodes[i].f, ind).value] else [])
  }

  /** The sample size never exceeds either node count, so a sample of
      that size exists in each graph (its first positions, say) and
      `random.sample` does not raise. */
  lemma SampleSizeFits(n1: nat, n2: nat)
    ensures var k := SampleSize(n1, n2);
      IsSample(seq(k, i requires 0 <= i < k => i), n1, k) && IsSample(seq(k, i requires 0 <= i < k => i), n2, k)
  {
  }

  /** From a genuine sample of nodes that all carry the feature, one value
      per sampled node is collected. */
  lemma {:induction false} SampledValuesOfSample(g: Graph, sample: seq<nat>, ind: Indicator, size: nat)
    requires IsSample(sample, |g.nodes|, size)
    requires forall i :: 0 <= i < |g.nodes| ==> Feature(g.nodes[i].f, ind).Some?
    ensures |SampledValues(g, sample, ind)| == size
    decreases |sample|
  {
    if |sample| > 0 {
      SampledValuesOfSample(g, sample[..|sample| - 1], ind, size - 1);
    }
  }

  /** `(x - m) ** 2`, with the case x = m written out. */
  function SquaredDeviation(x: real, m: real): (sq: real)
    ensures sq >= 0.0
    ensures x == m ==> sq == 0.0
  {
    if x == m then 0.0 else (x - m) * (x - m)
  }

  function SquaredDeviations(xs: seq<real>, m: real): (sq: seq<real>)
    ensures |sq| == |xs|
    ensures forall k :: 0 <= k < |xs| ==> sq[k] == SquaredDeviation(xs[k], m)
  {
    seq(|xs|, k requires 0 <= k < |xs| => SquaredDeviation(xs[k], m))
  }

  /** `np.std`: the population standard deviation, with `sqrt` supplied. */
  function Std(n: Numerics, xs: seq<real>): (sd: real)
    requires |xs| > 0 && ValidNumerics(n)
    ensures sd >= 0.0
  {
    var sq := SquaredDeviations(xs, Mean(xs));
    MeanNonNegative(sq);
    n.sqrt(Mean(sq))
  }

  ghost predicate Constant(xs: seq<real>) {
    forall i, j :: 0 <= i < |xs| && 0 <= j < |xs| ==> xs[i] == xs[j]
  }

  /** A list is constant exactly when every value equals the mean. */
  lemma ConstantIffAtMean(xs: seq<real>)
    requires |xs| > 0
    ensures Constant(xs) <==> forall i :: 0 <= i < |xs| ==> xs[i] == Mean(xs)
  {
    if Constant(xs) {
      MeanConstant(xs, xs[0]);
    }
  }

  /** Values that are all the same have no spread. */
  lemma ConstantStdZero(n: Numerics, xs: seq<real>)
    requires |xs| > 0 && ValidNumerics(n)
    requires Constant(xs)
    ensures Std(n, xs) == 0.0
  {
    ConstantIffAtMean(xs);
    var sq := SquaredDeviations(xs, Mean(xs));
    SumConstant(sq, 0.0, |sq| as real);
  }

  /** The statistical closeness of two value lists: 0 when a list is empty
      or has no spread, otherwise the mean of the closeness of the means and
      of the standard deviations, which is 1 exactly when both agree. */
  function FeatureSimilarity(n: Numerics, v1: seq<real>, v2: seq<real>): (r: real)
    requires ValidNumerics(n)
    ensures 0.0 <= r <= 1.0
    ensures |v1| == 0 || |v2| == 0 ==> r == 0.0
    ensures |v1| > 0 && |v2| > 0 ==> (r > 0.0 <==> Std(n, v1) != 0.0 && Std(n, v2) != 0.0)
    ensures r == 1.0 <==> |v1| > 0 && |v2| > 0 && Std(n, v1) != 0.0 && Std(n, v2) != 0.0
                          && Mean(v1) == Mean(v2) && Std(n, v1) == Std(n, v2)
  {
    if |v1| == 0 || |v2| == 0 then 0.0
    else
      var sd1, sd2 := Std(n, v1), Std(n, v2);
      if sd1 == 0.0 || sd2 == 0.0 then 0.0
      else
        var meanSim := DistanceToScore(Abs(Mean(v1) - Mean(v2)));
        var stdSim := DistanceToScore(Abs(sd1 - sd2));
        (meanSim + stdSim) / 2.0
  }

  /** Values without spread, on either side, score 0. */
  lemma ConstantFeatureScoresZero(n: Numerics, v1: seq<real>, v2: seq<real>)
    requires ValidNumerics(n) && |v1| > 0
    requires Constant(v1)
    ensures FeatureSimilarity(n, v1, v2) == 0.0
  {
    ConstantStdZero(n, v1);
  }

  lemma FeatureSimilaritySymmetric(n: Numerics, v1: seq<real>, v2: seq<real>)
    requires ValidNumerics(n)
    ensures FeatureSimilarity(n, v1, v2) == FeatureSimilarity(n, v2, v1)
  {
  }

  /** One score per indicator name in the request, in request order, for
      the names that denote an indicator. */
  function FeatureScores(n: Numerics, g1: Graph, g2: Graph, inds: seq<string>, sample1: seq<nat>, sample2: seq<nat>): (sc: seq<real>)
    requires ValidNumerics(n)
    ensures |sc| <= |inds|
    ensures AllIn(sc, 0.0, 1.0)
    ensures |sc| == 0 <==> forall k :: 0 <= k < |inds| ==> ParseIndicator(inds[k]).None?
    decreases |inds|
  {
    if |inds| == 0 then []
    else
      var rest := FeatureScores(n, g1, g2, inds[..|inds| - 1], sample1, sample2);
      match ParseIndicator(inds[|inds| - 1])
      case None => rest
      case Some(ind) =>
        var s := FeatureSimilarity(n, SampledValues(g1, sample1, ind), SampledValues(g2, sample2, ind));
        AllInConcat(rest, [s], 0.0, 1.0);
        rest + [s]
  }

  /** The fallback score: the mean of the feature scores, 0 without any. */
  function SimplifiedSimilarity(n: Numerics, g1: Graph, g2: Graph, inds: seq<string>, sample1: seq<nat>, sample2: seq<nat>): (r: real)
    requires ValidNumerics(n)
    ensures 0.0 <= r <= 1.0
    ensures (forall k :: 0 <= k < |inds| ==> ParseIndicator(inds[k]).None?) ==> r == 0.0
  {
    var sc := FeatureScores(n, g1, g2, inds, sample1, sample2);
    if |sc| == 0 then 0.0
    else
      MeanBounds(sc, 0.0, 1.0);
      Mean(sc)
  }

  /** Swapping the graphs together with their samples gives the same score. */
  lemma {:induction false} FeatureScoresSymmetric(n: Numerics, g1: Graph, g2: Graph, inds: seq<string>, sample1: seq<nat>, sample2: seq<nat>)
    requires ValidNumerics(n)
    ensures FeatureScores(n, g1, g2, inds, sample1, sample2) == FeatureScores(n, g2, g1, inds, sample2, sample1)
    decreases |inds|
  {
    if |inds| > 0 {
      FeatureScoresSymmetric(n, g1, g2, inds[..|inds| - 1], sample1, sample2);
      match ParseIndicator(inds[|inds| - 1])
      case None =>
      case Some(ind) =>
        FeatureSimilaritySymmetric(n, SampledValues(g1, sample1, ind), SampledValues(g2, sample2, ind));
    }
  }

  lemma SimplifiedSymmetric(n: Numerics, g1: Graph, g2: Graph, inds: seq<string>, sample1: seq<nat>, sample2: seq<nat>)
    requires ValidNumerics(n)
    ensures SimplifiedSimilarity(n, g1, g2, inds, sample1, sample2) == SimplifiedSimilarity(n, g2, g1, inds, sample2, sample1)
  {
    FeatureScoresSymmetric(n, g1, g2, inds, sample1, sample2);
  }
}

=== FILE: universe.dfy ===
/** `get_section_all_stock_code`: the comparison universe of a security is
    the security itself followed by the other securities of its industry
    section, on the same board and of the same special-treatment status. */
module Universe {
  import opened Common

  /** The industry classification row of a security (`get_stock_nums`);
      `csi` and `first` are the CSI and first-level industry codes, either of
      which the table may leave NULL. */
  datatype Classification = Classification(csi: Option<string>, board: string, first: Option<string>, name: string)

  /** The classification column the peer query filters on. */
  datatype Column = CsiIndusCode | FirstIndustryCode

  /** A peer query (`get_stock`): the security, the industry code, the board,
      the column to match the code in and whether only "ST" securities are wanted. */
  datatype PeerQuery = PeerQuery(code: string, industry: Option<string>, board: string, column: Column, st: bool)

  /** A security under special treatment carries an "ST" or "*ST" name prefix. */
  predicate IsSpecialTreatment(name: string) {
    StartsWith(name, "ST") || StartsWith(name, "*ST")
  }

  /** The peer query the resolver issues for a classified security: the CSI
      code is used when it coincides with the first-level code or when the
      finer section level (1) is requested, the first-level code otherwise. */
  function SectionQuery(code: string, c: Classification, level: int): (q: PeerQuery)
    requires c.csi.Some?
    ensures q.code == code && q.board == c.board
    ensures q.st <==> IsSpecialTreatment(c.name)
    ensures q.column == CsiIndusCode <==> c.first == c.csi || level == 1
    ensures q.column == CsiIndusCode ==> q.industry == c.csi
    ensures q.column == FirstIndustryCode ==> q.industry == c.first
  {
    var st := IsSpecialTreatment(c.name);
    if c.first == c.csi || level == 1 then PeerQuery(code, c.csi, c.board, CsiIndusCode, st)
    else PeerQuery(code, c.first, c.board, FirstIndustryCode, st)
  }

  /** The universe: `[code]` when the security is unclassified or has no CSI
      code, otherwise `[code]` followed by the peers the query returns.
      `lookup` and `peers` stand for the two database reads. */
  function SectionCodes(code: string, level: int, lookup: Option<Classification>,
                        peers: PeerQuery -> seq<string>): (r: seq<string>)
    ensures |r| >= 1 && r[0] == code
    ensures lookup.None? || lookup.value.csi.None? ==> r == [code]
    ensures lookup.Some? && lookup.value.csi.Some? ==>
      r[1..] == peers(SectionQuery(code, lookup.value, level))
  {
    match lookup
    case None => [code]
    case Some(c) =>
      if c.csi.None? then [code]
      else [code] + peers(SectionQuery(code, c, level))
  }

  /** The "*ST" prefix is not an extension of the "ST" prefix, so both are needed. */
  lemma StarPrefixIsSeparate()
    ensures IsSpecialTreatment("*ST")
    ensures !StartsWith("*ST", "ST")
  {
    assert "*ST"[..2] == "*S";
  }

  /** Whatever the peer query returns, every peer is in the universe and the
      universe holds nothing else but the security itself. */
  lemma SectionCodesMembers(code: string, level: int, c: Classification, peers: PeerQuery -> seq<string>)
    requires c.csi.Some?
    ensures forall x :: x in SectionCodes(code, level, Some(c), peers) <==>
      x == code || x in peers(SectionQuery(code, c, level))
  {
    var r := SectionCodes(code, level, Some(c), peers);
    assert r == [code] + r[1..];
  }
}
